=== FILE: README.md ===
# A-Chyuan blog scripts in Dafny

This project models the client-side logic of a Docsify blog. The blog's
pages are Markdown rendered in the browser, and six scripts add the
behaviour modelled here:

- **toc.js** builds the page's table of contents from its `h1`–`h6`
  headings. One pass keeps a stack of open headings. The script also marks
  the TOC item of the heading that governs the first visible block.
- **sidebar.js** keeps the navigation sidebar in sync:
  - its collapsible branches toggle on click;
  - the items linking to the current page are marked `current`;
  - every branch without a current item is folded;
  - the nav is scrolled to the current item.
- **custom-renderer.js** overrides the Markdown renderer. It handles
  callout paragraphs, special link titles, and numbered figures whose
  options are read by the `:key=value` scanner `getAndRemoveConfig`.
- **decrypt-markdown.js** replaces a page holding an
  `ENCRYPTED.<alg>(<ciphertext>)` envelope by its decryption.
- **des-encryption.js** is the tool page that writes such envelopes and
  reads them back.
- **rearrange-dom.js** moves the page's elements with four small helpers
  (`removeElement`, `insertElements`, `appendElements`, `wrapElement`).
  It uses them to lay out the sidebar's profile block and the content's
  TOC column.

Each script is one module:

| module | script |
|---|---|
| `Toc` | heading tree |
| `Active` | displayed flags and the active item |
| `Sidebar` | sidebar sync |
| `Config` | option scanner |
| `Renderer` | renderer |
| `Envelope` | both encryption scripts |
| `Dom` | DOM helpers |

`Strings` holds the JavaScript string primitives (`\s`, `\w`, `trim`,
`split`, `join`, `slice`), and `Wrappers` holds `Option`.

The models are pure functions on immutable data:

- The DOM is a map from element ids to nodes. Each node has a tag, its
  classes, its parent and its ordered children. `insertBefore` and
  `appendChild` follow the DOM standard's "pre-insert" steps: the node is
  first removed from its old parent.
- The cipher library, the key prompt, `decodeURI` and layout measurements
  are parameters.
- Each operation is paired with a reference definition, an inverse or an
  invariant, and a lemma connects the two:
  - The stack-built TOC equals a left fold of "insert on the right spine".
    It also equals a block-recursive tree whose pre-order is the heading
    sequence.
  - The envelope parser inverts the envelope writer.
  - The option scanner gives back the options a title was written with.
  - The DOM helpers are stated by their effect on every child list.

## Model

| member | source | states |
|---|---|---|
| `Toc.GetLevel` | docs/js/toc.js:17 | the level read from a heading tag `h1`…`h6` is its digit, 1…6, and writing that level back as a tag gives the same tag |
| `Toc.LevelOfTagName` | docs/js/toc.js:17 | reading the level of the tag made from level n gives n |
| `Toc.FlattenAppend` | docs/js/toc.js:47-48 | adding a heading to the outline adds exactly that heading at the end of the outline's pre-order |
| `Toc.AppendRoots` | docs/js/toc.js:47-48 | adding a heading keeps every top-level item and adds at most the new heading as a new top-level item |
| `Toc.NestedAppend` | docs/js/toc.js:43-48 | adding a heading keeps every child strictly deeper than its parent |
| `Toc.OutlineFlatten` | docs/js/toc.js:36-55 | every heading becomes exactly one item, and the pre-order of the TOC forest is the heading sequence in document order |
| `Toc.OutlineNested` | docs/js/toc.js:43-48 | in the TOC every child's level is strictly greater than its parent's |
| `Toc.OutlineIsBlocks` | docs/js/toc.js:31-55 | the stack's left fold equals the block-recursive tree, in which each heading owns the maximal run of deeper headings that follows it |
| `Toc.PopChain` | docs/js/toc.js:43-45 | popping an open heading keeps the forest the builder's state stands for |
| `Toc.PopIncreasing` | docs/js/toc.js:43-45 | popping keeps the stack levels strictly increasing from bottom to top |
| `Toc.PushIsAppend` | docs/js/toc.js:47-54 | pushing a heading onto a stack of strictly shallower headings, after the jump back, adds it under the top open heading, or at the root when the stack is empty |
| `Toc.PushIncreasing` | docs/js/toc.js:51-54 | the push keeps the stack levels strictly increasing |
| `Toc.PushStep` | docs/js/toc.js:47-54 | one push keeps the loop invariant: increasing stack, no stray closed items, state equal to the outline of the headings seen so far |
| `Toc.CloseDeeper` | docs/js/toc.js:43-45 | after the jump back the stack is empty or its top is strictly shallower than the current heading, the invariant holds, and the forest is unchanged |
| `Toc.Visit` | docs/js/toc.js:39-55 | one loop turn extends the built outline by exactly the current heading |
| `Toc.CloseAll` | docs/js/toc.js:36-55 | at the end every open heading is attached to its parent's list and the forest is what the state stood for |
| `Toc.GenerateToc` | docs/js/toc.js:31-55 | generateTOC's stack pass returns exactly the outline of the headings |
| `Toc.OutlineTwo` | docs/js/toc.js:43-48 | a heading followed by a deeper one nests the second under the first |
| `Toc.OutlineThree` | docs/js/toc.js:43-48 | a third heading deeper than the first but no deeper than the second becomes the second's sibling under the first |
| `Toc.ExampleSiblings` | docs/js/toc.js:43-48 | h1 A, h2 A.1, h2 A.2, h1 B puts both h2 under A and B beside A, each item with its own empty sub-list |
| `Toc.ExampleLevelSkip` | docs/js/toc.js:43-48 | a level skip nests directly: h1, h3, h2 makes both the h3 and the h2 children of the h1 |
| `Toc.ExampleEmpty` | docs/js/toc.js:32-34 | no headings give an empty root list |
| `Active.ApplyReports` | docs/js/toc.js:102-113 | the observer callback changes only `displayed` flags: the blocks, their kinds and their ids are kept |
| `Active.ApplyReportsSpec` | docs/js/toc.js:102-112 | a block is displayed exactly when the last report about it had a positive ratio; an unreported block keeps its flag |
| `Active.FirstDisplayed` | docs/js/toc.js:142 | the first displayed block is displayed and none before it is; when there is none, no block is displayed |
| `Active.FindHeader` | docs/js/toc.js:124-134 | null for null; otherwise the nearest preceding heading sibling, or null when every preceding sibling is not a heading |
| `Active.GoverningHeading` | docs/js/toc.js:142-153 | the result is a heading that governs the first displayed block, and it is missing exactly when nothing is displayed or no heading comes at or before that block |
| `Active.GovernsUnique` | docs/js/toc.js:142-149 | at most one heading governs the page |
| `Active.FirstActive` | docs/js/toc.js:155-156 | `.toc .active` is the first active item: it is active and none before it is, and when it is missing no item is active |
| `Active.FirstWithId` | docs/js/toc.js:136-139 | findTarget is the first item with the heading's id, and when it is missing no item has that id |
| `Active.Activate` | docs/js/toc.js:155-161 | the first active item loses `active`, the first item with the id gains it, nothing else changes, and at most one item stays active |
| `Active.SetActive` | docs/js/toc.js:141-162 | with no governing heading the TOC is untouched; otherwise exactly the target item of the governing heading becomes active, with the old active item cleared; at most one active item is kept |
| `Active.MissingTargetNoneActive` | docs/js/toc.js:155-161 | when the governing heading has no TOC item, the old active item is cleared and no item ends up active |
| `Sidebar.CurrentBelow` | docs/js/sidebar.js:88-95 | a current item at any depth makes the list it is in count as holding a current item |
| `Sidebar.CurrentUnder` | docs/js/sidebar.js:88-95 | every strict ancestor of a current item is collapsible and its sub-list holds a current item |
| `Sidebar.Toggle` | docs/js/sidebar.js:31-42 | clicking an open branch sets its size to 0 and adds `close`; clicking a closed one sets its natural height and removes `close`; links, marks and items are kept |
| `Sidebar.ToggleTwice` | docs/js/sidebar.js:31-42 | two clicks on a branch with content restore whether it is open, and `close` then matches the closed state |
| `Sidebar.ToggleEmpty` | docs/js/sidebar.js:31-42 | a branch with no content height stays at size 0 under clicks; only `close` flips |
| `Sidebar.Fold` | docs/js/sidebar.js:58-61 | foldSubList adds `close` and sets size 0, changing nothing else |
| `Sidebar.Expand` | docs/js/sidebar.js:63-65 | expandSubList sets the natural height and leaves `close` as it was |
| `Sidebar.SetCurrent` | docs/js/sidebar.js:70-81 | each top-level item is current afterwards exactly when it was already or its link names the page; links, `close` and sub-lists are kept |
| `Sidebar.SetCurrentAt` | docs/js/sidebar.js:70-81 | an item is current afterwards exactly when it was already or the last `/`-segment of its href equals the page name; items, links and `close` are kept, and several items may match |
| `Sidebar.CloseOthers` | docs/js/sidebar.js:83-102 | each top-level collapsible item is expanded when its sub-list holds a current item at any depth, and folded otherwise; current marks, links and collapsibility are kept |
| `Sidebar.CloseOthersAt` | docs/js/sidebar.js:83-102 | every collapsible item is expanded when some list item at any depth below it is current, and folded otherwise; current marks and links are kept |
| `Sidebar.AncestorsExpanded` | docs/js/sidebar.js:83-102 | after closeOthers every collapsible ancestor of a current item is expanded |
| `Sidebar.FirstCurrent` | docs/js/sidebar.js:54-56 | `li.current` is the path of a current item, and it is missing exactly when no item is current |
| `Sidebar.FirstCurrentFirst` | docs/js/sidebar.js:54-56 | no item before the found one in document order (an ancestor, or an item with a smaller index where the paths first differ) is current, so it is the item `querySelector` returns |
| `Sidebar.ScrollToCurrent` | docs/js/sidebar.js:105-133 | no scroll without a current item or without the profile wrapper; a top-level item goes to its offset less profile height (block size plus two block margins) and gap; a nested item goes to its parent's offset plus padding less profile height and gap, plus its own offset when it sits in the 64-pixel fade band |
| `Sidebar.Initial` | docs/js/sidebar.js:67-137 | after initial a top-level item is current exactly when it was or its link names the route's page; links and collapsibility are kept; a scroll offset is produced exactly when some item is current and the profile wrapper exists |
| `Sidebar.InitialExpandsRoute` | docs/js/sidebar.js:67-137 | after initial every item linking to the route's page is current and every collapsible ancestor of it is expanded |
| `Config.RemoveAllAbsent` | docs/js/custom-renderer.js:37-39 | removeSubstring leaves text in which no occurrence of the pattern starts unchanged |
| `Config.RemoveAll` | docs/js/custom-renderer.js:37-39 | removeSubstring never makes the text longer |
| `Config.RemoveAllDeletes` | docs/js/custom-renderer.js:37-39 | removeSubstring only deletes characters: the result's multiset of characters is contained in the input's |
| `Config.RemoveAllSplice` | docs/js/custom-renderer.js:37-39 | removeSubstring removes an occurrence and keeps the text before it, provided no occurrence starts inside that text |
| `Config.RemoveAllOverlap` | docs/js/custom-renderer.js:37-39 | that proviso is needed: in `xy` followed by `xyx`, the left-to-right scan removes the occurrence starting at the front, leaving `yx` |
| `Config.StripQuotes` | docs/js/custom-renderer.js:21-22 | the title never grows and changes only when it starts or ends with a quote; a quote at the start alone, at the end alone, or at both ends is removed, and only that quote or those two quotes go |
| `Config.StripQuotesShape` | docs/js/custom-renderer.js:21-22 | each of the two anchored replaces removes at most one character, so the result is the title or the title one character short at the front, the back or both |
| `Config.Scan` | docs/js/custom-renderer.js:23-30 | the global replace records only keys that are non-empty, free of `:` and not `__proto__` |
| `Config.GetAndRemoveConfig` | docs/js/custom-renderer.js:14-35 | an undefined or empty title yields empty text and an empty config; recorded keys never contain `:` and are never `__proto__` |
| `Config.ScanNoColon` | docs/js/custom-renderer.js:20-31 | text without a colon holds no token and is kept whole |
| `Config.ConfigNoColon` | docs/js/custom-renderer.js:14-35 | a title without a colon records nothing and comes back trimmed, with at most one quote stripped at each end |
| `Config.StripQuotesBoth` | docs/js/custom-renderer.js:21-22 | one quote is removed at each end of the title, whether or not the two quotes match |
| `Config.ColonKeyKept` | docs/js/custom-renderer.js:23-29 | a token whose key ends in `:` is left in the text and not recorded, so the title comes back whole with an empty config |
| `Config.RecordedValue` | docs/js/custom-renderer.js:25 | a value made of `[\w-%]` characters is recorded as itself, since it cannot hold `&quot;` |
| `Config.TokenBodyOf` | docs/js/custom-renderer.js:23 | a key, or a key `=` value, followed by a space or the end is one token with that key and value |
| `Config.MatchOption` | docs/js/custom-renderer.js:23 | ` :key` or ` :key=value` matches wherever it stands, and the match ends where the option does |
| `Config.ScanOptions` | docs/js/custom-renderer.js:23-30 | well-formed options are all removed and all recorded except `__proto__`, later keys overwriting earlier ones |
| `Config.ScanText` | docs/js/custom-renderer.js:23-30 | title text in front of the options is kept character by character when it has no `:` at its start or right after white space, and neither a quote nor white space at either end; colons and quotes elsewhere are allowed |
| `Config.StripQuotesNoop` | docs/js/custom-renderer.js:21-22 | text that neither starts nor ends with a quote keeps both ends |
| `Config.ConfigRoundTrip` | docs/js/custom-renderer.js:14-35 | getAndRemoveConfig of title text followed by well-formed options gives back that text and exactly those options (except one named `__proto__`, which is not recorded), when the text has no `:` at its start or right after white space, and neither a quote nor white space at either end (so `Step 1: setup` qualifies) |
| `Config.ProtoOptionDropped` | docs/js/custom-renderer.js:17-27 | an option named `__proto__` is removed from the title but leaves the config empty, because `config[key] = …` on a plain object hands that key to the prototype setter, which ignores `true` and strings |
| `Renderer.Classify` | docs/js/custom-renderer.js:47-53 | a paragraph is a warning exactly when it starts with `!&gt;`, a tip exactly when it starts with `?&gt;` and not `!&gt;`, and plain otherwise |
| `Renderer.ParagraphCallout` | docs/js/custom-renderer.js:44-56 | a callout's marker is cut off, the rest is trimmed, and the body alone sits in a paragraph of the callout's class |
| `Renderer.Paragraph` | docs/js/custom-renderer.js:44-56 | text starting with the warning marker (tested first) becomes a `warn` paragraph, and text starting with the tip marker a `tip` paragraph, each holding the trimmed text after the five-character marker; text with neither marker is wrapped unchanged in `<p>` |
| `Renderer.Link` | docs/js/custom-renderer.js:67-81 | exactly the three special titles get markup of their own; every other title is left to the default renderer |
| `Renderer.LinkShowsText` | docs/js/custom-renderer.js:67-78 | the markup of every special title shows the link text, and the encrypted-page anchor points at `#href` |
| `Renderer.FileName` | docs/js/custom-renderer.js:86-91 | the figure name is empty when the last `/`-segment has no dot; otherwise it is what precedes that segment's last dot, inner dots kept |
| `Renderer.FileNameOf` | docs/js/custom-renderer.js:86-91 | `dir/name.ext` gives `name`, whatever dots the name holds |
| `Renderer.Image` | docs/js/custom-renderer.js:82-114 | a figure exactly when the title's config holds `figure`; the figure's image title is the title with every `:figure ` removed; it is numbered by the file name, captioned by the title's leftover text, and has alt `Figure <name>` when the alt is empty; otherwise the image is drawn plain |
| `Renderer.FigureConfig` | docs/js/custom-renderer.js:84 | the title `:figure caption` reads as the figure flag with the caption as its text, for a caption with no colon and neither a quote nor white space at either end |
| `Renderer.FigureTitle` | docs/js/custom-renderer.js:85 | removing `:figure ` from `:figure caption` leaves the caption whenever the caption holds no further `:figure ` |
| `Renderer.FigureTitleColon` | docs/js/custom-renderer.js:85 | a caption such as `a:b`, which holds a colon but no `:figure `, is kept whole |
| `Renderer.FigureCaption` | docs/js/custom-renderer.js:82-106 | a `:figure caption` title makes a figure whose image title and caption are both the caption, for a caption with no colon and neither a quote nor white space at either end |
| `Renderer.NotFigure` | docs/js/custom-renderer.js:109-113 | a title without a colon, or no title, leaves the image plain |
| `Strings.TrimPadded` | docs/js/custom-renderer.js:11 | trim removes exactly the white space padding around text with no white space at its ends |
| `Strings.TrimNoop` | docs/js/custom-renderer.js:31 | trim leaves text with no white space at either end unchanged |
| `Strings.JoinSplit` | docs/js/custom-renderer.js:91 | joining the pieces of a split with the same separator gives back the string |
| `Strings.SplitJoin` | docs/js/custom-renderer.js:91 | splitting a join of separator-free pieces gives back the pieces |
| `Strings.LastSegmentSpec` | docs/js/sidebar.js:74 | `split(c).pop()` is a separator-free suffix that is the whole string or follows its last separator |
| `Strings.LastSegmentAfter` | docs/js/custom-renderer.js:89 | after a separator, a separator-free tail is the last segment |
| `Strings.RunLenSpec` | docs/js/decrypt-markdown.js:27 | a greedy character-class run holds only class characters and stops at the first one outside the class |
| `Envelope.LastClose` | docs/js/decrypt-markdown.js:27 | the back-off of `(\S+)\)` picks the last `)` of the non-space run after at least one character, and fails when there is none |
| `Envelope.MatchHere` | docs/js/decrypt-markdown.js:27 | a match's name is a non-empty `\w` run and its content a non-empty non-space run, and the text starts with their envelope |
| `Envelope.FindAtSpec` | docs/js/decrypt-markdown.js:27 | the match found is at the leftmost position where the pattern matches, and none is found when it matches nowhere |
| `Envelope.FindAtFirst` | docs/js/decrypt-markdown.js:27 | the first position where the pattern matches is the one found |
| `Envelope.FindAtNone` | docs/js/decrypt-markdown.js:27 | where the pattern matches at no position, nothing is found |
| `Envelope.Find` | docs/js/decrypt-markdown.js:27 | `match` succeeds exactly when the pattern matches at some position |
| `Envelope.MatchEnvelope` | docs/js/decrypt-markdown.js:27 | an envelope followed by white space or the end gives back its algorithm name and ciphertext |
| `Envelope.FindEnvelope` | docs/js/decrypt-markdown.js:27 | an envelope is the match when no match starts in the text before it and the text after it is empty or starts with white space (otherwise greedy `\S+` runs on) |
| `Envelope.NoTagNoMatch` | docs/js/decrypt-markdown.js:27 | a position where the tag does not start holds no match, so text such as `# Encrypted note` before an envelope is skipped |
| `Envelope.GreedyBackoff` | docs/js/decrypt-markdown.js:27 | the non-space run backs off to its last `)`, so `ENCRYPTED.DES(a)b) c` captures `a)b` |
| `Envelope.DecryptContent` | docs/js/decrypt-markdown.js:10-20 | an unsupported algorithm gives the unsupported-algorithm message, a failed decryption gives the failure message, and otherwise the decrypted text |
| `Envelope.UnsupportedIgnoresKey` | docs/js/decrypt-markdown.js:11-13 | an unsupported algorithm is refused before the key plays any part |
| `Envelope.BeforeEach` | docs/js/decrypt-markdown.js:25-32 | a page in which the tag never occurs is returned unchanged, and a page changes only when it holds an envelope |
| `Envelope.BeforeEachEnvelope` | docs/js/decrypt-markdown.js:25-32 | a page holding an envelope becomes the decryption result, discarding the text before it (in which no match starts) and the text after it (empty or starting with white space) |
| `Envelope.EnvelopeRoundTrip` | docs/tools/des-encryption/js/des-encryption.js:10 | parsing a written envelope gives back its algorithm name and ciphertext |
| `Envelope.DesEncrypt` | docs/tools/des-encryption/js/des-encryption.js:2-12 | an empty plaintext or key leaves the form unchanged; otherwise the cipher field becomes exactly `ENCRYPTED.DES(` + ciphertext + `)` |
| `Envelope.DesDecrypt` | docs/tools/des-encryption/js/des-encryption.js:16-27 | the key and cipher fields never change; a cipher field without a match leaves the plaintext as it was; on a match with a supported algorithm that decrypts, the plaintext becomes the decryption, and otherwise it is kept |
| `Envelope.DesRoundTrip` | docs/tools/des-encryption/js/des-encryption.js:10-25 | decrypting what the encrypt button wrote restores the plaintext, for a whitespace-free ciphertext that the cipher decrypts under the same key |
| `Envelope.DesDecryptEmptyKey` | docs/tools/des-encryption/js/des-encryption.js:16-27 | decrypt has no empty-key guard: an envelope is handed to the cipher with an empty key |
| `Dom.CreateElement` | docs/js/rearrange-dom.js:1-5 | a fresh, detached element with the given tag and exactly the given class, and nothing else in the document changes |
| `Dom.DetachWF` | docs/js/rearrange-dom.js:14 | taking a node out of its parent keeps the document well formed and removes the node from every child list |
| `Dom.InsertBefore` | docs/js/rearrange-dom.js:8 | `insertBefore` keeps the document well formed and makes the parent the node's parent |
| `Dom.InsertBeforeIsPlace` | docs/js/rearrange-dom.js:8 | `insertBefore` takes the node out of every list and puts it at the reference's position in the parent's list |
| `Dom.InsertBeforeNull` | docs/js/rearrange-dom.js:19 | a null reference puts the node last, after the list with the node taken out |
| `Dom.InsertBeforeRef` | docs/js/rearrange-dom.js:8 | the node lands just before the reference, in the list with the node taken out |
| `Dom.InsertBeforeSelf` | docs/js/rearrange-dom.js:8 | a node used as its own reference stays where it was |
| `Dom.InsertBeforeOthers` | docs/js/rearrange-dom.js:8 | `insertBefore` changes no tag or class, and no parent but the node's |
| `Dom.AppendChild` | docs/js/rearrange-dom.js:25 | `appendChild` moves the node to the end of the parent's children and out of every other list; no other parent, tag or class changes |
| `Dom.Prepend` | docs/js/rearrange-dom.js:19 | inserting a detached node before the first child puts it first, followed by the old children, with every other list unchanged |
| `Dom.RemoveElement` | docs/js/rearrange-dom.js:13-15 | the element loses its parent, its parent's list closes the gap and keeps its order, and every other node is unchanged |
| `Dom.WrapElement` | docs/js/rearrange-dom.js:7-10 | the document stays well formed, the element moves into the wrapper, and the wrapper takes the element's parent |
| `Dom.WrapOrder` | docs/js/rearrange-dom.js:7-10 | a detached wrapper takes the element's former index among the siblings, the other siblings keep their order, and the element becomes the wrapper's last child |
| `Dom.InsertElements` | docs/js/rearrange-dom.js:17-21 | insertElements keeps the document well formed and changes no tag, no class, and no parent outside the inserted elements |
| `Dom.InsertElementsOrder` | docs/js/rearrange-dom.js:17-21 | detached, distinct elements end up first among the parent's children in argument order, before the old children; no other list changes |
| `Dom.InsertElementsFresh` | docs/js/rearrange-dom.js:17-21 | for detached, distinct elements the result is exactly: the parent's list gains them in front, each gains the parent, and no other node changes |
| `Dom.AppendElements` | docs/js/rearrange-dom.js:23-27 | appendElements keeps the document well formed and changes no tag, no class, and no parent outside the appended elements |
| `Dom.AppendElementsOrder` | docs/js/rearrange-dom.js:23-27 | distinct elements end up last among the parent's children in argument order; they are moved, not copied, so every list loses its old occurrences of them |
| `Dom.RearrangeContent` | docs/js/rearrange-dom.js:178-187 | rearrangeContent keeps the document well formed |
| `Dom.RearrangeContentShape` | docs/js/rearrange-dom.js:178-187 | the content element gains a fresh `aside.toc-wrapper` as its first child, which holds just a fresh `ul.toc`, and no other node changes |
| `Dom.AddProfile` | docs/js/rearrange-dom.js:60-125 | the profile part keeps the document well formed and every old node |
| `Dom.AddProfileShape` | docs/js/rearrange-dom.js:60-125 | the sidebar gains a fresh `div.profile-wrapper` first, holding a fresh avatar, site title and button wrapper in that order, and no other node changes |
| `Dom.RearrangeSidebar` | docs/js/rearrange-dom.js:57-135 | rearrangeSidebar keeps the document well formed |
| `Dom.SidebarList` | docs/js/rearrange-dom.js:57-134 | the sidebar's children become the profile wrapper, then the old children without the toggle button and the toggle, then the toggle |
| `Dom.SidebarProfile` | docs/js/rearrange-dom.js:60-125 | after the whole rearrangement the profile wrapper still holds the avatar, the title and the buttons, each fresh and empty, and they are the only new nodes |
| `Dom.SidebarOthers` | docs/js/rearrange-dom.js:57-134 | every other old child list only loses the toggle button and the toggle |
| `Dom.SidebarParents` | docs/js/rearrange-dom.js:57-134 | the toggle hangs from the sidebar, the removed button hangs nowhere, and every other old node keeps its parent |
| `Dom.SidebarLabels` | docs/js/rearrange-dom.js:57-134 | no old node changes tag or classes |

## Left out

- Browser event sources are not modelled: `IntersectionObserver`, the scroll and click listeners, `scrollIntoView` and the Docsify hooks. The reports, the displayed flags and the route path are inputs.
- Measurements are integer parameters, not floats read from the layout: `getComputedStyle`, `parseFloat`, `scrollHeight`, `offsetTop` and `offsetHeight`. Because a list's natural height is a fixed parameter, `Sidebar.CloseOthers` may rewrite the inner lists before deciding the outer item. The script goes in document order, outer item first, and measures the outer `scrollHeight` before its inner lists are folded.
- Foreign calls are parameters: the CryptoJS library (`supported`, `encrypt`, `decrypt`), `prompt` (`key`) and `decodeURI`. `Viz` and the renderer's `this.origin.*` fallbacks are not modelled: the model returns `Delegated` or the plain-image record instead.
- The renderer's `code` and `table` templates are fixed markup with no logic, and are not modelled.
- HTML copying is not modelled: `innerHTML` (the TOC item's copy of its heading, `updateTOC`, and the profile, title and button markup), the anchor `title` set by `setTitle`, and the sidebar toggle's `title` (rearrange-dom.js:127-129). The model keeps the element structure only.
- `setClickEvent` of toc.js is click wiring with no logic, and is not modelled.
- Toc.CloseAll: the builder in the model attaches an item to its parent's list when the item is popped, not at creation as the script does. The trees agree because the open item's list is only ever extended at its end.
- `wrapTOC` (toc.js:93-98) is a loop of `wrapElement` over the TOC's lists; only the single step `Dom.WrapElement` is modelled.
- `rearrangeNavbar` and `rearrangeFooter` are `innerHTML` templates plus `appendElements` calls; only `appendElements` is modelled.
- Dom.CreateElement: requires a non-empty class token without white space, because `classList.add` throws on any other; every call site passes such a literal.
- Dom.RemoveElement: requires the element to have a parent, because `parentNode.removeChild` on a detached element is a `TypeError`.
- Dom.WrapOrder: stated only for a detached wrapper, which is how the scripts call it (a fresh `div`).
- Dom.InsertElementsOrder: stated for detached, distinct elements, which is how the scripts call it. `InsertElements` itself takes any elements.
- Dom.RearrangeSidebar: takes as parameters the ids that the `querySelector` calls for elements already in the page return. A missing element, which would make the script throw, is excluded by the requires. The lookup of `.profile-wrapper` right after it is created is not a parameter: `Dom.AddProfile` assumes it returns the node just created, which holds when the page had no such element before.
- Dom.RearrangeContent: assumes that `querySelector('.toc-wrapper')` returns the `aside` just created, which holds when the page had no such element before.
- Dom.InsertBefore: the requires exclude only a node inserted into itself (`x == p`). Inserting an ancestor of the parent, which the DOM refuses with `HierarchyRequestError`, is accepted and builds a parent cycle. The scripts only move fresh elements or elements from elsewhere in the page.
- Dom.AppendChild: the same gap. Only `x == p` is excluded, and appending an ancestor of the parent, which throws `HierarchyRequestError`, builds a cycle. `Dom.InsertElements` and `Dom.AppendElements` inherit this gap.
- Dom.WrapElement: the requires exclude only a wrapper equal to the element or to its parent. A wrapper that is a further ancestor of the element, which the DOM refuses, builds a cycle. The scripts wrap with a fresh `div`.
- Ids are integers with a fresh-id counter, not object identity.
- Active.SetActive: `findTarget` reads the heading's first anchor and throws a `TypeError` on a heading without one. The model gives every heading block the `data-id` of its anchor, so it assumes every heading has one.
- Sidebar.CloseOthersAt: the script reads each descendant item's first anchor and throws a `TypeError` on an item without one. The model assumes every item's first anchor is its own, so `current` is read off the item itself.
- Sidebar.SetCurrentAt: an anchor without `href` would throw in the script. The model gives such an item no link.
- Sidebar.ScrollToCurrent: "directly under the nav" is a path of length one, assuming the nav holds a single top-level list. The parent list's offset and padding are those of the enclosing item.
- Envelope.DesDecrypt: an unknown algorithm name or a failed decryption throws in the script and leaves the form as it was. The model returns the form unchanged in both cases.
- Config.RemoveAll: `removeSubstring` builds `new RegExp(substring, 'g')`, and the model matches the pattern literally. Its one caller passes `:figure ` (custom-renderer.js:85), which holds no regular-expression syntax, so the two agree there. The model also uses `RemoveAll` for `value.replace(/&quot;/g, '')` (custom-renderer.js:25), whose expression is a plain literal. Patterns with regular-expression syntax are not modelled.
- Strings are sequences of Unicode scalar values, not UTF-16 code units. `slice(5)` on the ASCII callout markers is unaffected.
- The generic search `FindAt` never tries the empty suffix at the end of the text, where the non-empty pattern cannot match.
- The theme, comment-widget, progress, navbar-hiding and keyboard scripts are not part of this model.

=== FILE: active.dfy ===
/** The active-heading resolver of toc.js: which direct blocks of the page
    are displayed, the heading that governs the first displayed block, and
    the single TOC item marked `active`. */
module Active {
  import opened Wrappers

  /** A direct child of `.markdown-section`: whether it is a heading
      element, the `data-id` of its anchor when it is one, and whether it
      carries the `displayed` class. */
  datatype Block = Block(isHeading: bool, id: string, displayed: bool)

  /** One intersection report: the observed block (by position) and its
      intersection ratio. */
  datatype Report = Report(target: nat, ratio: real)

  /** A list item of the rendered TOC: the `data-id` of its anchor and
      whether it carries the `active` class. */
  datatype TocEntry = TocEntry(id: string, active: bool)

  // ---------------------------------------------------------------------
  // setDisplayed

  /** The reports only name observed blocks. */
  predicate ReportsFor(blocks: seq<Block>, reports: seq<Report>) {
    forall k :: 0 <= k < |reports| ==> reports[k].target < |blocks|
  }

  /** The observer callback: each report, in order, sets or clears
      `displayed` on its block according to whether the ratio is positive. */
  function ApplyReports(blocks: seq<Block>, reports: seq<Report>): (r: seq<Block>)
    requires ReportsFor(blocks, reports)
    ensures |r| == |blocks|
    ensures forall i :: 0 <= i < |r| ==> r[i].isHeading == blocks[i].isHeading && r[i].id == blocks[i].id
    decreases |reports|
  {
    if reports == [] then blocks
    else
      var e := reports[0];
      var b := blocks[e.target];
      ApplyReports(blocks[e.target := b.(displayed := e.ratio > 0.0)], reports[1..])
  }

  /** The ratio of the last report about block i, if any. */
  function LastRatio(reports: seq<Report>, i: nat): Option<real>
    decreases |reports|
  {
    if reports == [] then None
    else if reports[|reports| - 1].target == i then Some(reports[|reports| - 1].ratio)
    else LastRatio(reports[..|reports| - 1], i)
  }

  /** A block is displayed exactly when the last report about it had a
      positive ratio; a block nobody reported on keeps its flag. */
  lemma {:induction false} ApplyReportsSpec(blocks: seq<Block>, reports: seq<Report>, i: nat)
    requires ReportsFor(blocks, reports) && i < |blocks|
    ensures ApplyReports(blocks, reports)[i].displayed ==
      match LastRatio(reports, i)
      case Some(ratio) => ratio > 0.0
      case None => blocks[i].displayed
    decreases |reports|
  {
    if reports != [] {
      var e := reports[0];
      var b := blocks[e.target];
      var blocks' := blocks[e.target := b.(displayed := e.ratio > 0.0)];
      ApplyReportsSpec(blocks', reports[1..], i);
      LastRatioCons(e, reports[1..], i);
      assert [e] + reports[1..] == reports;
    }
  }

  lemma {:induction false} LastRatioCons(e: Report, rest: seq<Report>, i: nat)
    ensures LastRatio([e] + rest, i) ==
      if LastRatio(rest, i).Some? then LastRatio(rest, i)
      else if e.target == i then Some(e.ratio) else None
    decreases |rest|
  {
    var s := [e] + rest;
    if rest == [] {
      assert s == [e];
      assert s[..0] == [];
    } else {
      assert s[|s| - 1] == rest[|rest| - 1];
      assert s[..|s| - 1] == [e] + rest[..|rest| - 1];
      LastRatioCons(e, rest[..|rest| - 1], i);
    }
  }

  // ---------------------------------------------------------------------
  // findHeader and setActive

  /** `.markdown-section .displayed`: the first displayed block. */
  function FirstDisplayed(blocks: seq<Block>): (r: Option<nat>)
    ensures r.Some? ==> r.value < |blocks| && blocks[r.value].displayed
    ensures r.Some? ==> forall j :: 0 <= j < r.value ==> !blocks[j].displayed
    ensures r.None? ==> forall j :: 0 <= j < |blocks| ==> !blocks[j].displayed
  {
    if blocks == [] then None
    else if blocks[0].displayed then Some(0)
    else
      match FirstDisplayed(blocks[1..])
      case Some(k) => Some(k + 1)
      case None => None
  }

  /** findHeader: nothing for no block; otherwise the nearest heading among
      the preceding siblings, or nothing when there is none. */
  method FindHeader(blocks: seq<Block>, element: Option<nat>) returns (r: Option<nat>)
    requires element.Some? ==> element.value < |blocks|
    ensures element.None? ==> r.None?
    ensures element.Some? && r.None? ==>
      forall j :: 0 <= j < element.value ==> !blocks[j].isHeading
    ensures r.Some? ==> element.Some? && r.value < element.value && blocks[r.value].isHeading
    ensures r.Some? ==> forall j :: r.value < j < element.value ==> !blocks[j].isHeading
  {
    if element.None? {
      return None;
    }
    var e := element.value;
    // k is one past the sibling under inspection
    var k := e;
    while k > 0 && !blocks[k - 1].isHeading
      invariant 0 <= k <= e
      invariant forall j :: k <= j < e ==> !blocks[j].isHeading
    {
      k := k - 1;
    }
    if k == 0 {
      r := None;
    } else {
      r := Some(k - 1);
    }
  }

  /** Heading h governs the page: it is the first displayed block itself,
      or the nearest heading before it. */
  predicate Governs(blocks: seq<Block>, h: nat) {
    match FirstDisplayed(blocks)
    case None => false
    case Some(d) =>
      && h <= d && blocks[h].isHeading
      && forall j :: h < j <= d ==> !blocks[j].isHeading
  }

  /** No heading governs: nothing is displayed, or no heading comes at or
      before the first displayed block. */
  predicate Ungoverned(blocks: seq<Block>) {
    match FirstDisplayed(blocks)
    case None => true
    case Some(d) => forall j :: 0 <= j <= d ==> !blocks[j].isHeading
  }

  /** The governing heading of the first displayed block, if any. */
  method GoverningHeading(blocks: seq<Block>) returns (r: Option<nat>)
    ensures r.Some? ==> r.value < |blocks| && Governs(blocks, r.value)
    ensures r.None? <==> Ungoverned(blocks)
  {
    var first := FirstDisplayed(blocks);
    if first.Some? && blocks[first.value].isHeading {
      r := first;
    } else {
      r := FindHeader(blocks, first);
    }
  }

  /** No two TOC items are active. */
  predicate AtMostOneActive(toc: seq<TocEntry>) {
    forall i, j :: 0 <= i < |toc| && 0 <= j < |toc| && toc[i].active && toc[j].active ==> i == j
  }

  /** The first item satisfying `active`, or the first with the given id. */
  function FirstActive(toc: seq<TocEntry>): (r: Option<nat>)
    ensures r.Some? ==> r.value < |toc| && toc[r.value].active
    ensures r.Some? ==> forall j :: 0 <= j < r.value ==> !toc[j].active
    ensures r.None? ==> forall j :: 0 <= j < |toc| ==> !toc[j].active
  {
    if toc == [] then None
    else if toc[0].active then Some(0)
    else
      match FirstActive(toc[1..])
      case Some(k) => Some(k + 1)
      case None => None
  }

  function FirstWithId(toc: seq<TocEntry>, id: string): (r: Option<nat>)
    ensures r.Some? ==> r.value < |toc| && toc[r.value].id == id
    ensures r.Some? ==> forall j :: 0 <= j < r.value ==> toc[j].id != id
    ensures r.None? ==> forall j :: 0 <= j < |toc| ==> toc[j].id != id
  {
    if toc == [] then None
    else if toc[0].id == id then Some(0)
    else
      match FirstWithId(toc[1..], id)
      case Some(k) => Some(k + 1)
      case None => None
  }

  /** At most one heading governs the page. */
  lemma {:induction false} GovernsUnique(blocks: seq<Block>, h: nat, h': nat)
    requires Governs(blocks, h) && Governs(blocks, h')
    ensures h == h'
  {
  }

  /** The first item with an id depends only on the items' ids. */
  lemma {:induction false} SameIdsFirst(a: seq<TocEntry>, b: seq<TocEntry>, id: string)
    requires |a| == |b| && forall i :: 0 <= i < |a| ==> a[i].id == b[i].id
    ensures FirstWithId(a, id) == FirstWithId(b, id)
    decreases |a|
  {
    if a != [] && a[0].id != id {
      SameIdsFirst(a[1..], b[1..], id);
    }
  }

  /** The first active item loses `active` and the first item linking to
      `id` gains it; ids and every other flag are kept. */
  method Activate(toc: seq<TocEntry>, id: string) returns (toc': seq<TocEntry>)
    ensures |toc'| == |toc|
    ensures forall i :: 0 <= i < |toc| ==> toc'[i].id == toc[i].id
    ensures forall i :: 0 <= i < |toc| ==>
      toc'[i].active == (FirstWithId(toc, id) == Some(i)
                         || (toc[i].active && FirstActive(toc) != Some(i)))
    ensures AtMostOneActive(toc) ==> AtMostOneActive(toc')
  {
    toc' := toc;
    var current := FirstActive(toc');
    if current.Some? {
      toc' := toc'[current.value := toc'[current.value].(active := false)];
    }
    SameIdsFirst(toc', toc, id);
    var target := FirstWithId(toc', id);
    if target.Some? {
      toc' := toc'[target.value := toc'[target.value].(active := true)];
    }
  }

  /** When the governing heading has no TOC item, setActive leaves no item
      active, provided at most one was. */
  lemma {:induction false} MissingTargetNoneActive(toc: seq<TocEntry>, id: string, toc': seq<TocEntry>)
    requires AtMostOneActive(toc) && FirstWithId(toc, id).None?
    requires |toc'| == |toc|
    requires forall i :: 0 <= i < |toc| ==>
      toc'[i].active == (FirstWithId(toc, id) == Some(i) || (toc[i].active && FirstActive(toc) != Some(i)))
    ensures forall i :: 0 <= i < |toc'| ==> !toc'[i].active
  {
    forall i | 0 <= i < |toc'|
      ensures !toc'[i].active
    {
      if toc[i].active {
        var k := FirstActive(toc).value;
        assert toc[k].active;
      }
    }
  }

  /** setActive: when a heading governs, the first active item loses
      `active` and the first item linking to that heading gains it; when
      none does, nothing changes. */
  method SetActive(blocks: seq<Block>, toc: seq<TocEntry>) returns (toc': seq<TocEntry>)
    ensures |toc'| == |toc|
    ensures forall i :: 0 <= i < |toc| ==> toc'[i].id == toc[i].id
    ensures Ungoverned(blocks) ==> toc' == toc
    ensures forall h :: 0 <= h < |blocks| && Governs(blocks, h) ==>
      forall i :: 0 <= i < |toc| ==>
        toc'[i].active == (FirstWithId(toc, blocks[h].id) == Some(i)
                           || (toc[i].active && FirstActive(toc) != Some(i)))
    ensures AtMostOneActive(toc) ==> AtMostOneActive(toc')
  {
    var header := GoverningHeading(blocks);
    if header.None? {
      return toc;
    }
    forall h | 0 <= h < |blocks| && Governs(blocks, h)
      ensures h == header.value
    {
      GovernsUnique(blocks, h, header.value);
    }
    toc' := Activate(toc, blocks[header.value].id);
  }
}

=== FILE: config.dfy ===
/** The `:key=value` option scanner `getAndRemoveConfig` of
    custom-renderer.js: strips one surrounding quote at each end, removes
    every `:key` / `:key=value` token that starts the text or follows white
    space (recording it), keeps tokens whose key ends in `:`, and trims. */
module Config {
  import opened Wrappers
  import opened Strings

  /** A recorded option: `true` when the token had no value. */
  datatype OptionValue = Flag | Value(text: string)

  /** What getAndRemoveConfig returns. */
  datatype Parsed = Parsed(str: string, config: map<string, OptionValue>)

  /** The characters of `[\w-]` (keys) and of `[\w-%]` (values). */
  predicate IsKeyChar(c: char) {
    IsWordChar(c) || c == '-'
  }

  predicate IsValueChar(c: char) {
    IsWordChar(c) || c == '-' || c == '%'
  }

  predicate IsQuote(c: char) {
    c == '\'' || c == '"'
  }

  /** A matched token: its length from the start of the text tried, the
      key (capture 1) and the value (capture 2, when present). */
  datatype Token = Token(len: nat, key: string, value: Option<string>)

  /** The token after the colon: `[\w-]+` then `:?` then `=?` then
      `([\w-%]+)?`, all greedy; t starts right after the colon. */
  function TokenBody(t: string): (r: Option<Token>)
    ensures r.Some? ==> 0 < r.value.len <= |t| && r.value.key != []
  {
    var k := RunLen(t, IsKeyChar);
    if k == 0 then None
    else
      var kc := if k < |t| && t[k] == ':' then k + 1 else k;
      var e0 := if kc < |t| && t[kc] == '=' then kc + 1 else kc;
      var v := RunLen(t[e0..], IsValueChar);
      Some(Token(e0 + v, t[..kc], if v == 0 then None else Some(t[e0..e0 + v])))
  }

  /** One attempt of `(?:^|\s):([\w-]+:?)=?([\w-%]+)?` at the start of t;
      `atStart` says whether t starts the whole input, where `^` holds. */
  function MatchAt(t: string, atStart: bool): (r: Option<Token>)
    ensures r.Some? ==> 0 < r.value.len <= |t| && r.value.key != []
  {
    if atStart && t != [] && t[0] == ':' && TokenBody(t[1..]).Some? then
      var b := TokenBody(t[1..]).value;
      Some(b.(len := 1 + b.len))
    else if |t| >= 2 && IsSpace(t[0]) && t[1] == ':' && TokenBody(t[2..]).Some? then
      var b := TokenBody(t[2..]).value;
      Some(b.(len := 2 + b.len))
    else None
  }

  /** Every occurrence of a literal pattern removed, scanning left to right
      (`str.replace(new RegExp(pattern, 'g'), '')` for a pattern without
      regular-expression syntax). */
  function RemoveAll(s: string, pat: string): (r: string)
    requires pat != []
    ensures |r| <= |s|
    decreases |s|
  {
    if s == [] then []
    else if StartsWith(s, pat) then RemoveAll(s[|pat|..], pat)
    else [s[0]] + RemoveAll(s[1..], pat)
  }

  /** No occurrence of the pattern starts anywhere in s. */
  predicate NoOccurrence(s: string, pat: string) {
    forall i :: 0 <= i < |s| ==> !StartsWith(s[i..], pat)
  }

  /** Text in which no occurrence of the pattern starts is left as it is. */
  lemma {:induction false} RemoveAllAbsent(s: string, pat: string)
    requires pat != [] && NoOccurrence(s, pat)
    ensures RemoveAll(s, pat) == s
    decreases |s|
  {
    if s != [] {
      assert s[0..] == s;
      forall i | 0 <= i < |s[1..]|
        ensures !StartsWith(s[1..][i..], pat)
      {
        assert s[1..][i..] == s[i + 1..];
      }
      RemoveAllAbsent(s[1..], pat);
      assert [s[0]] + s[1..] == s;
    }
  }

  /** Text without the pattern's first character holds no occurrence. */
  lemma {:induction false} FirstCharAbsent(s: string, pat: string)
    requires pat != [] && pat[0] !in s
    ensures NoOccurrence(s, pat)
  {
    forall i | 0 <= i < |s|
      ensures !StartsWith(s[i..], pat)
    {
      assert s[i..][0] == s[i];
    }
  }

  /** An occurrence after text in which no occurrence starts is removed,
      and the text before it is kept. */
  lemma {:induction false} RemoveAllSplice(a: string, pat: string, b: string)
    requires pat != []
    requires forall i :: 0 <= i < |a| ==> !StartsWith((a + pat + b)[i..], pat)
    ensures RemoveAll(a + pat + b, pat) == a + RemoveAll(b, pat)
  {
    var s := a + pat + b;
    assert s[|a|..|a| + |pat|] == pat && s[|a| + |pat|..] == b;
    SpliceFrom(s, pat, |a|, 0);
    assert s[0..] == s && s[0..|a|] == a;
  }

  /** RemoveAllSplice within one text: from position k, the occurrence
      at n is the first one, so everything from k up to n is kept. */
  lemma {:induction false} SpliceFrom(s: string, pat: string, n: nat, k: nat)
    requires pat != [] && k <= n && n + |pat| <= |s| && s[n..n + |pat|] == pat
    requires forall i :: k <= i < n ==> !StartsWith(s[i..], pat)
    ensures RemoveAll(s[k..], pat) == s[k..n] + RemoveAll(s[n + |pat|..], pat)
    decreases n - k
  {
    var t := s[k..];
    if k == n {
      assert t[..|pat|] == pat && t[|pat|..] == s[n + |pat|..];
      RemoveAllHit(t, pat);
    } else {
      assert !StartsWith(t, pat);
      RemoveAllMiss(t, pat);
      assert t[1..] == s[k + 1..];
      SpliceFrom(s, pat, n, k + 1);
      assert s[k..n] == [s[k]] + s[k + 1..n];
    }
  }

  /** The splice needs the restriction: in `xy` + `xyx`, an occurrence
      starts inside the leading text and is the one removed, so the text
      before the spliced occurrence is not kept. */
  lemma {:induction false} RemoveAllOverlap(x: char, y: char)
    requires x != y
    ensures RemoveAll([x, y] + [x, y, x], [x, y, x]) == [y, x]
  {
    var pat := [x, y, x];
    var s := [x, y] + pat;
    assert s[..3] == pat;
    RemoveAllHit(s, pat);
    assert s[3..] == [y, x];
    RemoveAllMiss([y, x], pat);
    assert [y, x][1..] == [x];
    RemoveAllMiss([x], pat);
    assert [x][1..] == [];
  }

  lemma {:induction false} RemoveAllHit(s: string, pat: string)
    requires pat != [] && s != [] && StartsWith(s, pat)
    ensures RemoveAll(s, pat) == RemoveAll(s[|pat|..], pat)
  {
  }

  lemma {:induction false} RemoveAllMiss(s: string, pat: string)
    requires pat != [] && s != [] && !StartsWith(s, pat)
    ensures RemoveAll(s, pat) == [s[0]] + RemoveAll(s[1..], pat)
  {
  }

  /** What a matched token records: its value with `&quot;` removed, or
      `true` when that leaves nothing. */
  function Recorded(value: Option<string>): OptionValue {
    match value
    case None => Flag
    case Some(v) =>
      var w := RemoveAll(v, "&quot;");
      if w == [] then Flag else Value(w)
  }

  /** `__proto__`: assigning it on a plain object goes to the prototype
      setter, which ignores `true` and strings, so nothing is recorded. */
  const ProtoKey: string := "__proto__"

  /** `config[key] = v` followed by the later assignments in `later`. */
  function Store(key: string, v: OptionValue, later: map<string, OptionValue>): (r: map<string, OptionValue>)
    ensures key != ProtoKey ==> key in r && r[key] == (if key in later then later[key] else v)
    ensures key == ProtoKey ==> r == later
    ensures forall k :: k in r && k != key ==> k in later && r[k] == later[k]
    ensures later.Keys <= r.Keys
  {
    if key == ProtoKey then later else map[key := v] + later
  }

  /** The global replace: each match is removed and recorded unless its key
      contains `:`, in which case it is kept; later keys overwrite earlier
      ones, and `__proto__` is removed but never recorded. */
  function Scan(t: string, atStart: bool): (r: (string, map<string, OptionValue>))
    ensures forall k :: k in r.1 ==> k != [] && ':' !in k && k != ProtoKey
    decreases |t|
  {
    if t == [] then ([], map[])
    else
      match MatchAt(t, atStart)
      case Some(tok) =>
        var rest := Scan(t[tok.len..], false);
        if ':' in tok.key then (t[..tok.len] + rest.0, rest.1)
        else (rest.0, Store(tok.key, Recorded(tok.value), rest.1))
      case None =>
        var rest := Scan(t[1..], false);
        ([t[0]] + rest.0, rest.1)
  }

  /** `.replace(/^('|")/, '').replace(/('|")$/, '')`. */
  function StripQuotes(s: string): (r: string)
    ensures |r| <= |s|
    ensures r != s ==> IsQuote(s[0]) || IsQuote(s[|s| - 1])
    ensures |s| >= 2 && IsQuote(s[0]) && IsQuote(s[|s| - 1]) ==> r == s[1..|s| - 1]
    ensures s != [] && IsQuote(s[0]) && !IsQuote(s[|s| - 1]) ==> r == s[1..]
    ensures s != [] && !IsQuote(s[0]) && IsQuote(s[|s| - 1]) ==> r == s[..|s| - 1]
  {
    var s1 := if s != [] && IsQuote(s[0]) then s[1..] else s;
    if s1 != [] && IsQuote(s1[|s1| - 1]) then s1[..|s1| - 1] else s1
  }

  /** At most one character goes from each end: the result is the title
      itself or a slice of it one short at the front, the back, or both. */
  lemma {:induction false} StripQuotesShape(s: string)
    ensures var r := StripQuotes(s);
      || r == s || (s != [] && (r == s[1..] || r == s[..|s| - 1]))
      || (|s| >= 2 && r == s[1..|s| - 1])
  {
    if s != [] && IsQuote(s[0]) {
      var s1 := s[1..];
      if s1 != [] && IsQuote(s1[|s1| - 1]) {
        assert s1[..|s1| - 1] == s[1..|s| - 1];
      }
    }
  }

  /** One quote is removed at each end, whether or not the two match. */
  lemma {:induction false} StripQuotesBoth(q1: char, t: string, q2: char)
    requires IsQuote(q1) && IsQuote(q2)
    ensures StripQuotes([q1] + t + [q2]) == t
  {
    var s := [q1] + t + [q2];
    assert s[1..] == t + [q2];
  }

  /** getAndRemoveConfig; `None` stands for an undefined argument. */
  function GetAndRemoveConfig(str: Option<string>): (r: Parsed)
    ensures str.None? || str == Some([]) ==> r == Parsed([], map[])
    ensures forall k :: k in r.config ==> k != [] && ':' !in k && k != ProtoKey
  {
    match str
    case None => Parsed([], map[])
    case Some(s) =>
      if s == [] then Parsed([], map[])
      else
        var (out, config) := Scan(StripQuotes(s), true);
        Parsed(Trim(out), config)
  }

  /** A token whose key ends in `:` is kept in the text and not recorded:
      `c :key:value` comes back whole with an empty config. */
  lemma {:induction false} ColonKeyKept(c: char, key: string, v: string)
    requires !IsSpace(c) && c != ':' && !IsQuote(c)
    requires WellFormedOpt(Opt(key, Some(v)))
    ensures var s := [c] + " :" + key + ":" + v;
      GetAndRemoveConfig(Some(s)) == Parsed(s, map[])
  {
    var s := [c] + " :" + key + ":" + v;
    var u := " :" + key + ":" + v;
    assert s == [c] + u && s[1..] == u;
    assert Scan(s, true) == (s, map[]) by {
      ColonTailScan(key, v);
      ScanSkip(s, true);
    }
    assert !IsQuote(s[|s| - 1]) && !IsSpace(s[|s| - 1]) by {
      assert s[|s| - 1] == v[|v| - 1];
      assert IsValueChar(v[|v| - 1]);
    }
    StripQuotesNoop(s);
    ConfigOfText(s);
    TrimNoop(s);
  }

  /** After a space, ` :key:value` scans to itself with nothing recorded. */
  lemma {:induction false} ColonTailScan(key: string, v: string)
    requires WellFormedOpt(Opt(key, Some(v)))
    ensures var u := " :" + key + ":" + v; Scan(u, false) == (u, map[])
  {
    var u := " :" + key + ":" + v;
    var tok := Token(2 + |key| + 1 + |v|, key + ":", Some(v));
    assert u[2..] == key + ":" + v;
    ColonKeyBody(key, v);
    MatchAfterSpace(u, false);
    assert u[tok.len..] == [] && u[..tok.len] + [] == u;
    assert tok.key[|key|] == ':';
    ScanKept(u, false, tok);
    assert Scan(u[tok.len..], false) == ([], map[]);
  }

  /** `key:value` is one token body whose key keeps the colon. */
  lemma {:induction false} ColonKeyBody(key: string, v: string)
    requires WellFormedOpt(Opt(key, Some(v)))
    ensures TokenBody(key + ":" + v) == Some(Token(|key| + 1 + |v|, key + ":", Some(v)))
  {
    var w := key + ":" + v;
    var k := |key|;
    ColonParts(key, v);
    assert w[..k + 1] == key + ":" && w[k + 1..k + 1 + |v|] == v;
    TokenBodyColonAt(w, k, |v|);
  }

  lemma {:induction false} ColonParts(key: string, v: string)
    requires WellFormedOpt(Opt(key, Some(v)))
    ensures var w := key + ":" + v;
      && RunLen(w, IsKeyChar) == |key| && w[|key|] == ':'
      && w[|key| + 1] != '=' && RunLen(w[|key| + 1..], IsValueChar) == |v|
  {
    var w := key + ":" + v;
    assert w == key + (":" + v);
    RunLenOf(key, ":" + v, IsKeyChar);
    assert w[|key| + 1..] == v + [];
    RunLenOf(v, [], IsValueChar);
  }

  lemma {:induction false} TokenBodyColonAt(u: string, k: nat, n: nat)
    requires RunLen(u, IsKeyChar) == k && k > 0 && k < |u| && u[k] == ':'
    requires k + 1 == |u| || u[k + 1] != '='
    requires RunLen(u[k + 1..], IsValueChar) == n
    ensures TokenBody(u) == Some(Token(k + 1 + n, u[..k + 1], if n == 0 then None else Some(u[k + 1..k + 1 + n])))
  {
  }

  /** A token whose key holds `:` is kept as it stands. */
  lemma {:induction false} ScanKept(t: string, atStart: bool, tok: Token)
    requires t != [] && MatchAt(t, atStart) == Some(tok) && ':' in tok.key
    ensures Scan(t, atStart)
      == (t[..tok.len] + Scan(t[tok.len..], false).0, Scan(t[tok.len..], false).1)
  {
  }

  /** Where no token starts, the character is kept. */
  lemma {:induction false} ScanSkip(t: string, atStart: bool)
    requires t != [] && MatchAt(t, atStart) == None
    ensures Scan(t, atStart) == ([t[0]] + Scan(t[1..], false).0, Scan(t[1..], false).1)
  {
  }

  /** Text without a colon holds no token and is kept whole. */
  lemma {:induction false} ScanNoColon(t: string, atStart: bool)
    requires ':' !in t
    ensures Scan(t, atStart) == (t, map[])
    decreases |t|
  {
    if t != [] {
      assert t[0] != ':';
      assert |t| >= 2 ==> t[1] != ':';
      assert MatchAt(t, atStart) == None;
      ScanNoColon(t[1..], false);
      assert [t[0]] + t[1..] == t;
    }
  }

  /** A title without a colon records nothing: it comes back trimmed and
      with at most one quote removed at each end. */
  lemma {:induction false} ConfigNoColon(s: string)
    requires ':' !in s
    ensures GetAndRemoveConfig(Some(s)) == Parsed(Trim(StripQuotes(s)), map[])
  {
    if s != [] {
      var u := StripQuotes(s);
      assert ':' !in u by {
        assert forall i :: 0 <= i < |u| ==> u[i] in s;
      }
      ScanNoColon(u, true);
      ConfigOfText(s);
    }
  }

  // ---------------------------------------------------------------------
  // Round trip

  /** An option as it is written after a title. */
  datatype Opt = Opt(key: string, value: Option<string>)

  predicate WellFormedOpt(o: Opt) {
    && o.key != [] && (forall i :: 0 <= i < |o.key| ==> IsKeyChar(o.key[i]))
    && (o.value.Some? ==>
          o.value.value != [] && forall i :: 0 <= i < |o.value.value| ==> IsValueChar(o.value.value[i]))
  }

  /** `key` or `key=value`. */
  function Body(o: Opt): string {
    o.key + match o.value case None => "" case Some(v) => "=" + v
  }

  /** ` :key` or ` :key=value` for each option. */
  function Options(opts: seq<Opt>): string
    decreases |opts|
  {
    if opts == [] then [] else " :" + Body(opts[0]) + Options(opts[1..])
  }

  /** The options as a config: later keys overwrite earlier ones, and
      `__proto__` is never recorded. */
  function OptionMap(opts: seq<Opt>): map<string, OptionValue>
    decreases |opts|
  {
    if opts == [] then map[]
    else
      var o := opts[0];
      Store(o.key, match o.value case None => Flag case Some(v) => Value(v), OptionMap(opts[1..]))
  }

  /** Plain title text the scanner leaves alone: no colon at the start or
      right after white space (where an option could begin), and neither a
      quote nor white space at either end. Colons and quotes elsewhere are
      allowed. */
  predicate PlainText(text: string) {
    && (text == [] || (text[0] != ':' && !IsQuote(text[0]) && !IsSpace(text[0])))
    && (text == [] || (!IsQuote(text[|text| - 1]) && !IsSpace(text[|text| - 1])))
    && (forall i :: 0 <= i < |text| - 1 && IsSpace(text[i]) ==> text[i + 1] != ':')
  }

  lemma {:induction false} RecordedValue(v: string)
    requires v != [] && forall i :: 0 <= i < |v| ==> IsValueChar(v[i])
    ensures Recorded(Some(v)) == Value(v)
  {
    assert "&quot;"[0] == '&';
    assert '&' !in v;
    FirstCharAbsent(v, "&quot;");
    RemoveAllAbsent(v, "&quot;");
  }

  /** Options start with a space. */
  lemma {:induction false} OptionsStart(opts: seq<Opt>)
    ensures Options(opts) == [] || Options(opts)[0] == ' '
  {
  }

  /** A key followed by a space or nothing is a flag token body. */
  lemma {:induction false} TokenBodyFlag(key: string, tail: string)
    requires key != [] && forall i :: 0 <= i < |key| ==> IsKeyChar(key[i])
    requires tail == [] || tail[0] == ' '
    ensures TokenBody(key + tail) == Some(Token(|key|, key, None))
  {
    var u := key + tail;
    var k := |key|;
    RunLenOf(key, tail, IsKeyChar);
    assert k == |u| || u[k] == ' ';
    assert u[k..] == tail;
    RunLenOf([], tail, IsValueChar);
    assert RunLen(u[k..], IsValueChar) == 0;
    assert u[..k] == key;
  }

  /** `key=value` followed by a space or nothing is a valued token body. */
  lemma {:induction false} TokenBodyValue(key: string, v: string, tail: string)
    requires key != [] && forall i :: 0 <= i < |key| ==> IsKeyChar(key[i])
    requires v != [] && forall i :: 0 <= i < |v| ==> IsValueChar(v[i])
    requires tail == [] || tail[0] == ' '
    ensures TokenBody(key + "=" + v + tail) == Some(Token(|key| + 1 + |v|, key, Some(v)))
  {
    var u := key + "=" + v + tail;
    ValueParts(key, v, tail);
    TokenBodyAt(u, |key|, |key| + 1, |v|);
  }

  /** Where the runs of `key=value` followed by a space or nothing end. */
  lemma {:induction false} ValueParts(key: string, v: string, tail: string)
    requires key != [] && forall i :: 0 <= i < |key| ==> IsKeyChar(key[i])
    requires v != [] && forall i :: 0 <= i < |v| ==> IsValueChar(v[i])
    requires tail == [] || tail[0] == ' '
    ensures var u := key + "=" + v + tail; var k := |key|;
      && RunLen(u, IsKeyChar) == k && k < |u| && u[k] == '=' && u[..k] == key
      && RunLen(u[k + 1..], IsValueChar) == |v| && u[k + 1..k + 1 + |v|] == v
  {
    var u := key + "=" + v + tail;
    var k := |key|;
    assert u[k] == '=' && u[..k] == key && u[k + 1..] == v + tail;
    assert u == key + ("=" + v + tail);
    RunLenOf(key, "=" + v + tail, IsKeyChar);
    RunLenOf(v, tail, IsValueChar);
    assert u[k + 1..k + 1 + |v|] == v;
  }

  /** The token body read off its parts: the key run, no `:`, an optional
      `=`, and the value run. */
  lemma {:induction false} TokenBodyAt(u: string, k: nat, e0: nat, n: nat)
    requires RunLen(u, IsKeyChar) == k && k > 0 && (k == |u| || u[k] != ':')
    requires (k < |u| && u[k] == '=' && e0 == k + 1) || ((k == |u| || u[k] != '=') && e0 == k)
    requires RunLen(u[e0..], IsValueChar) == n
    ensures TokenBody(u) == Some(Token(e0 + n, u[..k], if n == 0 then None else Some(u[e0..e0 + n])))
  {
  }

  /** A well-formed option followed by a space or nothing is one token body. */
  lemma {:induction false} TokenBodyOf(o: Opt, tail: string)
    requires WellFormedOpt(o)
    requires tail == [] || tail[0] == ' '
    ensures TokenBody(Body(o) + tail) == Some(Token(|Body(o)|, o.key, o.value))
  {
    match o.value {
      case None =>
        assert Body(o) == o.key;
        TokenBodyFlag(o.key, tail);
      case Some(v) =>
        assert Body(o) == o.key + "=" + v;
        TokenBodyValue(o.key, v, tail);
    }
  }

  /** A space and a colon start a token wherever they stand. */
  lemma {:induction false} MatchAfterSpace(t: string, atStart: bool)
    requires |t| >= 2 && t[0] == ' ' && t[1] == ':'
    ensures MatchAt(t, atStart) ==
      match TokenBody(t[2..])
      case None => None
      case Some(b) => Some(b.(len := 2 + b.len))
  {
    assert IsSpace(t[0]);
  }

  /** The first option of a list is one removed token. */
  lemma {:induction false} MatchOption(o: Opt, rest: seq<Opt>, atStart: bool)
    requires WellFormedOpt(o)
    ensures var t := Options([o] + rest);
      && MatchAt(t, atStart) == Some(Token(2 + |Body(o)|, o.key, o.value))
      && t[2 + |Body(o)|..] == Options(rest)
  {
    var tail := Options(rest);
    var t := Options([o] + rest);
    OptionParts(o, rest);
    OptionsStart(rest);
    TokenBodyOf(o, tail);
    MatchAfterSpace(t, atStart);
  }

  /** The first option of a list spelled out. */
  lemma {:induction false} OptionParts(o: Opt, rest: seq<Opt>)
    ensures var t := Options([o] + rest);
      && |t| >= 2 && t[0] == ' ' && t[1] == ':'
      && t[2..] == Body(o) + Options(rest) && t[2 + |Body(o)|..] == Options(rest)
  {
    var tail := Options(rest);
    var t := Options([o] + rest);
    assert ([o] + rest)[0] == o && ([o] + rest)[1..] == rest;
    assert t == " :" + Body(o) + tail;
    assert t[2..] == Body(o) + tail;
  }

  /** Well-formed options are all removed and all recorded. */
  lemma {:induction false} ScanOptions(opts: seq<Opt>, atStart: bool)
    requires forall i :: 0 <= i < |opts| ==> WellFormedOpt(opts[i])
    ensures Scan(Options(opts), atStart) == ([], OptionMap(opts))
    decreases |opts|
  {
    if opts != [] {
      var o := opts[0];
      assert opts == [o] + opts[1..];
      MatchOption(o, opts[1..], atStart);
      assert ':' !in o.key by {
        assert forall i :: 0 <= i < |o.key| ==> IsKeyChar(o.key[i]);
      }
      ScanRecorded(Options(opts), atStart, Token(2 + |Body(o)|, o.key, o.value));
      ScanOptions(opts[1..], false);
      if o.value.Some? {
        RecordedValue(o.value.value);
      }
    }
  }

  /** A token whose key has no colon is recorded and removed. */
  lemma {:induction false} ScanRecorded(t: string, atStart: bool, tok: Token)
    requires t != [] && MatchAt(t, atStart) == Some(tok) && ':' !in tok.key
    ensures Scan(t, atStart)
      == (Scan(t[tok.len..], false).0, Store(tok.key, Recorded(tok.value), Scan(t[tok.len..], false).1))
  {
  }

  /** Plain text before the options is kept character by character. */
  lemma {:induction false} ScanText(text: string, i: nat, opts: seq<Opt>)
    requires PlainText(text) && i <= |text|
    requires forall j :: 0 <= j < |opts| ==> WellFormedOpt(opts[j])
    ensures Scan(text[i..] + Options(opts), i == 0) == (text[i..], OptionMap(opts))
    decreases |text| - i
  {
    var t := text[i..] + Options(opts);
    if i == |text| {
      assert t == Options(opts);
      ScanOptions(opts, i == 0);
    } else {
      assert t[0] == text[i];
      assert i == 0 ==> t[0] != ':';
      var tail := Options(opts);
      OptionsStart(opts);
      if |t| >= 2 && IsSpace(t[0]) {
        assert i + 1 < |text|;
        assert t[1] == text[i + 1] != ':';
      }
      assert MatchAt(t, i == 0) == None;
      assert t[1..] == text[i + 1..] + tail;
      ScanText(text, i + 1, opts);
      assert Scan(t, i == 0) == ([t[0]] + Scan(t[1..], false).0, Scan(t[1..], false).1);
      assert text[i..] == [text[i]] + text[i + 1..];
    }
  }

  /** A nonempty title is scanned after its quotes are stripped. */
  lemma {:induction false} ConfigOfText(s: string)
    requires s != []
    ensures GetAndRemoveConfig(Some(s)) ==
      Parsed(Trim(Scan(StripQuotes(s), true).0), Scan(StripQuotes(s), true).1)
  {
  }

  /** Text that neither starts nor ends with a quote keeps its ends. */
  lemma {:induction false} StripQuotesNoop(s: string)
    requires s != [] && !IsQuote(s[0]) && !IsQuote(s[|s| - 1])
    ensures StripQuotes(s) == s
  {
  }

  lemma {:induction false} EndsOfConcat(a: string, b: string)
    requires a + b != []
    ensures (a + b)[0] == if a == [] then b[0] else a[0]
    ensures (a + b)[|a + b| - 1] == if b == [] then a[|a| - 1] else b[|b| - 1]
  {
  }

  lemma {:induction false} TokenCharNotQuote(c: char)
    requires IsKeyChar(c) || IsValueChar(c)
    ensures !IsQuote(c)
  {
  }

  /** A title written as plain text and well-formed options has no quote
      at either end. */
  lemma {:induction false} NoQuotes(text: string, opts: seq<Opt>)
    requires PlainText(text)
    requires forall j :: 0 <= j < |opts| ==> WellFormedOpt(opts[j])
    requires text + Options(opts) != []
    ensures StripQuotes(text + Options(opts)) == text + Options(opts)
  {
    OptionsStart(opts);
    OptionsLast(opts);
    PlainThenOptions(text, Options(opts));
  }

  /** Plain text followed by a string that starts with a space and ends
      with a key or value character has no quote at either end. */
  lemma {:induction false} PlainThenOptions(text: string, o: string)
    requires PlainText(text)
    requires o == [] || (o[0] == ' ' && (IsKeyChar(o[|o| - 1]) || IsValueChar(o[|o| - 1])))
    requires text + o != []
    ensures StripQuotes(text + o) == text + o
  {
    if o != [] {
      TokenCharNotQuote(o[|o| - 1]);
    }
    EndsOfConcat(text, o);
    StripQuotesNoop(text + o);
  }

  /** getAndRemoveConfig gives back the plain text and the options of a
      title written as text followed by well-formed options. */
  lemma {:induction false} ConfigRoundTrip(text: string, opts: seq<Opt>)
    requires PlainText(text)
    requires forall j :: 0 <= j < |opts| ==> WellFormedOpt(opts[j])
    ensures GetAndRemoveConfig(Some(text + Options(opts))) == Parsed(text, OptionMap(opts))
  {
    var s := text + Options(opts);
    if s != [] {
      ScanText(text, 0, opts);
      assert text[0..] == text;
      NoQuotes(text, opts);
      ConfigOfText(s);
      TrimNoop(text);
    }
  }

  /** An option named `__proto__` is removed from the title like any other
      but leaves the config empty: the object's prototype setter ignores
      `true` and strings. */
  lemma {:induction false} ProtoOptionDropped(text: string, v: Option<string>)
    requires PlainText(text) && WellFormedOpt(Opt(ProtoKey, v))
    ensures GetAndRemoveConfig(Some(text + Options([Opt(ProtoKey, v)]))) == Parsed(text, map[])
  {
    var opts := [Opt(ProtoKey, v)];
    ConfigRoundTrip(text, opts);
    assert opts[1..] == [];
  }

  /** The options end with a key or value character. */
  lemma {:induction false} OptionsLast(opts: seq<Opt>)
    requires forall j :: 0 <= j < |opts| ==> WellFormedOpt(opts[j])
    ensures var t := Options(opts); t == [] || IsKeyChar(t[|t| - 1]) || IsValueChar(t[|t| - 1])
    decreases |opts|
  {
    if opts != [] {
      OptionsLast(opts[1..]);
      var o := opts[0];
      var t := Options(opts);
      var tail := Options(opts[1..]);
      var b := Body(o);
      assert t == " :" + b + tail;
      if tail == [] {
        assert t[|t| - 1] == b[|b| - 1];
        if o.value.Some? {
          var v := o.value.value;
          assert b == o.key + "=" + v;
          assert b[|b| - 1] == v[|v| - 1];
        } else {
          assert b == o.key;
        }
      } else {
        assert t[|t| - 1] == tail[|tail| - 1];
      }
    }
  }

  /** removeSubstring only deletes: every character of the result, counted
      with multiplicity, comes from the text. */
  lemma {:induction false} RemoveAllDeletes(s: string, pat: string)
    requires pat != []
    ensures multiset(RemoveAll(s, pat)) <= multiset(s)
    decreases |s|
  {
    if s != [] {
      if StartsWith(s, pat) {
        RemoveAllDeletes(s[|pat|..], pat);
        assert s == s[..|pat|] + s[|pat|..];
      } else {
        RemoveAllDeletes(s[1..], pat);
        assert s == [s[0]] + s[1..];
      }
    }
  }
}

=== FILE: dom.dfy ===
/** The DOM helpers of rearrange-dom.js on a model of the document as a
    store of element nodes keyed by id, each with its tag, class list,
    parent and ordered children.  `insertBefore`, `appendChild` and
    `removeChild` follow the DOM standard's list surgery: a node that is
    inserted is first removed from its old parent. */
module Dom {
  import opened Wrappers
  import opened Strings

  type Id = int

  datatype Node = Node(tag: string, classes: set<string>, parent: Option<Id>, kids: seq<Id>)

  /** The element store and the next fresh id. */
  datatype Doc = Doc(nodes: map<Id, Node>, next: Id)

  predicate Distinct(s: seq<Id>) {
    forall i, j :: 0 <= i < j < |s| ==> s[i] != s[j]
  }

  predicate IdsBelow(d: Doc) {
    forall x :: x in d.nodes ==> x < d.next
  }

  /** Every listed child exists and names the list's owner as its parent. */
  predicate KidsLinked(d: Doc) {
    forall p, i :: p in d.nodes && 0 <= i < |d.nodes[p].kids| ==>
      d.nodes[p].kids[i] in d.nodes && d.nodes[d.nodes[p].kids[i]].parent == Some(p)
  }

  /** Every parent exists and lists its child. */
  predicate ParentsLinked(d: Doc) {
    forall c {:trigger d.nodes[c].parent} :: c in d.nodes && d.nodes[c].parent.Some? ==>
      d.nodes[c].parent.value in d.nodes && c in d.nodes[d.nodes[c].parent.value].kids
  }

  predicate KidsDistinct(d: Doc) {
    forall p {:trigger d.nodes[p].kids} :: p in d.nodes ==> Distinct(d.nodes[p].kids)
  }

  /** Ids are below the fresh-id counter, parent and child links agree, and
      no node is listed twice among its parent's children. */
  predicate WF(d: Doc) {
    IdsBelow(d) && KidsLinked(d) && ParentsLinked(d) && KidsDistinct(d)
  }

  // ---------------------------------------------------------------------
  // Child lists

  function IndexOf(s: seq<Id>, x: Id): (i: nat)
    requires x in s
    ensures i < |s| && s[i] == x && x !in s[..i]
  {
    if s[0] == x then 0
    else
      var i := IndexOf(s[1..], x);
      assert s[1..][..i] == s[1..i + 1];
      i + 1
  }

  /** The list with x taken out. */
  function Without(s: seq<Id>, x: Id): (r: seq<Id>)
    ensures forall y :: y in r <==> y in s && y != x
    ensures |r| <= |s|
  {
    if s == [] then []
    else if s[0] == x then Without(s[1..], x)
    else [s[0]] + Without(s[1..], x)
  }

  lemma {:induction false} WithoutAbsent(s: seq<Id>, x: Id)
    requires x !in s
    ensures Without(s, x) == s
  {
    if s != [] {
      WithoutAbsent(s[1..], x);
      assert [s[0]] + s[1..] == s;
    }
  }

  /** Taking out the single occurrence closes the gap and keeps the order. */
  lemma {:induction false} WithoutAt(s: seq<Id>, x: Id)
    requires Distinct(s) && x in s
    ensures Without(s, x) == s[..IndexOf(s, x)] + s[IndexOf(s, x) + 1..]
  {
    var i := IndexOf(s, x);
    if i == 0 {
      assert x !in s[1..];
      WithoutAbsent(s[1..], x);
    } else {
      assert s[0] != x;
      assert Distinct(s[1..]);
      assert IndexOf(s[1..], x) == i - 1;
      WithoutAt(s[1..], x);
      assert s[..i] == [s[0]] + s[1..][..i - 1];
      assert s[i + 1..] == s[1..][i..];
    }
  }

  lemma {:induction false} WithoutDistinct(s: seq<Id>, x: Id)
    requires Distinct(s)
    ensures Distinct(Without(s, x))
  {
    if s != [] {
      assert Distinct(s[1..]);
      WithoutDistinct(s[1..], x);
      assert s[0] !in s[1..];
    }
  }

  /** x placed before position i. */
  function Insert(s: seq<Id>, i: nat, x: Id): (r: seq<Id>)
    requires i <= |s|
    ensures |r| == |s| + 1 && r[i] == x && r[..i] == s[..i] && r[i + 1..] == s[i..]
  {
    s[..i] + [x] + s[i..]
  }

  lemma {:induction false} InsertDistinct(s: seq<Id>, i: nat, x: Id)
    requires Distinct(s) && x !in s && i <= |s|
    ensures Distinct(Insert(s, i, x))
  {
    var r := Insert(s, i, x);
    forall a, b | 0 <= a < b < |r|
      ensures r[a] != r[b]
    {
      if a < i && b > i {
        assert r[b] == s[b - 1];
      } else if a > i {
        assert r[a] == s[a - 1] && r[b] == s[b - 1];
      } else if a == i {
        assert r[b] == s[b - 1];
      }
    }
  }

  lemma {:induction false} InsertMembers(s: seq<Id>, i: nat, x: Id)
    requires i <= |s|
    ensures forall y :: y in Insert(s, i, x) <==> y == x || y in s
  {
    assert s == s[..i] + s[i..];
  }

  // ---------------------------------------------------------------------
  // Operations

  /** `document.createElement(tag)` and `classList.add(className)`: a
      fresh, detached element with that one class.  The class token must be
      nonempty and free of white space, or `classList.add` throws. */
  function CreateElement(d: Doc, tag: string, className: string): (r: (Doc, Id))
    requires className != [] && NoSpace(className)
    ensures r.0.nodes == d.nodes[r.1 := Node(tag, {className}, None, [])]
    ensures WF(d) ==> r.1 !in d.nodes && WF(r.0)
  {
    var id := d.next;
    var d' := Doc(d.nodes[id := Node(tag, {className}, None, [])], d.next + 1);
    assert WF(d) ==> id !in d.nodes;
    (d', id)
  }

  /** The node removed from its parent's children, if it has a parent. */
  function Detach(d: Doc, x: Id): (r: Doc)
    requires x in d.nodes
    ensures r.nodes.Keys == d.nodes.Keys && r.next == d.next
    ensures r.nodes[x].parent == None
    ensures forall q {:trigger r.nodes[q]} :: q in d.nodes ==> r.nodes[q].tag == d.nodes[q].tag && r.nodes[q].classes == d.nodes[q].classes
  {
    var n := d.nodes[x];
    if n.parent.None? || n.parent.value !in d.nodes then d.(nodes := d.nodes[x := n.(parent := None)])
    else
      var q := n.parent.value;
      var m := d.nodes[q := d.nodes[q].(kids := Without(d.nodes[q].kids, x))];
      d.(nodes := m[x := m[x].(parent := None)])
  }

  /** The sibling after x, which `insertBefore(x, x)` uses as its reference. */
  function NextSibling(s: seq<Id>, x: Id): (r: Option<Id>)
    ensures r.Some? ==> r.value in s
    ensures Distinct(s) && r.Some? ==> r.value != x
  {
    if x !in s then None
    else
      var i := IndexOf(s, x);
      if i + 1 < |s| then Some(s[i + 1]) else None
  }

  /** What detaching does to each node: x loses its parent and its
      parent's list loses x. */
  lemma {:induction false} DetachFields(d: Doc, x: Id, y: Id)
    requires x in d.nodes && y in d.nodes
    ensures var r := Detach(d, x); var q := d.nodes[x].parent;
      && r.nodes[y].kids == (if q == Some(y) then Without(d.nodes[y].kids, x) else d.nodes[y].kids)
      && r.nodes[y].parent == (if y == x then None else d.nodes[y].parent)
  {
  }

  /** Detaching x takes it out of every list. */
  lemma {:induction false} DetachLists(d: Doc, x: Id)
    requires WF(d) && x in d.nodes
    ensures forall p :: p in d.nodes ==> Detach(d, x).nodes[p].kids == Without(d.nodes[p].kids, x)
  {
    var r := Detach(d, x);
    var q := d.nodes[x].parent;
    forall p | p in d.nodes
      ensures r.nodes[p].kids == Without(d.nodes[p].kids, x)
    {
      DetachFields(d, x, p);
      if q != Some(p) {
        assert x !in d.nodes[p].kids;
        WithoutAbsent(d.nodes[p].kids, x);
      }
    }
  }

  lemma {:induction false} DetachKidsLinked(d: Doc, x: Id)
    requires WF(d) && x in d.nodes
    ensures KidsLinked(Detach(d, x))
  {
    var r := Detach(d, x);
    DetachLists(d, x);
    forall p, c | p in r.nodes && c in r.nodes[p].kids
      ensures c in r.nodes && r.nodes[c].parent == Some(p)
    {
      DetachFields(d, x, c);
    }
  }

  lemma {:induction false} DetachParentsLinked(d: Doc, x: Id)
    requires WF(d) && x in d.nodes
    ensures ParentsLinked(Detach(d, x))
  {
    var r := Detach(d, x);
    DetachLists(d, x);
    forall c | c in r.nodes && r.nodes[c].parent.Some?
      ensures r.nodes[c].parent.value in r.nodes && c in r.nodes[r.nodes[c].parent.value].kids
    {
      DetachFields(d, x, c);
      var pp := d.nodes[c].parent.value;
      assert c != x && c in d.nodes[pp].kids;
      assert r.nodes[pp].kids == Without(d.nodes[pp].kids, x);
    }
  }

  /** Detaching keeps the document well formed, and x leaves every list. */
  lemma {:induction false} DetachWF(d: Doc, x: Id)
    requires WF(d) && x in d.nodes
    ensures WF(Detach(d, x))
    ensures forall p :: p in d.nodes ==> Detach(d, x).nodes[p].kids == Without(d.nodes[p].kids, x)
  {
    var r := Detach(d, x);
    DetachLists(d, x);
    DetachKidsLinked(d, x);
    DetachParentsLinked(d, x);
    assert KidsDistinct(r) by {
      forall p | p in r.nodes
        ensures Distinct(r.nodes[p].kids)
      {
        WithoutDistinct(d.nodes[p].kids, x);
      }
    }
  }

  /** A detached x placed at position i of p's children. */
  function Place(d: Doc, p: Id, x: Id, i: nat): (r: Doc)
    requires WF(d) && p in d.nodes && x in d.nodes && p != x
    requires d.nodes[x].parent == None && i <= |d.nodes[p].kids|
    ensures WF(r) && r.nodes.Keys == d.nodes.Keys && r.next == d.next
    ensures r.nodes[x].parent == Some(p) && r.nodes[p].kids == Insert(d.nodes[p].kids, i, x)
    ensures forall q {:trigger r.nodes[q]} :: q in d.nodes && q != p ==> r.nodes[q].kids == d.nodes[q].kids
    ensures forall q {:trigger r.nodes[q]} :: q in d.nodes && q != x ==> r.nodes[q].parent == d.nodes[q].parent
    ensures forall q {:trigger r.nodes[q]} :: q in d.nodes ==> r.nodes[q].tag == d.nodes[q].tag && r.nodes[q].classes == d.nodes[q].classes
  {
    var kids := d.nodes[p].kids;
    var m := d.nodes[p := d.nodes[p].(kids := Insert(kids, i, x))];
    var r := d.(nodes := m[x := m[x].(parent := Some(p))]);
    PlaceWF(d, p, x, i, r);
    r
  }

  lemma {:induction false} PlaceWF(d: Doc, p: Id, x: Id, i: nat, r: Doc)
    requires WF(d) && p in d.nodes && x in d.nodes && p != x
    requires d.nodes[x].parent == None && i <= |d.nodes[p].kids|
    requires var m := d.nodes[p := d.nodes[p].(kids := Insert(d.nodes[p].kids, i, x))];
      r == d.(nodes := m[x := m[x].(parent := Some(p))])
    ensures WF(r)
  {
    var kids := d.nodes[p].kids;
    assert x !in kids;
    InsertMembers(kids, i, x);
    assert KidsLinked(r) by {
      forall a, c | a in r.nodes && c in r.nodes[a].kids
        ensures c in r.nodes && r.nodes[c].parent == Some(a)
      {
        if a == p && c != x {
          assert c in kids;
        }
      }
    }
    assert ParentsLinked(r);
    assert KidsDistinct(r) by {
      InsertDistinct(kids, i, x);
    }
  }

  /** `p.insertBefore(x, ref)`; `None` is a null reference, which appends.
      The reference must be a child of p, and x must not be p. */
  function InsertBefore(d: Doc, p: Id, x: Id, ref: Option<Id>): (r: Doc)
    requires WF(d) && p in d.nodes && x in d.nodes && p != x
    requires ref.Some? ==> ref.value in d.nodes[p].kids
    ensures WF(r) && r.nodes.Keys == d.nodes.Keys && r.next == d.next
    ensures r.nodes[x].parent == Some(p)
  {
    var d1 := Detach(d, x);
    DetachWF(d, x);
    Place(d1, p, x, Position(d, p, x, ref))
  }

  /** Where x goes in p's list once it has been taken out of it. */
  function Position(d: Doc, p: Id, x: Id, ref: Option<Id>): (i: nat)
    requires WF(d) && p in d.nodes && x in d.nodes
    requires ref.Some? ==> ref.value in d.nodes[p].kids
    ensures i <= |Without(d.nodes[p].kids, x)|
  {
    var kids := Without(d.nodes[p].kids, x);
    var ref' := if ref == Some(x) then NextSibling(d.nodes[p].kids, x) else ref;
    match ref'
    case None => |kids|
    case Some(c) =>
      assert c != x;
      IndexOf(kids, c)
  }

  /** insertBefore is placement at the computed position in the detached
      document. */
  lemma {:induction false} InsertBeforeIsPlace(d: Doc, p: Id, x: Id, ref: Option<Id>)
    requires WF(d) && p in d.nodes && x in d.nodes && p != x
    requires ref.Some? ==> ref.value in d.nodes[p].kids
    ensures WF(Detach(d, x))
    ensures var r := InsertBefore(d, p, x, ref);
      && r.nodes[p].kids == Insert(Without(d.nodes[p].kids, x), Position(d, p, x, ref), x)
      && (forall q :: q in d.nodes && q != p ==> r.nodes[q].kids == Without(d.nodes[q].kids, x))
  {
    DetachWF(d, x);
  }

  /** With a null reference x goes last, after the list with x taken out. */
  lemma {:induction false} InsertBeforeNull(d: Doc, p: Id, x: Id)
    requires WF(d) && p in d.nodes && x in d.nodes && p != x
    ensures InsertBefore(d, p, x, None).nodes[p].kids == Without(d.nodes[p].kids, x) + [x]
  {
    InsertBeforeIsPlace(d, p, x, None);
    var s := Without(d.nodes[p].kids, x);
    assert Position(d, p, x, None) == |s|;
    InsertAtEnd(s, x);
  }

  lemma {:induction false} InsertAtEnd(s: seq<Id>, x: Id)
    ensures Insert(s, |s|, x) == s + [x]
  {
    assert s[|s|..] == [];
  }

  /** x goes just before the reference, in the list with x taken out. */
  lemma {:induction false} InsertBeforeRef(d: Doc, p: Id, x: Id, c: Id)
    requires WF(d) && p in d.nodes && x in d.nodes && p != x
    requires c in d.nodes[p].kids && c != x
    ensures var s := Without(d.nodes[p].kids, x);
      InsertBefore(d, p, x, Some(c)).nodes[p].kids == Insert(s, IndexOf(s, c), x)
  {
    InsertBeforeIsPlace(d, p, x, Some(c));
  }

  /** x used as its own reference stays where it is. */
  lemma {:induction false} InsertBeforeSelf(d: Doc, p: Id, x: Id)
    requires WF(d) && p in d.nodes && x in d.nodes && p != x
    requires x in d.nodes[p].kids
    ensures InsertBefore(d, p, x, Some(x)).nodes[p].kids == d.nodes[p].kids
  {
    InsertBeforeIsPlace(d, p, x, Some(x));
    var s := Without(d.nodes[p].kids, x);
    SelfReference(d.nodes[p].kids, x, s, Position(d, p, x, Some(x)));
  }

  /** insertBefore changes no tag or class, and no parent but x's. */
  lemma {:induction false} InsertBeforeOthers(d: Doc, p: Id, x: Id, ref: Option<Id>)
    requires WF(d) && p in d.nodes && x in d.nodes && p != x
    requires ref.Some? ==> ref.value in d.nodes[p].kids
    ensures var r := InsertBefore(d, p, x, ref);
      && (forall q :: q in d.nodes && q != x ==> r.nodes[q].parent == d.nodes[q].parent)
      && (forall q :: q in d.nodes ==> r.nodes[q].tag == d.nodes[q].tag && r.nodes[q].classes == d.nodes[q].classes)
  {
    DetachWF(d, x);
    forall q | q in d.nodes && q != x
      ensures Detach(d, x).nodes[q].parent == d.nodes[q].parent
    {
      DetachFields(d, x, q);
    }
  }

  /** `insertBefore(x, x)` puts x back where it was. */
  lemma {:induction false} SelfReference(s: seq<Id>, x: Id, s0: seq<Id>, i: nat)
    requires Distinct(s) && x in s && s0 == Without(s, x)
    requires i == match NextSibling(s, x) case None => |s0| case Some(c) => IndexOf(s0, c)
    ensures i <= |s0| && Insert(s0, i, x) == s
  {
    var j := IndexOf(s, x);
    WithoutAt(s, x);
    NextSiblingGap(s, x, s0);
    GapInsert(s, j, s0, x);
  }

  lemma {:induction false} GapInsert(s: seq<Id>, j: nat, s0: seq<Id>, x: Id)
    requires j < |s| && s[j] == x && s0 == s[..j] + s[j + 1..]
    ensures j <= |s0| && Insert(s0, j, x) == s
  {
    assert s0[..j] == s[..j];
    assert s0[j..] == s[j + 1..];
    assert s == s[..j] + [x] + s[j + 1..];
  }

  /** In the list with x taken out, x's next sibling stands where x stood. */
  lemma {:induction false} NextSiblingGap(s: seq<Id>, x: Id, s0: seq<Id>)
    requires Distinct(s) && x in s && s0 == s[..IndexOf(s, x)] + s[IndexOf(s, x) + 1..]
    ensures (match NextSibling(s, x) case None => |s0| case Some(c) => IndexOf(s0, c)) == IndexOf(s, x)
  {
    var j := IndexOf(s, x);
    if j + 1 < |s| {
      var c := s[j + 1];
      assert s0[j] == c;
      assert s0[..j] == s[..j];
      assert c !in s[..j] by {
        assert forall k :: 0 <= k < j ==> s[k] != s[j + 1];
      }
      IndexOfUnique(s0, c, j);
    }
  }

  lemma {:induction false} IndexOfUnique(s: seq<Id>, x: Id, j: nat)
    requires j < |s| && s[j] == x && x !in s[..j]
    ensures IndexOf(s, x) == j
  {
  }

  /** `parent.appendChild(x)`: x moves to the end of p's children and out
      of any other list. */
  function AppendChild(d: Doc, p: Id, x: Id): (r: Doc)
    requires WF(d) && p in d.nodes && x in d.nodes && p != x
    ensures WF(r) && r.nodes.Keys == d.nodes.Keys && r.next == d.next
    ensures r.nodes[p].kids == Without(d.nodes[p].kids, x) + [x]
    ensures forall q {:trigger r.nodes[q]} :: q in d.nodes && q != p ==> r.nodes[q].kids == Without(d.nodes[q].kids, x)
    ensures r.nodes[x].parent == Some(p)
    ensures forall q {:trigger r.nodes[q]} :: q in d.nodes && q != x ==> r.nodes[q].parent == d.nodes[q].parent
    ensures forall q {:trigger r.nodes[q]} :: q in d.nodes ==> r.nodes[q].tag == d.nodes[q].tag && r.nodes[q].classes == d.nodes[q].classes
  {
    InsertBeforeNull(d, p, x);
    InsertBeforeIsPlace(d, p, x, None);
    InsertBeforeOthers(d, p, x, None);
    InsertBefore(d, p, x, None)
  }

  /** The first child, the reference `insertElements` inserts before. */
  function FirstChild(s: seq<Id>): (r: Option<Id>)
    ensures r.Some? ==> r.value in s
  {
    if s == [] then None else Some(s[0])
  }

  /** `parent.insertBefore(x, parent.firstChild)`. */
  function Prepend(d: Doc, p: Id, x: Id): (r: Doc)
    requires WF(d) && p in d.nodes && x in d.nodes && p != x
    ensures WF(r) && r.nodes.Keys == d.nodes.Keys && r.next == d.next
    ensures d.nodes[x].parent.None? ==> r.nodes[p].kids == [x] + d.nodes[p].kids
    ensures d.nodes[x].parent.None? ==> forall q {:trigger r.nodes[q]} :: q in d.nodes && q != p ==> r.nodes[q].kids == d.nodes[q].kids
    ensures r.nodes[x].parent == Some(p)
    ensures forall q {:trigger r.nodes[q]} :: q in d.nodes && q != x ==> r.nodes[q].parent == d.nodes[q].parent
    ensures forall q {:trigger r.nodes[q]} :: q in d.nodes ==> r.nodes[q].tag == d.nodes[q].tag && r.nodes[q].classes == d.nodes[q].classes
  {
    var ref := FirstChild(d.nodes[p].kids);
    InsertBeforeIsPlace(d, p, x, ref);
    InsertBeforeOthers(d, p, x, ref);
    var r := InsertBefore(d, p, x, ref);
    if d.nodes[x].parent.None? then
      PrependDetached(d, p, x);
      DetachedNowhere(d, x);
      r
    else r
  }

  /** A node without a parent is in no list, so taking it out changes none. */
  lemma {:induction false} DetachedNowhere(d: Doc, x: Id)
    requires WF(d) && x in d.nodes && d.nodes[x].parent.None?
    ensures forall q :: q in d.nodes ==> x !in d.nodes[q].kids
    ensures forall q :: q in d.nodes ==> Without(d.nodes[q].kids, x) == d.nodes[q].kids
  {
    DetachedInNoList(d, x);
    WithoutAbsentAll(d, x);
  }

  lemma {:induction false} DetachedInNoList(d: Doc, x: Id)
    requires KidsLinked(d) && x in d.nodes && d.nodes[x].parent.None?
    ensures forall q :: q in d.nodes ==> x !in d.nodes[q].kids
  {
  }

  lemma {:induction false} WithoutAbsentAll(d: Doc, x: Id)
    requires forall q :: q in d.nodes ==> x !in d.nodes[q].kids
    ensures forall q :: q in d.nodes ==> Without(d.nodes[q].kids, x) == d.nodes[q].kids
  {
    forall q | q in d.nodes
      ensures Without(d.nodes[q].kids, x) == d.nodes[q].kids
    {
      WithoutAbsent(d.nodes[q].kids, x);
    }
  }

  lemma {:induction false} PrependDetached(d: Doc, p: Id, x: Id)
    requires WF(d) && p in d.nodes && x in d.nodes && p != x && d.nodes[x].parent.None?
    ensures InsertBefore(d, p, x, FirstChild(d.nodes[p].kids)).nodes[p].kids == [x] + d.nodes[p].kids
  {
    var s := d.nodes[p].kids;
    if s == [] {
      assert FirstChild(s) == None;
      InsertBeforeNull(d, p, x);
    } else {
      assert FirstChild(s) == Some(s[0]);
      PrependFront(d, p, x);
    }
  }

  lemma {:induction false} PrependFront(d: Doc, p: Id, x: Id)
    requires WF(d) && p in d.nodes && x in d.nodes && p != x && d.nodes[x].parent.None?
    requires d.nodes[p].kids != []
    ensures InsertBefore(d, p, x, Some(d.nodes[p].kids[0])).nodes[p].kids == [x] + d.nodes[p].kids
  {
    var s := d.nodes[p].kids;
    DetachedInNoList(d, x);
    WithoutAbsent(s, x);
    InsertBeforeRef(d, p, x, s[0]);
    assert IndexOf(s, s[0]) == 0;
    InsertAtFront(s, x);
  }

  lemma {:induction false} InsertAtFront(s: seq<Id>, x: Id)
    ensures Insert(s, 0, x) == [x] + s
  {
    assert s[..0] == [];
  }

  // ---------------------------------------------------------------------
  // rearrange-dom.js

  /** `removeElement`: `x.parentNode.removeChild(x)`; x must have a parent.
      The other children keep their order. */
  function RemoveElement(d: Doc, x: Id): (r: Doc)
    requires WF(d) && x in d.nodes && d.nodes[x].parent.Some?
    ensures WF(r) && r.nodes.Keys == d.nodes.Keys && r.next == d.next
    ensures r.nodes[x].parent == None
    ensures var p := d.nodes[x].parent.value; var s := d.nodes[p].kids;
      x in s && r.nodes[p].kids == s[..IndexOf(s, x)] + s[IndexOf(s, x) + 1..]
    ensures forall q {:trigger r.nodes[q]} :: q in d.nodes && q != d.nodes[x].parent.value ==> r.nodes[q].kids == d.nodes[q].kids
    ensures forall q {:trigger r.nodes[q]} :: q in d.nodes && q != x ==> r.nodes[q].parent == d.nodes[q].parent
    ensures forall q {:trigger r.nodes[q]} :: q in d.nodes ==> r.nodes[q].tag == d.nodes[q].tag && r.nodes[q].classes == d.nodes[q].classes
  {
    var p := d.nodes[x].parent.value;
    DetachWF(d, x);
    WithoutAt(d.nodes[p].kids, x);
    forall q | q in d.nodes
      ensures q != p ==> Detach(d, x).nodes[q].kids == d.nodes[q].kids
      ensures q != x ==> Detach(d, x).nodes[q].parent == d.nodes[q].parent
    {
      DetachFields(d, x, q);
    }
    Detach(d, x)
  }

  /** `wrapElement(w, x)`: w takes x's place among its siblings and x moves
      into w. */
  function WrapElement(d: Doc, w: Id, x: Id): (r: Doc)
    requires WF(d) && w in d.nodes && x in d.nodes && d.nodes[x].parent.Some?
    requires w != x && w != d.nodes[x].parent.value
    ensures WF(r) && r.nodes.Keys == d.nodes.Keys && r.next == d.next
    ensures r.nodes[x].parent == Some(w) && r.nodes[w].parent == d.nodes[x].parent
  {
    var p := d.nodes[x].parent.value;
    var d1 := InsertBefore(d, p, w, Some(x));
    InsertBeforeOthers(d, p, w, Some(x));
    AppendChild(d1, w, x)
  }

  /** For a detached wrapper: the wrapper stands at the element's former
      index, the other siblings keep their order, and the element becomes
      the wrapper's last child. */
  lemma {:induction false} WrapOrder(d: Doc, w: Id, x: Id)
    requires WF(d) && w in d.nodes && x in d.nodes && d.nodes[x].parent.Some?
    requires w != x && w != d.nodes[x].parent.value
    requires d.nodes[w].parent.None?
    ensures var p := d.nodes[x].parent.value; var s := d.nodes[p].kids; var r := WrapElement(d, w, x);
      && x in s
      && r.nodes[p].kids == s[..IndexOf(s, x)] + [w] + s[IndexOf(s, x) + 1..]
      && r.nodes[w].kids == d.nodes[w].kids + [x]
  {
    WrapParentList(d, w, x);
    WrapOwnList(d, w, x);
  }

  lemma {:induction false} WrapParentList(d: Doc, w: Id, x: Id)
    requires WF(d) && w in d.nodes && x in d.nodes && d.nodes[x].parent.Some?
    requires w != x && w != d.nodes[x].parent.value
    requires d.nodes[w].parent.None?
    ensures var p := d.nodes[x].parent.value; var s := d.nodes[p].kids;
      && x in s
      && WrapElement(d, w, x).nodes[p].kids == s[..IndexOf(s, x)] + [w] + s[IndexOf(s, x) + 1..]
  {
    var p := d.nodes[x].parent.value;
    var s := d.nodes[p].kids;
    var d1 := InsertBefore(d, p, w, Some(x));
    WrapInsert(d, w, x);
    var t := d1.nodes[p].kids;
    WrapGap(s, IndexOf(s, x), w, x, t);
    WithoutAt(t, x);
  }

  lemma {:induction false} WrapOwnList(d: Doc, w: Id, x: Id)
    requires WF(d) && w in d.nodes && x in d.nodes && d.nodes[x].parent.Some?
    requires w != x && w != d.nodes[x].parent.value
    requires d.nodes[w].parent.None?
    ensures WrapElement(d, w, x).nodes[w].kids == d.nodes[w].kids + [x]
  {
    WrapInsert(d, w, x);
    assert x !in d.nodes[w].kids;
    WithoutAbsent(d.nodes[w].kids, x);
  }

  /** The first step of wrapping: w goes in just before x, and nothing else
      changes for w's own list and x's parent. */
  lemma {:induction false} WrapInsert(d: Doc, w: Id, x: Id)
    requires WF(d) && w in d.nodes && x in d.nodes && d.nodes[x].parent.Some?
    requires w != x && w != d.nodes[x].parent.value
    requires d.nodes[w].parent.None?
    ensures var p := d.nodes[x].parent.value; var s := d.nodes[p].kids;
      var d1 := InsertBefore(d, p, w, Some(x));
      && x in s
      && d1.nodes[p].kids == s[..IndexOf(s, x)] + [w] + s[IndexOf(s, x)..]
      && d1.nodes[w].kids == d.nodes[w].kids
      && d1.nodes[x].parent == Some(p)
  {
    var p := d.nodes[x].parent.value;
    var s := d.nodes[p].kids;
    DetachedNowhere(d, w);
    InsertBeforeRef(d, p, w, x);
    InsertBeforeIsPlace(d, p, w, Some(x));
    InsertBeforeOthers(d, p, w, Some(x));
  }

  /** In s with w placed before x at position i, x comes right after w,
      and taking it out leaves w in x's old place. */
  lemma {:induction false} WrapGap(s: seq<Id>, i: nat, w: Id, x: Id, t: seq<Id>)
    requires i < |s| && s[i] == x && x !in s[..i] && w != x
    requires t == s[..i] + [w] + s[i..]
    ensures x in t && IndexOf(t, x) == i + 1
    ensures t[..i + 1] + t[i + 2..] == s[..i] + [w] + s[i + 1..]
  {
    assert t[i + 1] == x;
    assert t[..i + 1] == s[..i] + [w];
    IndexOfUnique(t, x, i + 1);
    assert t[i + 2..] == s[i + 1..];
  }

  /** `insertElements(p, ...els)`: each element, the last first, inserted
      before p's first child. */
  function InsertElements(d: Doc, p: Id, els: seq<Id>): (r: Doc)
    requires WF(d) && p in d.nodes && forall e :: e in els ==> e in d.nodes && e != p
    ensures WF(r) && r.nodes.Keys == d.nodes.Keys && r.next == d.next
    ensures forall q {:trigger r.nodes[q]} :: q in d.nodes ==> r.nodes[q].tag == d.nodes[q].tag && r.nodes[q].classes == d.nodes[q].classes
    ensures forall q {:trigger r.nodes[q]} :: q in d.nodes && q !in els ==> r.nodes[q].parent == d.nodes[q].parent
    decreases |els|
  {
    if els == [] then d
    else
      var n := |els| - 1;
      assert forall e :: e in els[..n] ==> e in els;
      InsertElements(Prepend(d, p, els[n]), p, els[..n])
  }

  /** Detached, distinct elements end up first among p's children in the
      order given, before the old children; no other list changes. */
  lemma {:induction false} InsertElementsOrder(d: Doc, p: Id, els: seq<Id>)
    requires WF(d) && p in d.nodes && forall e :: e in els ==> e in d.nodes && e != p
    requires Distinct(els) && forall e :: e in els ==> d.nodes[e].parent.None?
    ensures var r := InsertElements(d, p, els);
      && r.nodes[p].kids == els + d.nodes[p].kids
      && (forall q :: q in d.nodes && q != p ==> r.nodes[q].kids == d.nodes[q].kids)
      && (forall e :: e in els ==> r.nodes[e].parent == Some(p))
  {
    InsertElementsFirst(d, p, els);
    InsertElementsOthers(d, p, els);
    InsertElementsParents(d, p, els);
  }

  /** The last element placed first, the others still detached. */
  lemma {:induction false} PrependStep(d: Doc, p: Id, els: seq<Id>)
    requires WF(d) && p in d.nodes && forall e :: e in els ==> e in d.nodes && e != p
    requires Distinct(els) && forall e :: e in els ==> d.nodes[e].parent.None?
    requires els != []
    ensures var n := |els| - 1; var d1 := Prepend(d, p, els[n]);
      && els == els[..n] + [els[n]] && Distinct(els[..n]) && els[n] !in els[..n]
      && (forall e :: e in els[..n] ==> d1.nodes[e].parent.None?)
      && InsertElements(d, p, els) == InsertElements(d1, p, els[..n])
  {
    var n := |els| - 1;
    LastSplit(els);
    var d1 := Prepend(d, p, els[n]);
    forall e | e in els[..n]
      ensures d1.nodes[e].parent.None?
    {
      assert e != els[n];
    }
  }

  /** A distinct list is its front and its last element, which the front
      does not contain. */
  lemma {:induction false} LastSplit(els: seq<Id>)
    requires Distinct(els) && els != []
    ensures var n := |els| - 1;
      els == els[..n] + [els[n]] && Distinct(els[..n]) && els[n] !in els[..n]
  {
  }

  lemma {:induction false} InsertElementsFirst(d: Doc, p: Id, els: seq<Id>)
    requires WF(d) && p in d.nodes && forall e :: e in els ==> e in d.nodes && e != p
    requires Distinct(els) && forall e :: e in els ==> d.nodes[e].parent.None?
    ensures InsertElements(d, p, els).nodes[p].kids == els + d.nodes[p].kids
    decreases |els|
  {
    if els != [] {
      var n := |els| - 1;
      PrependStep(d, p, els);
      var d1 := Prepend(d, p, els[n]);
      InsertElementsFirst(d1, p, els[..n]);
      ConcatAssoc(els[..n], [els[n]], d.nodes[p].kids);
    } else {
      assert els + d.nodes[p].kids == d.nodes[p].kids;
    }
  }

  lemma {:induction false} InsertElementsOthers(d: Doc, p: Id, els: seq<Id>)
    requires WF(d) && p in d.nodes && forall e :: e in els ==> e in d.nodes && e != p
    requires Distinct(els) && forall e :: e in els ==> d.nodes[e].parent.None?
    ensures var r := InsertElements(d, p, els);
      forall q :: q in d.nodes && q != p ==> r.nodes[q].kids == d.nodes[q].kids
    decreases |els|
  {
    if els != [] {
      var n := |els| - 1;
      PrependStep(d, p, els);
      InsertElementsOthers(Prepend(d, p, els[n]), p, els[..n]);
    }
  }

  lemma {:induction false} InsertElementsParents(d: Doc, p: Id, els: seq<Id>)
    requires WF(d) && p in d.nodes && forall e :: e in els ==> e in d.nodes && e != p
    requires Distinct(els) && forall e :: e in els ==> d.nodes[e].parent.None?
    ensures var r := InsertElements(d, p, els);
      forall e :: e in els ==> r.nodes[e].parent == Some(p)
    decreases |els|
  {
    if els != [] {
      var n := |els| - 1;
      PrependStep(d, p, els);
      InsertElementsParents(Prepend(d, p, els[n]), p, els[..n]);
    }
  }

  lemma {:induction false} ConcatAssoc(a: seq<Id>, b: seq<Id>, c: seq<Id>)
    ensures a + (b + c) == (a + b) + c
  {
  }

  /** The list with every member of xs taken out. */
  function WithoutAll(s: seq<Id>, xs: seq<Id>): (r: seq<Id>)
    ensures forall y {:trigger y in r} :: y in r <==> y in s && y !in xs
  {
    if s == [] then []
    else (if s[0] in xs then [] else [s[0]]) + WithoutAll(s[1..], xs)
  }

  lemma {:induction false} WithoutAllConcat(a: seq<Id>, b: seq<Id>, xs: seq<Id>)
    ensures WithoutAll(a + b, xs) == WithoutAll(a, xs) + WithoutAll(b, xs)
  {
    if a != [] {
      assert (a + b)[1..] == a[1..] + b;
      WithoutAllConcat(a[1..], b, xs);
    } else {
      assert a + b == b;
    }
  }

  lemma {:induction false} WithoutThenAll(s: seq<Id>, x: Id, xs: seq<Id>)
    ensures WithoutAll(Without(s, x), xs) == WithoutAll(s, [x] + xs)
  {
    if s != [] {
      WithoutThenAll(s[1..], x, xs);
      if s[0] != x {
        assert ([s[0]] + Without(s[1..], x))[1..] == Without(s[1..], x);
      }
    }
  }

  /** `appendElements(p, ...els)`: each element appended in turn. */
  function AppendElements(d: Doc, p: Id, els: seq<Id>): (r: Doc)
    requires WF(d) && p in d.nodes && forall e :: e in els ==> e in d.nodes && e != p
    ensures WF(r) && r.nodes.Keys == d.nodes.Keys && r.next == d.next
    ensures forall q {:trigger r.nodes[q]} :: q in d.nodes ==> r.nodes[q].tag == d.nodes[q].tag && r.nodes[q].classes == d.nodes[q].classes
    ensures forall q {:trigger r.nodes[q]} :: q in d.nodes && q !in els ==> r.nodes[q].parent == d.nodes[q].parent
    decreases |els|
  {
    if els == [] then d
    else AppendElements(AppendChild(d, p, els[0]), p, els[1..])
  }

  /** Distinct elements end up last among p's children in the order given;
      they are moved, not copied: every list, p's included, loses its old
      occurrences of them. */
  lemma {:induction false} AppendElementsOrder(d: Doc, p: Id, els: seq<Id>)
    requires WF(d) && p in d.nodes && forall e :: e in els ==> e in d.nodes && e != p
    requires Distinct(els)
    ensures var r := AppendElements(d, p, els);
      && r.nodes[p].kids == WithoutAll(d.nodes[p].kids, els) + els
      && (forall q :: q in d.nodes && q != p ==> r.nodes[q].kids == WithoutAll(d.nodes[q].kids, els))
      && (forall e :: e in els ==> r.nodes[e].parent == Some(p))
  {
    AppendElementsLast(d, p, els);
    AppendElementsOthers(d, p, els);
    AppendElementsParents(d, p, els);
  }

  /** The first element appended, the rest still to go. */
  lemma {:induction false} AppendStep(d: Doc, p: Id, els: seq<Id>)
    requires WF(d) && p in d.nodes && forall e :: e in els ==> e in d.nodes && e != p
    requires Distinct(els) && els != []
    ensures && els == [els[0]] + els[1..] && Distinct(els[1..]) && els[0] !in els[1..]
      && AppendElements(d, p, els) == AppendElements(AppendChild(d, p, els[0]), p, els[1..])
  {
    assert els == [els[0]] + els[1..];
  }

  lemma {:induction false} AppendElementsLast(d: Doc, p: Id, els: seq<Id>)
    requires WF(d) && p in d.nodes && forall e :: e in els ==> e in d.nodes && e != p
    requires Distinct(els)
    ensures AppendElements(d, p, els).nodes[p].kids == WithoutAll(d.nodes[p].kids, els) + els
    decreases |els|
  {
    var k := d.nodes[p].kids;
    if els == [] {
      WithoutAllNone(k);
    } else {
      var e := els[0];
      var rest := els[1..];
      AppendStep(d, p, els);
      var d1 := AppendChild(d, p, e);
      AppendElementsLast(d1, p, rest);
      WithoutAllConcat(Without(k, e), [e], rest);
      assert WithoutAll([e], rest) == [e];
      WithoutThenAll(k, e, rest);
      ConcatAssoc(WithoutAll(k, els), [e], rest);
    }
  }

  lemma {:induction false} AppendElementsOthers(d: Doc, p: Id, els: seq<Id>)
    requires WF(d) && p in d.nodes && forall e :: e in els ==> e in d.nodes && e != p
    requires Distinct(els)
    ensures var r := AppendElements(d, p, els);
      forall q :: q in d.nodes && q != p ==> r.nodes[q].kids == WithoutAll(d.nodes[q].kids, els)
    decreases |els|
  {
    if els == [] {
      forall q | q in d.nodes
        ensures WithoutAll(d.nodes[q].kids, els) == d.nodes[q].kids
      {
        WithoutAllNone(d.nodes[q].kids);
      }
    } else {
      var e := els[0];
      var rest := els[1..];
      AppendStep(d, p, els);
      var d1 := AppendChild(d, p, e);
      AppendElementsOthers(d1, p, rest);
      forall q | q in d.nodes && q != p
        ensures WithoutAll(d1.nodes[q].kids, rest) == WithoutAll(d.nodes[q].kids, els)
      {
        WithoutThenAll(d.nodes[q].kids, e, rest);
      }
    }
  }

  lemma {:induction false} AppendElementsParents(d: Doc, p: Id, els: seq<Id>)
    requires WF(d) && p in d.nodes && forall e :: e in els ==> e in d.nodes && e != p
    requires Distinct(els)
    ensures var r := AppendElements(d, p, els);
      forall e :: e in els ==> r.nodes[e].parent == Some(p)
    decreases |els|
  {
    if els != [] {
      AppendStep(d, p, els);
      AppendElementsParents(AppendChild(d, p, els[0]), p, els[1..]);
    }
  }

  lemma {:induction false} WithoutAllNone(s: seq<Id>)
    ensures WithoutAll(s, []) == s
  {
    if s != [] {
      WithoutAllNone(s[1..]);
      assert [s[0]] + s[1..] == s;
    }
  }

  lemma {:induction false} WithoutAllAbsent(s: seq<Id>, xs: seq<Id>)
    requires forall i :: 0 <= i < |s| ==> s[i] !in xs
    ensures WithoutAll(s, xs) == s
  {
    if s != [] {
      WithoutAllAbsent(s[1..], xs);
      assert [s[0]] + s[1..] == s;
    }
  }

  /** Two nodes with the same fields are the same node. */
  lemma {:induction false} SameNode(a: Node, b: Node)
    requires a.tag == b.tag && a.classes == b.classes && a.parent == b.parent && a.kids == b.kids
    ensures a == b
  {
  }

  /** The nodes once detached elements are inserted first among p's
      children: p's list gains them at the front, each gains p as parent,
      and nothing else changes. */
  function Inserted(m: map<Id, Node>, p: Id, els: seq<Id>): (r: map<Id, Node>)
    requires p in m
  {
    map q | q in m ::
      if q == p then m[p].(kids := els + m[p].kids)
      else if q in els then m[q].(parent := Some(p))
      else m[q]
  }

  /** `insertElements` on detached, distinct elements builds `Inserted`. */
  lemma {:induction false} InsertElementsFresh(d: Doc, p: Id, els: seq<Id>)
    requires WF(d) && p in d.nodes && forall e :: e in els ==> e in d.nodes && e != p
    requires Distinct(els) && forall e :: e in els ==> d.nodes[e].parent.None?
    ensures InsertElements(d, p, els).nodes == Inserted(d.nodes, p, els)
  {
    var r := InsertElements(d, p, els).nodes;
    var m := Inserted(d.nodes, p, els);
    forall q | q in m
      ensures r[q] == m[q]
    {
      InsertedNode(d, p, els, q);
    }
    MapsEqual(r, m);
  }

  /** One element inserted is two map updates. */
  lemma {:induction false} InsertedOne(m: map<Id, Node>, p: Id, x: Id)
    requires p in m && x in m && x != p
    ensures Inserted(m, p, [x]) == m[p := m[p].(kids := [x] + m[p].kids)][x := m[x].(parent := Some(p))]
  {
    var r := Inserted(m, p, [x]);
    var t := m[p := m[p].(kids := [x] + m[p].kids)][x := m[x].(parent := Some(p))];
    forall q | q in t
      ensures r[q] == t[q]
    {
      if q != p && q != x {
        assert q !in [x];
      }
    }
    MapsEqual(r, t);
  }

  /** Three elements inserted are four map updates. */
  lemma {:induction false} InsertedThree(m: map<Id, Node>, p: Id, x: Id, y: Id, z: Id)
    requires p in m && x in m && y in m && z in m && p != x && p != y && p != z
    ensures Inserted(m, p, [x, y, z])
      == m[p := m[p].(kids := [x, y, z] + m[p].kids)]
          [x := m[x].(parent := Some(p))][y := m[y].(parent := Some(p))][z := m[z].(parent := Some(p))]
  {
    var r := Inserted(m, p, [x, y, z]);
    var t := m[p := m[p].(kids := [x, y, z] + m[p].kids)]
              [x := m[x].(parent := Some(p))][y := m[y].(parent := Some(p))][z := m[z].(parent := Some(p))];
    forall q | q in t
      ensures r[q] == t[q]
    {
      if q != p && q != x && q != y && q != z {
        assert q !in [x, y, z];
      }
    }
    MapsEqual(r, t);
  }

  /** `insertElements` of one detached element. */
  lemma {:induction false} InsertOneFresh(d: Doc, p: Id, x: Id)
    requires WF(d) && p in d.nodes && x in d.nodes && x != p && d.nodes[x].parent.None?
    ensures InsertElements(d, p, [x]).nodes
      == d.nodes[p := d.nodes[p].(kids := [x] + d.nodes[p].kids)][x := d.nodes[x].(parent := Some(p))]
  {
    InsertElementsFresh(d, p, [x]);
    InsertedOne(d.nodes, p, x);
  }

  /** `insertElements` of three distinct detached elements. */
  lemma {:induction false} InsertThreeFresh(d: Doc, p: Id, x: Id, y: Id, z: Id)
    requires WF(d) && p in d.nodes && x in d.nodes && y in d.nodes && z in d.nodes
    requires p != x && p != y && p != z && x != y && x != z && y != z
    requires d.nodes[x].parent.None? && d.nodes[y].parent.None? && d.nodes[z].parent.None?
    ensures InsertElements(d, p, [x, y, z]).nodes
      == d.nodes[p := d.nodes[p].(kids := [x, y, z] + d.nodes[p].kids)]
          [x := d.nodes[x].(parent := Some(p))][y := d.nodes[y].(parent := Some(p))][z := d.nodes[z].(parent := Some(p))]
  {
    InsertElementsFresh(d, p, [x, y, z]);
    InsertedThree(d.nodes, p, x, y, z);
  }

  lemma {:induction false} InsertedNode(d: Doc, p: Id, els: seq<Id>, q: Id)
    requires WF(d) && p in d.nodes && forall e :: e in els ==> e in d.nodes && e != p
    requires Distinct(els) && forall e :: e in els ==> d.nodes[e].parent.None?
    requires q in d.nodes
    ensures InsertElements(d, p, els).nodes[q] == Inserted(d.nodes, p, els)[q]
  {
    InsertElementsOrder(d, p, els);
    var r := InsertElements(d, p, els).nodes;
    var m := Inserted(d.nodes, p, els);
    if q == p {
      assert m[q] == d.nodes[p].(kids := els + d.nodes[p].kids);
    } else if q in els {
      assert m[q] == d.nodes[q].(parent := Some(p));
    } else {
      assert m[q] == d.nodes[q];
    }
    SameNode(r[q], m[q]);
  }

  /** A detached, childless x appended to p's children. */
  lemma {:induction false} AppendFresh(d: Doc, p: Id, x: Id)
    requires WF(d) && p in d.nodes && x in d.nodes && x != p
    requires d.nodes[x].parent.None? && d.nodes[x].kids == []
    ensures AppendElements(d, p, [x]).nodes
      == d.nodes[p := d.nodes[p].(kids := d.nodes[p].kids + [x])][x := d.nodes[x].(parent := Some(p))]
  {
    var r := AppendElements(d, p, [x]).nodes;
    var m := d.nodes[p := d.nodes[p].(kids := d.nodes[p].kids + [x])][x := d.nodes[x].(parent := Some(p))];
    forall q | q in m
      ensures r[q] == m[q]
    {
      AppendedNode(d, p, x, q);
    }
    MapsEqual(r, m);
  }

  /** Each node after a detached, childless x is appended to p. */
  lemma {:induction false} AppendedNode(d: Doc, p: Id, x: Id, q: Id)
    requires WF(d) && p in d.nodes && x in d.nodes && q in d.nodes && x != p
    requires d.nodes[x].parent.None? && d.nodes[x].kids == []
    ensures AppendElements(d, p, [x]).nodes[q]
      == d.nodes[p := d.nodes[p].(kids := d.nodes[p].kids + [x])][x := d.nodes[x].(parent := Some(p))][q]
  {
    var np, nx := d.nodes[p].(kids := d.nodes[p].kids + [x]), d.nodes[x].(parent := Some(p));
    TwoUpdates(d.nodes, p, np, x, nx, q);
    AppendElementsOrder(d, p, [x]);
    var r := AppendElements(d, p, [x]).nodes;
    if q == x {
      SameNode(r[q], nx);
    } else {
      DetachedInNoList(d, x);
      WithoutAllAbsent(d.nodes[q].kids, [x]);
      SameNode(r[q], if q == p then np else d.nodes[q]);
    }
  }

  lemma {:induction false} TwoUpdates(m: map<Id, Node>, p: Id, np: Node, x: Id, nx: Node, q: Id)
    requires q in m
    ensures m[p := np][x := nx][q] == if q == x then nx else if q == p then np else m[q]
  {
  }

  lemma {:induction false} MapsEqual(r: map<Id, Node>, m: map<Id, Node>)
    requires r.Keys == m.Keys && forall q :: q in m ==> r[q] == m[q]
    ensures r == m
  {
    assert forall q :: q in r.Keys ==> r[q] == m[q];
    assert r.Items == m.Items by {
      forall it | it in r.Items
        ensures it in m.Items
      {
      }
      forall it | it in m.Items
        ensures it in r.Items
      {
      }
    }
  }

  // ---------------------------------------------------------------------
  // rearrangeContent and rearrangeSidebar

  /** The class names the layout code adds are valid class tokens. */
  lemma {:induction false} ContentTokens()
    ensures NoSpace("toc-wrapper") && NoSpace("toc")
  {
  }

  lemma {:induction false} SidebarTokens()
    ensures NoSpace("profile-wrapper") && NoSpace("avatar") && NoSpace("site-title") && NoSpace("sidebar-button-wrapper")
  {
    Printable("profile-wrapper");
    Printable("avatar");
    Printable("site-title");
    Printable("sidebar-button-wrapper");
  }

  /** Visible ASCII characters are not white space. */
  lemma {:induction false} Printable(s: string)
    requires forall i :: 0 <= i < |s| ==> '!' <= s[i] <= '~'
    ensures NoSpace(s)
  {
  }

  lemma {:induction false} SingleMember(x: Id)
    ensures forall e :: e in [x] ==> e == x
  {
  }

  /** The document after `rearrangeContent`, with the table-of-contents
      wrapper and the list it creates. */
  datatype ContentLayout = ContentLayout(doc: Doc, wrapper: Id, toc: Id)

  /** `rearrangeContent`: an `aside.toc-wrapper` inserted first in the
      content element, and a `ul.toc` appended to it.  The wrapper the
      source looks up again by its class is the one just created. */
  function RearrangeContent(d: Doc, content: Id): (r: ContentLayout)
    requires WF(d) && content in d.nodes
    ensures WF(r.doc)
  {
    ContentTokens();
    var c1 := CreateElement(d, "aside", "toc-wrapper");
    var d2 := InsertElements(c1.0, content, [c1.1]);
    var c3 := CreateElement(d2, "ul", "toc");
    ContentLayout(AppendElements(c3.0, c1.1, [c3.1]), c1.1, c3.1)
  }

  /** The content element gains the wrapper as its first child, the wrapper
      holds just the list, and no other node changes. */
  lemma {:induction false} RearrangeContentShape(d: Doc, content: Id)
    requires WF(d) && content in d.nodes
    ensures var r := RearrangeContent(d, content);
      && r.wrapper !in d.nodes && r.toc !in d.nodes && r.wrapper != r.toc
      && r.doc.nodes
         == d.nodes[content := d.nodes[content].(kids := [r.wrapper] + d.nodes[content].kids)]
                   [r.wrapper := Node("aside", {"toc-wrapper"}, Some(content), [r.toc])]
                   [r.toc := Node("ul", {"toc"}, Some(r.wrapper), [])]
  {
    ContentTokens();
    var c1 := CreateElement(d, "aside", "toc-wrapper");
    var a := c1.1;
    InsertOneFresh(c1.0, content, a);
    var d2 := InsertElements(c1.0, content, [a]);
    var c3 := CreateElement(d2, "ul", "toc");
    var u := c3.1;
    AppendFresh(c3.0, a, u);
    ContentNodes(d.nodes, content, a, u, c1.0.nodes, d2.nodes, c3.0.nodes, RearrangeContent(d, content).doc.nodes);
  }

  /** The map algebra of the four steps of `rearrangeContent`. */
  lemma {:induction false} ContentNodes(m: map<Id, Node>, content: Id, a: Id, u: Id,
                     m1: map<Id, Node>, m2: map<Id, Node>, m3: map<Id, Node>, m4: map<Id, Node>)
    requires content in m && a !in m && u !in m && u != a
    requires m1 == m[a := Node("aside", {"toc-wrapper"}, None, [])]
    requires m2 == m1[content := m1[content].(kids := [a] + m1[content].kids)][a := m1[a].(parent := Some(content))]
    requires m3 == m2[u := Node("ul", {"toc"}, None, [])]
    requires m4 == m3[a := m3[a].(kids := m3[a].kids + [u])][u := m3[u].(parent := Some(a))]
    ensures m4 == m[content := m[content].(kids := [a] + m[content].kids)]
                   [a := Node("aside", {"toc-wrapper"}, Some(content), [u])]
                   [u := Node("ul", {"toc"}, Some(a), [])]
  {
    var t := m[content := m[content].(kids := [a] + m[content].kids)]
              [a := Node("aside", {"toc-wrapper"}, Some(content), [u])]
              [u := Node("ul", {"toc"}, Some(a), [])];
    assert m3[a] == Node("aside", {"toc-wrapper"}, Some(content), []);
    MapsEqual(m4, t);
  }

  /** The document after `rearrangeSidebar`, with the profile wrapper and
      the three blocks it creates inside it. */
  datatype SidebarLayout = SidebarLayout(doc: Doc, profile: Id, avatar: Id, title: Id, buttons: Id)

  /** The profile part of `rearrangeSidebar`: a `div.profile-wrapper`
      inserted first in the sidebar, then `div.avatar`, `div.site-title`
      and `div.sidebar-button-wrapper` inserted into it in that order.  The
      wrapper the source looks up again by its class is the one just
      created. */
  function AddProfile(d: Doc, sidebar: Id): (r: SidebarLayout)
    requires WF(d) && sidebar in d.nodes
    ensures WF(r.doc) && d.nodes.Keys <= r.doc.nodes.Keys
  {
    SidebarTokens();
    var c1 := CreateElement(d, "div", "profile-wrapper");
    var d2 := InsertElements(c1.0, sidebar, [c1.1]);
    var c3 := CreateElement(d2, "div", "avatar");
    var c4 := CreateElement(c3.0, "div", "site-title");
    var c5 := CreateElement(c4.0, "div", "sidebar-button-wrapper");
    SidebarLayout(InsertElements(c5.0, c1.1, [c3.1, c4.1, c5.1]), c1.1, c3.1, c4.1, c5.1)
  }

  /** The sidebar gains the profile wrapper as its first child, the wrapper
      holds the avatar, the title and the buttons in that order, and no
      other node changes. */
  lemma {:induction false} AddProfileShape(d: Doc, sidebar: Id)
    requires WF(d) && sidebar in d.nodes
    ensures var r := AddProfile(d, sidebar);
      && r.profile !in d.nodes && r.avatar !in d.nodes && r.title !in d.nodes && r.buttons !in d.nodes
      && r.profile != r.avatar && r.profile != r.title && r.profile != r.buttons
      && r.avatar != r.title && r.avatar != r.buttons && r.title != r.buttons
      && r.doc.nodes
         == d.nodes[sidebar := d.nodes[sidebar].(kids := [r.profile] + d.nodes[sidebar].kids)]
                   [r.profile := Node("div", {"profile-wrapper"}, Some(sidebar), [r.avatar, r.title, r.buttons])]
                   [r.avatar := Node("div", {"avatar"}, Some(r.profile), [])]
                   [r.title := Node("div", {"site-title"}, Some(r.profile), [])]
                   [r.buttons := Node("div", {"sidebar-button-wrapper"}, Some(r.profile), [])]
  {
    SidebarTokens();
    var c1 := CreateElement(d, "div", "profile-wrapper");
    var w := c1.1;
    InsertOneFresh(c1.0, sidebar, w);
    var d2 := InsertElements(c1.0, sidebar, [w]);
    var c3 := CreateElement(d2, "div", "avatar");
    var c4 := CreateElement(c3.0, "div", "site-title");
    var c5 := CreateElement(c4.0, "div", "sidebar-button-wrapper");
    var a, t, b := c3.1, c4.1, c5.1;
    InsertThreeFresh(c5.0, w, a, t, b);
    var r := AddProfile(d, sidebar);
    assert r == SidebarLayout(InsertElements(c5.0, w, [a, t, b]), w, a, t, b);
    ProfileNodes(d.nodes, sidebar, w, a, t, b, c1.0.nodes, d2.nodes, c5.0.nodes, r.doc.nodes);
  }

  /** The map algebra of the steps of the profile part. */
  lemma {:induction false} ProfileNodes(m: map<Id, Node>, sidebar: Id, w: Id, a: Id, t: Id, b: Id,
                     m1: map<Id, Node>, m2: map<Id, Node>, m5: map<Id, Node>, m6: map<Id, Node>)
    requires sidebar in m && w !in m && a !in m && t !in m && b !in m
    requires w != a && w != t && w != b && a != t && a != b && t != b
    requires m1 == m[w := Node("div", {"profile-wrapper"}, None, [])]
    requires m2 == m1[sidebar := m1[sidebar].(kids := [w] + m1[sidebar].kids)][w := m1[w].(parent := Some(sidebar))]
    requires m5 == m2[a := Node("div", {"avatar"}, None, [])][t := Node("div", {"site-title"}, None, [])]
                     [b := Node("div", {"sidebar-button-wrapper"}, None, [])]
    requires m6 == m5[w := m5[w].(kids := [a, t, b] + m5[w].kids)]
                     [a := m5[a].(parent := Some(w))][t := m5[t].(parent := Some(w))][b := m5[b].(parent := Some(w))]
    ensures m6 == m[sidebar := m[sidebar].(kids := [w] + m[sidebar].kids)]
                   [w := Node("div", {"profile-wrapper"}, Some(sidebar), [a, t, b])]
                   [a := Node("div", {"avatar"}, Some(w), [])]
                   [t := Node("div", {"site-title"}, Some(w), [])]
                   [b := Node("div", {"sidebar-button-wrapper"}, Some(w), [])]
  {
    var r := m[sidebar := m[sidebar].(kids := [w] + m[sidebar].kids)]
              [w := Node("div", {"profile-wrapper"}, Some(sidebar), [a, t, b])]
              [a := Node("div", {"avatar"}, Some(w), [])]
              [t := Node("div", {"site-title"}, Some(w), [])]
              [b := Node("div", {"sidebar-button-wrapper"}, Some(w), [])];
    assert m5[w] == Node("div", {"profile-wrapper"}, Some(sidebar), []);
    assert [a, t, b] + [] == [a, t, b];
    MapsEqual(m6, r);
  }

  /** `rearrangeSidebar`: the sidebar toggle button removed, the profile
      block added first in the sidebar, and the sidebar toggle moved to the
      end of the sidebar.  Removing the button reads its parent, so the
      button must be attached; the toggle cannot be appended to itself. */
  function RearrangeSidebar(d: Doc, sidebar: Id, button: Id, toggle: Id): (r: SidebarLayout)
    requires WF(d) && sidebar in d.nodes && button in d.nodes && toggle in d.nodes
    requires d.nodes[button].parent.Some? && toggle != sidebar
    ensures WF(r.doc)
  {
    var d1 := RemoveElement(d, button);
    assert sidebar in d1.nodes && toggle in d1.nodes;
    var pr := AddProfile(d1, sidebar);
    assert sidebar in pr.doc.nodes && toggle in pr.doc.nodes;
    pr.(doc := AppendElements(pr.doc, sidebar, [toggle]))
  }

  /** The three stages of `rearrangeSidebar`, named once. */
  lemma {:induction false} SidebarStages(d: Doc, sidebar: Id, button: Id, toggle: Id) returns (d1: Doc, pr: SidebarLayout)
    requires WF(d) && sidebar in d.nodes && button in d.nodes && toggle in d.nodes
    requires d.nodes[button].parent.Some? && toggle != sidebar
    ensures d1 == RemoveElement(d, button) && WF(d1) && d1.nodes.Keys == d.nodes.Keys
    ensures pr == AddProfile(d1, sidebar) && WF(pr.doc)
    ensures sidebar in pr.doc.nodes && toggle in pr.doc.nodes
    ensures forall e :: e in [toggle] ==> e in pr.doc.nodes && e != sidebar
    ensures RearrangeSidebar(d, sidebar, button, toggle) == pr.(doc := AppendElements(pr.doc, sidebar, [toggle]))
  {
    d1 := RemoveElement(d, button);
    pr := AddProfile(d1, sidebar);
    SingleMember(toggle);
  }

  /** What `removeElement` does to every list. */
  lemma {:induction false} RemovedKids(d: Doc, x: Id)
    requires WF(d) && x in d.nodes && d.nodes[x].parent.Some?
    ensures forall q :: q in d.nodes ==> RemoveElement(d, x).nodes[q].kids == Without(d.nodes[q].kids, x)
  {
    assert RemoveElement(d, x) == Detach(d, x);
    DetachLists(d, x);
  }

  /** An old node after the profile part: only the sidebar's list changes. */
  lemma {:induction false} ProfileOld(d: Doc, sidebar: Id, q: Id)
    requires WF(d) && sidebar in d.nodes && q in d.nodes
    ensures var pr := AddProfile(d, sidebar);
      pr.doc.nodes[q] == if q == sidebar then d.nodes[q].(kids := [pr.profile] + d.nodes[q].kids) else d.nodes[q]
  {
    var pr := AddProfile(d, sidebar);
    AddProfileShape(d, sidebar);
    ProfileNodeAt(d.nodes, sidebar, pr.profile, pr.avatar, pr.title, pr.buttons, pr.doc.nodes, q);
  }

  lemma {:induction false} ProfileNodeAt(m: map<Id, Node>, sidebar: Id, w: Id, a: Id, t: Id, b: Id, m6: map<Id, Node>, q: Id)
    requires sidebar in m && q in m && w !in m && a !in m && t !in m && b !in m
    requires m6 == m[sidebar := m[sidebar].(kids := [w] + m[sidebar].kids)]
                    [w := Node("div", {"profile-wrapper"}, Some(sidebar), [a, t, b])]
                    [a := Node("div", {"avatar"}, Some(w), [])]
                    [t := Node("div", {"site-title"}, Some(w), [])]
                    [b := Node("div", {"sidebar-button-wrapper"}, Some(w), [])]
    ensures m6[q] == if q == sidebar then m[q].(kids := [w] + m[q].kids) else m[q]
  {
  }

  /** The profile part's new nodes. */
  lemma {:induction false} ProfileNew(d: Doc, sidebar: Id)
    requires WF(d) && sidebar in d.nodes
    ensures var pr := AddProfile(d, sidebar);
      && pr.profile !in d.nodes && pr.avatar !in d.nodes && pr.title !in d.nodes && pr.buttons !in d.nodes
      && pr.profile != pr.avatar && pr.profile != pr.title && pr.profile != pr.buttons
      && pr.avatar != pr.title && pr.avatar != pr.buttons && pr.title != pr.buttons
      && pr.doc.nodes[pr.profile] == Node("div", {"profile-wrapper"}, Some(sidebar), [pr.avatar, pr.title, pr.buttons])
      && pr.doc.nodes[pr.avatar] == Node("div", {"avatar"}, Some(pr.profile), [])
      && pr.doc.nodes[pr.title] == Node("div", {"site-title"}, Some(pr.profile), [])
      && pr.doc.nodes[pr.buttons] == Node("div", {"sidebar-button-wrapper"}, Some(pr.profile), [])
      && pr.doc.nodes.Keys == d.nodes.Keys + {pr.profile, pr.avatar, pr.title, pr.buttons}
  {
    var pr := AddProfile(d, sidebar);
    AddProfileShape(d, sidebar);
    ProfileNodesNew(d.nodes, sidebar, pr.profile, pr.avatar, pr.title, pr.buttons, pr.doc.nodes);
  }

  lemma {:induction false} ProfileNodesNew(m: map<Id, Node>, sidebar: Id, w: Id, a: Id, t: Id, b: Id, m6: map<Id, Node>)
    requires sidebar in m && w !in m && a !in m && t !in m && b !in m
    requires w != a && w != t && w != b && a != t && a != b && t != b
    requires m6 == m[sidebar := m[sidebar].(kids := [w] + m[sidebar].kids)]
                    [w := Node("div", {"profile-wrapper"}, Some(sidebar), [a, t, b])]
                    [a := Node("div", {"avatar"}, Some(w), [])]
                    [t := Node("div", {"site-title"}, Some(w), [])]
                    [b := Node("div", {"sidebar-button-wrapper"}, Some(w), [])]
    ensures m6[w] == Node("div", {"profile-wrapper"}, Some(sidebar), [a, t, b])
    ensures m6[a] == Node("div", {"avatar"}, Some(w), [])
    ensures m6[t] == Node("div", {"site-title"}, Some(w), [])
    ensures m6[b] == Node("div", {"sidebar-button-wrapper"}, Some(w), [])
    ensures m6.Keys == m.Keys + {w, a, t, b}
  {
    var m1 := m[sidebar := m[sidebar].(kids := [w] + m[sidebar].kids)];
    assert m1.Keys == m.Keys;
  }

  /** The list algebra of the sidebar's children. */
  lemma {:induction false} SidebarListAlgebra(s0: seq<Id>, w: Id, button: Id, toggle: Id, s3: seq<Id>)
    requires w != toggle
    requires s3 == WithoutAll([w] + Without(s0, button), [toggle]) + [toggle]
    ensures s3 == [w] + WithoutAll(s0, [button, toggle]) + [toggle]
  {
    WithoutAllConcat([w], Without(s0, button), [toggle]);
    WithoutThenAll(s0, button, [toggle]);
    assert [button] + [toggle] == [button, toggle];
    assert WithoutAll([w], [toggle]) == [w] by {
      assert [w][1..] == [];
    }
  }

  /** The sidebar's children afterwards: the profile block, the old
      children without the button and the toggle, then the toggle. */
  lemma {:induction false} SidebarList(d: Doc, sidebar: Id, button: Id, toggle: Id)
    requires WF(d) && sidebar in d.nodes && button in d.nodes && toggle in d.nodes
    requires d.nodes[button].parent.Some? && toggle != sidebar
    ensures var r := RearrangeSidebar(d, sidebar, button, toggle);
      r.doc.nodes[sidebar].kids == [r.profile] + WithoutAll(d.nodes[sidebar].kids, [button, toggle]) + [toggle]
  {
    var d1, pr := SidebarStages(d, sidebar, button, toggle);
    var r := RearrangeSidebar(d, sidebar, button, toggle);
    RemovedKids(d, button);
    ProfileOld(d1, sidebar, sidebar);
    ProfileNew(d1, sidebar);
    AppendElementsOrder(pr.doc, sidebar, [toggle]);
    SidebarListAlgebra(d.nodes[sidebar].kids, pr.profile, button, toggle, r.doc.nodes[sidebar].kids);
  }

  lemma {:induction false} PairConcat(a: Id, b: Id)
    ensures [a] + [b] == [a, b]
  {
  }

  lemma {:induction false} NotInOne(x: Id, a: Id)
    requires x != a
    ensures x !in [a]
  {
  }

  lemma {:induction false} NotInThree(x: Id, a: Id, b: Id, c: Id)
    requires x != a && x != b && x != c
    ensures x !in [a, b, c]
  {
  }

  /** Appending x to p leaves alone a node that is neither of them and does
      not hold x. */
  lemma {:induction false} AppendedAway(d: Doc, p: Id, x: Id, q: Id)
    requires WF(d) && p in d.nodes && x in d.nodes && x != p
    requires q in d.nodes && q != p && q != x && x !in d.nodes[q].kids
    ensures AppendElements(d, p, [x]).nodes[q] == d.nodes[q]
  {
    AppendElementsOrder(d, p, [x]);
    WithoutAllAbsent(d.nodes[q].kids, [x]);
    SameNode(AppendElements(d, p, [x]).nodes[q], d.nodes[q]);
  }

  /** The profile block afterwards: a wrapper first in the sidebar holding
      the avatar, the title and the buttons, each empty. */
  lemma {:induction false} SidebarProfile(d: Doc, sidebar: Id, button: Id, toggle: Id)
    requires WF(d) && sidebar in d.nodes && button in d.nodes && toggle in d.nodes
    requires d.nodes[button].parent.Some? && toggle != sidebar
    ensures var r := RearrangeSidebar(d, sidebar, button, toggle);
      && r.profile !in d.nodes && r.avatar !in d.nodes && r.title !in d.nodes && r.buttons !in d.nodes
      && r.profile != r.avatar && r.profile != r.title && r.profile != r.buttons
      && r.avatar != r.title && r.avatar != r.buttons && r.title != r.buttons
      && r.doc.nodes.Keys == d.nodes.Keys + {r.profile, r.avatar, r.title, r.buttons}
      && r.doc.nodes[r.profile] == Node("div", {"profile-wrapper"}, Some(sidebar), [r.avatar, r.title, r.buttons])
      && r.doc.nodes[r.avatar] == Node("div", {"avatar"}, Some(r.profile), [])
      && r.doc.nodes[r.title] == Node("div", {"site-title"}, Some(r.profile), [])
      && r.doc.nodes[r.buttons] == Node("div", {"sidebar-button-wrapper"}, Some(r.profile), [])
  {
    var d1, pr := SidebarStages(d, sidebar, button, toggle);
    var r := RearrangeSidebar(d, sidebar, button, toggle);
    ProfileNew(d1, sidebar);
    ProfileKept(pr, sidebar, toggle);
  }

  /** Moving the toggle leaves the new, unrelated profile block alone. */
  lemma {:induction false} ProfileKept(pr: SidebarLayout, sidebar: Id, toggle: Id)
    requires WF(pr.doc) && sidebar in pr.doc.nodes && toggle in pr.doc.nodes && toggle != sidebar
    requires pr.profile in pr.doc.nodes && pr.avatar in pr.doc.nodes && pr.title in pr.doc.nodes && pr.buttons in pr.doc.nodes
    requires toggle != pr.profile && toggle != pr.avatar && toggle != pr.title && toggle != pr.buttons
    requires sidebar != pr.profile && sidebar != pr.avatar && sidebar != pr.title && sidebar != pr.buttons
    requires pr.doc.nodes[pr.profile].kids == [pr.avatar, pr.title, pr.buttons]
    requires pr.doc.nodes[pr.avatar].kids == [] && pr.doc.nodes[pr.title].kids == [] && pr.doc.nodes[pr.buttons].kids == []
    ensures var n := AppendElements(pr.doc, sidebar, [toggle]).nodes;
      && n[pr.profile] == pr.doc.nodes[pr.profile] && n[pr.avatar] == pr.doc.nodes[pr.avatar]
      && n[pr.title] == pr.doc.nodes[pr.title] && n[pr.buttons] == pr.doc.nodes[pr.buttons]
  {
    NotInThree(toggle, pr.avatar, pr.title, pr.buttons);
    AppendedAway(pr.doc, sidebar, toggle, pr.profile);
    AppendedAway(pr.doc, sidebar, toggle, pr.avatar);
    AppendedAway(pr.doc, sidebar, toggle, pr.title);
    AppendedAway(pr.doc, sidebar, toggle, pr.buttons);
  }

  /** Every other old list loses the button and the toggle and nothing
      else. */
  lemma {:induction false} SidebarOthers(d: Doc, sidebar: Id, button: Id, toggle: Id)
    requires WF(d) && sidebar in d.nodes && button in d.nodes && toggle in d.nodes
    requires d.nodes[button].parent.Some? && toggle != sidebar
    ensures var r := RearrangeSidebar(d, sidebar, button, toggle);
      forall q :: q in d.nodes && q != sidebar ==> r.doc.nodes[q].kids == WithoutAll(d.nodes[q].kids, [button, toggle])
  {
    var d1, pr := SidebarStages(d, sidebar, button, toggle);
    var r := RearrangeSidebar(d, sidebar, button, toggle);
    RemovedKids(d, button);
    AppendElementsOrder(pr.doc, sidebar, [toggle]);
    PairConcat(button, toggle);
    forall q | q in d.nodes && q != sidebar
      ensures r.doc.nodes[q].kids == WithoutAll(d.nodes[q].kids, [button, toggle])
    {
      ProfileOld(d1, sidebar, q);
      WithoutThenAll(d.nodes[q].kids, button, [toggle]);
    }
  }

  /** The toggle now hangs from the sidebar, the button (when it is not
      the toggle itself) hangs nowhere, every other old node keeps its
      parent, and no old node changes tag or classes. */
  lemma {:induction false} SidebarParents(d: Doc, sidebar: Id, button: Id, toggle: Id)
    requires WF(d) && sidebar in d.nodes && button in d.nodes && toggle in d.nodes
    requires d.nodes[button].parent.Some? && toggle != sidebar
    ensures var r := RearrangeSidebar(d, sidebar, button, toggle);
      && r.doc.nodes[toggle].parent == Some(sidebar)
      && (toggle != button ==> r.doc.nodes[button].parent == None)
      && (forall q :: q in d.nodes && q != button && q != toggle ==> r.doc.nodes[q].parent == d.nodes[q].parent)
  {
    var d1, pr := SidebarStages(d, sidebar, button, toggle);
    var r := RearrangeSidebar(d, sidebar, button, toggle);
    AppendElementsOrder(pr.doc, sidebar, [toggle]);
    ProfileOld(d1, sidebar, button);
    forall q | q in d.nodes && q != button && q != toggle
      ensures r.doc.nodes[q].parent == d.nodes[q].parent
    {
      ProfileOld(d1, sidebar, q);
      NotInOne(q, toggle);
    }
    if toggle != button {
      NotInOne(button, toggle);
    }
  }

  /** No old node changes tag or classes. */
  lemma {:induction false} SidebarLabels(d: Doc, sidebar: Id, button: Id, toggle: Id)
    requires WF(d) && sidebar in d.nodes && button in d.nodes && toggle in d.nodes
    requires d.nodes[button].parent.Some? && toggle != sidebar
    ensures var r := RearrangeSidebar(d, sidebar, button, toggle);
      forall q :: q in d.nodes ==> r.doc.nodes[q].tag == d.nodes[q].tag && r.doc.nodes[q].classes == d.nodes[q].classes
  {
    var d1, pr := SidebarStages(d, sidebar, button, toggle);
    var r := RearrangeSidebar(d, sidebar, button, toggle);
    forall q | q in d.nodes
      ensures r.doc.nodes[q].tag == d.nodes[q].tag && r.doc.nodes[q].classes == d.nodes[q].classes
    {
      ProfileOld(d1, sidebar, q);
    }
  }
}

=== FILE: envelope.dfy ===
/** The encrypted-page envelope `ENCRYPTED.<alg>(<ciphertext>)`: written by
    the DES tool (des-encryption.js) and recognised, with the same regular
    expression `/ENCRYPTED\.(\w+)\((\S+)\)/`, by the tool's decrypt button
    and by the page hook of decrypt-markdown.js.  The cipher library and the
    key prompt are parameters. */
module Envelope {
  import opened Wrappers
  import opened Strings

  const Tag := "ENCRYPTED."

  /** The envelope around a ciphertext. */
  function Envelope(alg: string, ct: string): string {
    Tag + alg + "(" + ct + ")"
  }

  /** The two capture groups of a match. */
  datatype Capture = Capture(alg: string, content: string)

  predicate IsNonSpace(c: char) {
    !IsSpace(c)
  }

  /** The back-off of `(\S+)\)` inside a run of non-space characters r:
      the largest m >= 1 with a `)` at r[m]. */
  function LastClose(r: string): (m: Option<nat>)
    ensures m.Some? ==> 1 <= m.value < |r| && r[m.value] == ')'
    ensures m.Some? ==> forall j :: m.value < j < |r| ==> r[j] != ')'
    ensures m.None? ==> forall j :: 1 <= j < |r| ==> r[j] != ')'
  {
    if |r| <= 1 then None
    else if r[|r| - 1] == ')' then Some(|r| - 1)
    else LastClose(r[..|r| - 1])
  }

  /** One attempt of the pattern at the start of t.  `\w+` must be followed
      by `(`, so only its maximal run can succeed; `\S+` is greedy and backs
      off to the last `)` of its run. */
  function MatchHere(t: string): (r: Option<Capture>)
    ensures r.Some? ==> r.value.alg != [] && AllWordChars(r.value.alg)
    ensures r.Some? ==> r.value.content != [] && NoSpace(r.value.content)
    ensures r.Some? ==> StartsWith(t, Envelope(r.value.alg, r.value.content))
  {
    if !StartsWith(t, Tag) then None
    else
      var u := t[|Tag|..];
      var w := RunLen(u, IsWordChar);
      if w == 0 || w == |u| || u[w] != '(' then None
      else
        var v := u[w + 1..];
        var n := RunLen(v, IsNonSpace);
        match LastClose(v[..n])
        case None => None
        case Some(m) =>
          assert AllWordChars(u[..w]) by {
            RunLenSpec(u, IsWordChar);
          }
          assert NoSpace(v[..m]) by {
            RunLenSpec(v, IsNonSpace);
          }
          EnvelopeAt(t, w, m);
          Some(Capture(u[..w], v[..m]))
  }

  /** A tag, a name ending before `(`, and text ending before `)` spell an
      envelope. */
  lemma {:induction false} EnvelopeAt(t: string, w: nat, m: nat)
    requires StartsWith(t, Tag)
    requires w < |t| - |Tag| && t[|Tag| + w] == '('
    requires |Tag| + w + 1 + m < |t| && t[|Tag| + w + 1 + m] == ')'
    ensures StartsWith(t, Envelope(t[|Tag|..][..w], t[|Tag|..][w + 1..][..m]))
  {
    var u := t[|Tag|..];
    var v := u[w + 1..];
    var e := Envelope(u[..w], v[..m]);
    assert e == t[..|Tag| + w + 1 + m + 1];
  }

  /** Whether the pattern matches at the start of t. */
  predicate Matches(t: string) {
    MatchHere(t).Some?
  }

  /** The leftmost position whose suffix satisfies P: the scan of the
      regular expression engine over the start positions. */
  function FindAt(t: string, P: string -> bool): (r: Option<nat>)
    ensures r.Some? ==> r.value < |t|
    decreases |t|
  {
    if t == [] then None
    else if P(t) then Some(0)
    else
      match FindAt(t[1..], P)
      case None => None
      case Some(i) => Some(i + 1)
  }

  /** The position found satisfies P and no earlier position does; when
      nothing is found, no position does. */
  lemma {:induction false} FindAtSpec(t: string, P: string -> bool)
    ensures FindAt(t, P).Some? ==> P(t[FindAt(t, P).value..])
    ensures FindAt(t, P).Some? ==> forall j :: 0 <= j < FindAt(t, P).value ==> !P(t[j..])
    ensures FindAt(t, P).None? ==> forall j :: 0 <= j < |t| ==> !P(t[j..])
    decreases |t|
  {
    if t == [] {
    } else if P(t) {
      assert t[0..] == t;
    } else {
      FindAtSpec(t[1..], P);
      DropTail(t);
      assert t[0..] == t;
    }
  }

  /** Where no position satisfies P, nothing is found. */
  lemma {:induction false} FindAtNone(t: string, P: string -> bool)
    requires forall j :: 0 <= j < |t| ==> !P(t[j..])
    ensures FindAt(t, P).None?
    decreases |t|
  {
    if t != [] {
      assert t[0..] == t;
      DropTail(t);
      FindAtNone(t[1..], P);
    }
  }

  /** A position satisfying P, with none before it, is the one found. */
  lemma {:induction false} FindAtFirst(t: string, i: nat, P: string -> bool)
    requires i < |t| && P(t[i..])
    requires forall j :: 0 <= j < i ==> !P(t[j..])
    ensures FindAt(t, P) == Some(i)
    decreases i
  {
    assert t[0..] == t;
    if i > 0 {
      DropTail(t);
      assert t[1..][i - 1..] == t[i..];
      forall j | 0 <= j < i - 1
        ensures !P(t[1..][j..])
      {
        assert t[1..][j..] == t[j + 1..];
      }
      FindAtFirst(t[1..], i - 1, P);
    }
  }

  lemma {:induction false} DropTail(t: string)
    requires t != []
    ensures forall j {:trigger t[j..]} :: 1 <= j <= |t| ==> t[j..] == t[1..][j - 1..]
  {
  }

  /** `s.match(/ENCRYPTED\.(\w+)\((\S+)\)/)`: the captures of the leftmost
      match, if any. */
  function Find(s: string): (r: Option<Capture>)
    ensures r.Some? <==> FindAt(s, Matches).Some?
  {
    match FindAt(s, Matches)
    case None => None
    case Some(i) => FindAtSpec(s, Matches); MatchHere(s[i..])
  }

  /** An envelope followed by white space or nothing gives back its
      algorithm name and ciphertext. */
  lemma {:induction false} MatchEnvelope(alg: string, ct: string, post: string)
    requires alg != [] && AllWordChars(alg)
    requires ct != [] && NoSpace(ct)
    requires post == [] || IsSpace(post[0])
    ensures MatchHere(Envelope(alg, ct) + post) == Some(Capture(alg, ct))
  {
    var t := Envelope(alg, ct) + post;
    var v := ct + ")" + post;
    var rest := "(" + v;
    var u := alg + rest;
    assert t == Tag + u;
    RunLenOf(alg, rest, IsWordChar);
    assert u[|alg|] == '(' && u[..|alg|] == alg && u[|alg| + 1..] == v;
    BodyMatch(ct, post);
    MatchTagged(t, u, |alg|, v);
  }

  /** The attempt at a tag, read off its parts. */
  lemma {:induction false} MatchTagged(t: string, u: string, w: nat, v: string)
    requires t == Tag + u
    requires RunLen(u, IsWordChar) == w && 0 < w < |u| && u[w] == '(' && v == u[w + 1..]
    ensures MatchHere(t) ==
      match LastClose(v[..RunLen(v, IsNonSpace)])
      case None => None
      case Some(m) => Some(Capture(u[..w], v[..m]))
  {
    assert t[..|Tag|] == Tag && t[|Tag|..] == u;
  }

  /** After the `(`, the non-space run is the ciphertext and its `)`, and
      the back-off stops at that `)`. */
  lemma {:induction false} BodyMatch(ct: string, post: string)
    requires ct != [] && NoSpace(ct)
    requires post == [] || IsSpace(post[0])
    ensures var v := ct + ")" + post;
      var n := RunLen(v, IsNonSpace);
      n == |ct| + 1 && LastClose(v[..n]) == Some(|ct|) && v[..|ct|] == ct
  {
    var c := ct + ")";
    assert forall i :: 0 <= i < |c| ==> IsNonSpace(c[i]);
    RunLenOf(c, post, IsNonSpace);
    assert (c + post)[..|c|] == c;
    assert c[|ct|] == ')';
    assert (c + post)[..|ct|] == ct;
  }

  /** Text in which no match starts is skipped: an envelope after it is
      the leftmost match, provided the envelope is followed by white space
      or the end (otherwise the greedy `\S+` runs on). */
  lemma {:induction false} FindEnvelope(pre: string, alg: string, ct: string, post: string)
    requires forall j :: 0 <= j < |pre| ==> !Matches((pre + Envelope(alg, ct) + post)[j..])
    requires alg != [] && AllWordChars(alg)
    requires ct != [] && NoSpace(ct)
    requires post == [] || IsSpace(post[0])
    ensures Find(pre + Envelope(alg, ct) + post) == Some(Capture(alg, ct))
  {
    var s := pre + Envelope(alg, ct) + post;
    MatchEnvelope(alg, ct, post);
    assert s[|pre|..] == Envelope(alg, ct) + post;
    FindAtFirst(s, |pre|, Matches);
  }

  /** A match starts with the tag. */
  lemma {:induction false} MatchStartsTag(t: string)
    ensures MatchHere(t).Some? ==> StartsWith(t, Tag)
  {
  }

  /** Positions where the tag does not start hold no match; text such as
      `# Encrypted note`, whose `E` starts no tag, is skipped. */
  lemma {:induction false} NoTagNoMatch(s: string, n: nat)
    requires n <= |s| && forall j :: 0 <= j < n ==> !StartsWith(s[j..], Tag)
    ensures forall j :: 0 <= j < n ==> !Matches(s[j..])
  {
    forall j | 0 <= j < n
      ensures !Matches(s[j..])
    {
      MatchStartsTag(s[j..]);
    }
  }

  /** The producer's own output: the whole envelope is matched. */
  lemma {:induction false} EnvelopeRoundTrip(alg: string, ct: string)
    requires alg != [] && AllWordChars(alg)
    requires ct != [] && NoSpace(ct)
    ensures Find(Envelope(alg, ct)) == Some(Capture(alg, ct))
  {
    assert Envelope(alg, ct) == [] + Envelope(alg, ct) + [];
    FindEnvelope([], alg, ct, []);
  }

  /** The non-space run backs off to its last `)`, so a ciphertext may
      itself hold `)`. */
  lemma {:induction false} GreedyBackoff()
    ensures Find("ENCRYPTED.DES(a)b) c") == Some(Capture("DES", "a)b"))
  {
    assert "ENCRYPTED.DES(a)b) c" == [] + Envelope("DES", "a)b") + " c";
    assert NoSpace("a)b");
    assert AllWordChars("DES");
    FindEnvelope([], "DES", "a)b", " c");
  }

  // ---------------------------------------------------------------------
  // decrypt-markdown.js

  const Unsupported := "# 不支援該演算法"
  const Failed := "# 解密失敗"

  /** `decryptContent`.  `supported(alg)` says whether the cipher library
      has an algorithm of that name; `decrypt(alg, content, key)` is its
      decryption, `None` when it throws; `key` is the prompt's answer. */
  function DecryptContent(alg: string, content: string, supported: string -> bool,
                          key: string, decrypt: (string, string, string) -> Option<string>): (r: string)
    ensures !supported(alg) ==> r == Unsupported
    ensures supported(alg) && decrypt(alg, content, key).None? ==> r == Failed
    ensures supported(alg) && decrypt(alg, content, key).Some? ==> r == decrypt(alg, content, key).value
  {
    if !supported(alg) then Unsupported
    else match decrypt(alg, content, key)
      case None => Failed
      case Some(p) => p
  }

  /** An unsupported algorithm is refused whatever key would be given. */
  lemma {:induction false} UnsupportedIgnoresKey(alg: string, content: string, supported: string -> bool,
                              k1: string, k2: string, decrypt: (string, string, string) -> Option<string>)
    requires !supported(alg)
    ensures DecryptContent(alg, content, supported, k1, decrypt) == DecryptContent(alg, content, supported, k2, decrypt)
  {
  }

  /** The `beforeEach` hook: a page holding an envelope is replaced by its
      decryption (or a fallback message); any other page is kept. */
  function BeforeEach(markdown: string, supported: string -> bool, key: string,
                      decrypt: (string, string, string) -> Option<string>): (r: string)
    ensures (forall i :: 0 <= i < |markdown| ==> !StartsWith(markdown[i..], Tag)) ==> r == markdown
    ensures r != markdown ==> Find(markdown).Some?
  {
    assert (forall i :: 0 <= i < |markdown| ==> !StartsWith(markdown[i..], Tag)) ==> Find(markdown).None? by {
      if forall i :: 0 <= i < |markdown| ==> !StartsWith(markdown[i..], Tag) {
        forall j | 0 <= j < |markdown|
          ensures !Matches(markdown[j..])
        {
          MatchStartsTag(markdown[j..]);
        }
        FindAtNone(markdown, Matches);
      }
    }
    match Find(markdown)
    case None => markdown
    case Some(c) => DecryptContent(c.alg, c.content, supported, key, decrypt)
  }

  /** A page holding an envelope becomes the decrypted text: the text
      before the envelope, in which no match starts, is discarded, and so
      is the text after it, which is empty or starts with white space. */
  lemma {:induction false} BeforeEachEnvelope(pre: string, alg: string, ct: string, post: string,
                           supported: string -> bool, key: string,
                           decrypt: (string, string, string) -> Option<string>)
    requires forall j :: 0 <= j < |pre| ==> !Matches((pre + Envelope(alg, ct) + post)[j..])
    requires alg != [] && AllWordChars(alg)
    requires ct != [] && NoSpace(ct)
    requires post == [] || IsSpace(post[0])
    ensures BeforeEach(pre + Envelope(alg, ct) + post, supported, key, decrypt)
      == DecryptContent(alg, ct, supported, key, decrypt)
  {
    FindEnvelope(pre, alg, ct, post);
  }

  // ---------------------------------------------------------------------
  // des-encryption.js

  /** The three text fields of the DES tool page. */
  datatype Form = Form(plain: string, key: string, cipher: string)

  /** The encrypt button; `encrypt(p, k)` is the DES ciphertext's text. */
  function DesEncrypt(f: Form, encrypt: (string, string) -> string): (r: Form)
    ensures f.plain == [] || f.key == [] ==> r == f
    ensures f.plain != [] && f.key != [] ==>
      r.plain == f.plain && r.key == f.key && r.cipher == Envelope("DES", encrypt(f.plain, f.key))
  {
    if f.plain == [] || f.key == [] then f
    else f.(cipher := Envelope("DES", encrypt(f.plain, f.key)))
  }

  /** The decrypt button.  An envelope naming an algorithm the library lacks
      raises an error, and so does a failed decryption; both leave the form
      as it was.  There is no check for an empty key. */
  function DesDecrypt(f: Form, supported: string -> bool,
                      decrypt: (string, string, string) -> Option<string>): (r: Form)
    ensures r.key == f.key && r.cipher == f.cipher
    ensures Find(f.cipher).None? ==> r == f
    ensures Find(f.cipher).Some? ==>
      var c := Find(f.cipher).value;
      r.plain == if supported(c.alg) && decrypt(c.alg, c.content, f.key).Some?
                 then decrypt(c.alg, c.content, f.key).value else f.plain
  {
    match Find(f.cipher)
    case None => f
    case Some(c) =>
      if !supported(c.alg) then f
      else match decrypt(c.alg, c.content, f.key)
        case None => f
        case Some(p) => f.(plain := p)
  }

  /** Decrypting what the encrypt button wrote gives the plaintext back,
      for a cipher whose output has no white space and which decrypts its
      own output under the same key. */
  lemma {:induction false} DesRoundTrip(f: Form, encrypt: (string, string) -> string, supported: string -> bool,
                     decrypt: (string, string, string) -> Option<string>)
    requires f.plain != [] && f.key != []
    requires encrypt(f.plain, f.key) != [] && NoSpace(encrypt(f.plain, f.key))
    requires supported("DES")
    requires decrypt("DES", encrypt(f.plain, f.key), f.key) == Some(f.plain)
    ensures DesDecrypt(DesEncrypt(f, encrypt), supported, decrypt) == DesEncrypt(f, encrypt)
    ensures DesDecrypt(DesEncrypt(f, encrypt), supported, decrypt).plain == f.plain
  {
    assert AllWordChars("DES");
    EnvelopeRoundTrip("DES", encrypt(f.plain, f.key));
  }

  /** Decrypt goes ahead with an empty key: the capture is handed to the
      cipher with the key as it is. */
  lemma {:induction false} DesDecryptEmptyKey(plain: string, alg: string, ct: string, supported: string -> bool,
                           decrypt: (string, string, string) -> Option<string>)
    requires alg != [] && AllWordChars(alg)
    requires ct != [] && NoSpace(ct)
    requires supported(alg) && decrypt(alg, ct, []).Some?
    ensures DesDecrypt(Form(plain, [], Envelope(alg, ct)), supported, decrypt).plain == decrypt(alg, ct, []).value
  {
    EnvelopeRoundTrip(alg, ct);
  }
}

=== FILE: renderer.dfy ===
/** The string logic of the custom Markdown renderer in custom-renderer.js:
    callout paragraphs, the link-title dispatch and the figure branch of
    images.  The renderer's own fallbacks (`this.origin.*`) are not
    modelled: where the script delegates to them the model says so. */
module Renderer {
  import opened Wrappers
  import opened Strings
  import opened Config

  /** `<p class="c">body</p>`. */
  function ClassedParagraph(className: string, body: string): string {
    "<p class=\"" + className + "\">" + body + "</p>"
  }

  /** `helper`: the five-character escaped marker cut off, the rest trimmed
      and wrapped in a classed paragraph. */
  function Helper(className: string, content: string): string {
    ClassedParagraph(className, Trim(Drop(content, 5)))
  }

  /** The paragraph kinds: a `!>` warning, a `?>` tip, or plain text.
      Markdown has already escaped `>` to `&gt;` when the renderer runs. */
  datatype Callout = Warn | Tip | Plain

  function Marker(kind: Callout): string
    requires kind != Plain
  {
    if kind == Warn then "!&gt;" else "?&gt;"
  }

  function ClassName(kind: Callout): string
    requires kind != Plain
  {
    if kind == Warn then "warn" else "tip"
  }

  /** The two tests of `paragraph`, the warning one first. */
  function Classify(text: string): (kind: Callout)
    ensures kind == Warn <==> StartsWith(text, "!&gt;")
    ensures kind == Tip <==> StartsWith(text, "?&gt;")
    ensures kind == Plain <==> !StartsWith(text, "!&gt;") && !StartsWith(text, "?&gt;")
  {
    if StartsWith(text, "!&gt;") then Warn
    else if StartsWith(text, "?&gt;") then Tip
    else Plain
  }

  /** The `paragraph` renderer: the warning test comes first, and a
      callout keeps only the trimmed text after its five-character marker. */
  function Paragraph(text: string): (r: string)
    ensures StartsWith(text, "!&gt;") ==> r == ClassedParagraph("warn", Trim(Drop(text, 5)))
    ensures !StartsWith(text, "!&gt;") && StartsWith(text, "?&gt;") ==>
      r == ClassedParagraph("tip", Trim(Drop(text, 5)))
    ensures !StartsWith(text, "!&gt;") && !StartsWith(text, "?&gt;") ==> r == "<p>" + text + "</p>"
  {
    match Classify(text)
    case Warn => Helper("warn", text)
    case Tip => Helper("tip", text)
    case Plain => "<p>" + text + "</p>"
  }

  /** A callout written as its marker, white space and a body renders as
      the body alone in a paragraph of the callout's class. */
  lemma {:induction false} ParagraphCallout(kind: Callout, pad: string, body: string, trail: string)
    requires kind != Plain
    requires AllSpace(pad) && AllSpace(trail)
    requires body == [] || (!IsSpace(body[0]) && !IsSpace(body[|body| - 1]))
    ensures Paragraph(Marker(kind) + pad + body + trail) == ClassedParagraph(ClassName(kind), body)
  {
    var m := Marker(kind);
    var text := m + pad + body + trail;
    assert text[..5] == m;
    assert Drop(text, 5) == pad + body + trail;
    TrimPadded(pad, body, trail);
    if kind == Tip {
      assert text[0] == '?';
    }
  }

  /** The result of `link`: markup, or the renderer's own link. */
  datatype LinkOut = Html(html: string) | Delegated

  /** t occurs in s at position i. */
  predicate OccursAt(s: string, t: string, i: nat) {
    i + |t| <= |s| && s[i..i + |t|] == t
  }

  ghost predicate Contains(s: string, t: string) {
    exists i: nat :: OccursAt(s, t, i)
  }

  /** The `link` renderer; `None` stands for a missing title. */
  function Link(href: string, title: Option<string>, text: string): (r: LinkOut)
    ensures r.Delegated? <==>
      title != Some(":encrypted") && title != Some(":chapter-skipped") && title != Some(":section-skipped")
  {
    if title == Some(":encrypted") then
      Html("<a href=\"#" + href + "\" class=\"encrypted\">" + text + "</a>")
    else if title == Some(":chapter-skipped") then
      Html(text + "<ul></ul>")
    else if title == Some(":section-skipped") then
      Html("<a href=\"javascript:void(0)\" disabled>" + text + "</a>")
    else Delegated
  }

  /** Every markup the link renderer writes shows the link text, and the
      encrypted-page anchor points at the fragment `#href`. */
  lemma {:induction false} LinkShowsText(href: string, title: Option<string>, text: string)
    ensures var r := Link(href, title, text);
      && (r.Html? ==> Contains(r.html, text))
      && (title == Some(":encrypted") ==> Contains(r.html, "#" + href))
  {
    var r := Link(href, title, text);
    if title == Some(":encrypted") {
      var pre := "<a href=\"";
      var mid := "\" class=\"encrypted\">";
      assert r.html == pre + ("#" + href) + mid + text + "</a>";
      var i := |pre| + 1 + |href| + |mid|;
      assert OccursAt(r.html, text, i);
      assert OccursAt(r.html, "#" + href, |pre|);
    } else if title == Some(":chapter-skipped") {
      assert OccursAt(r.html, text, 0);
    } else if title == Some(":section-skipped") {
      var pre := "<a href=\"javascript:void(0)\" disabled>";
      assert OccursAt(r.html, text, |pre|);
    }
  }

  /** The figure number: the last `/`-segment of the image path with its
      final `.ext` removed (`split('.').slice(0, -1).join('.')`). It is
      empty when that segment has no dot; otherwise it is what precedes the
      segment's last dot, inner dots included. */
  function FileName(href: string): (r: string)
    ensures var seg := LastSegment(href, '/');
      && ('.' !in seg ==> r == [])
      && ('.' in seg ==> |r| < |seg| && seg[..|r|] == r && seg[|r|] == '.' && '.' !in seg[|r| + 1..])
  {
    var seg := LastSegment(href, '/');
    var parts := Split(seg, '.');
    if '.' !in seg then
      SplitPiece(seg, '.');
      assert parts[..0] == [];
      Join(parts[..|parts| - 1], '.')
    else
      FileNameDotted(seg);
      Join(parts[..|parts| - 1], '.')
  }

  /** The name before the last dot of a segment that has one. */
  lemma {:induction false} FileNameDotted(seg: string)
    requires '.' in seg
    ensures var parts := Split(seg, '.'); var r := Join(parts[..|parts| - 1], '.');
      |r| < |seg| && seg[..|r|] == r && seg[|r|] == '.' && '.' !in seg[|r| + 1..]
  {
    var parts := Split(seg, '.');
    var n := |parts|;
    var r := Join(parts[..n - 1], '.');
    JoinSplit(seg, '.');
    assert n > 1;
    var last := parts[n - 1];
    assert parts == parts[..n - 1] + [last];
    JoinSnoc(parts[..n - 1], last, '.');
    assert seg == r + ['.'] + last;
    assert seg[..|r|] == r;
    assert seg[|r| + 1..] == last;
  }

  /** `dir/name.ext` (or `name.ext`) gives `name`, whatever dots the name
      itself holds. */
  lemma {:induction false} FileNameOf(dir: string, name: string, ext: string)
    requires dir == [] || dir[|dir| - 1] == '/'
    requires '/' !in name && '/' !in ext && '.' !in ext
    ensures FileName(dir + name + "." + ext) == name
  {
    var seg := name + "." + ext;
    assert '/' !in seg;
    assert dir + name + "." + ext == dir + seg;
    LastSegmentAfter(dir, seg, '/');
    var r := FileName(dir + seg);
    assert seg[|name|] == '.';
    assert seg[|name| + 1..] == ext;
    assert |r| == |name|;
  }

  /** The result of `image`: a numbered figure with caption, or the plain
      image in its container (both drawn by the renderer's own image with
      the given title and alt text). */
  datatype ImageOut =
    | Figure(href: string, imageTitle: string, alt: string, number: string, caption: string)
    | PlainImage(href: string, title: Option<string>, alt: string)

  /** The `image` renderer. */
  function Image(href: string, title: Option<string>, text: string): (r: ImageOut)
    ensures r.Figure? <==> "figure" in GetAndRemoveConfig(title).config
    ensures r.Figure? ==> title.Some? && r.imageTitle == RemoveAll(title.value, ":figure ")
    ensures r.Figure? ==> r.number == FileName(href) && r.caption == GetAndRemoveConfig(title).str
    ensures r.Figure? ==> r.alt == if text == [] then "Figure " + r.number else text
    ensures r.PlainImage? ==> r == PlainImage(href, title, text)
  {
    if "figure" in GetAndRemoveConfig(title).config then
      var figureTitle := RemoveAll(title.value, ":figure ");
      var fileName := FileName(href);
      var alt := if text == [] then "Figure " + fileName else text;
      Figure(href, figureTitle, alt, fileName, GetAndRemoveConfig(title).str)
    else PlainImage(href, title, text)
  }

  /** The scan of `:figure caption` removes the leading token only. */
  lemma {:induction false} FigureScan(caption: string)
    requires ':' !in caption
    ensures Scan(":figure " + caption, true) == (" " + caption, map["figure" := Flag])
  {
    var t := ":figure " + caption;
    var rest := " " + caption;
    assert t[1..] == "figure" + rest;
    assert forall i :: 0 <= i < 6 ==> IsKeyChar("figure"[i]);
    TokenBodyFlag("figure", rest);
    assert MatchAt(t, true) == Some(Token(7, "figure", None));
    assert t[7..] == rest;
    ScanNoColon(rest, false);
    assert ':' !in "figure";
    assert "figure" != ProtoKey;
    assert map["figure" := Flag] + map[] == map["figure" := Flag];
  }

  /** `:figure caption` is the figure flag and the caption. */
  lemma {:induction false} FigureConfig(caption: string)
    requires PlainText(caption) && ':' !in caption
    ensures GetAndRemoveConfig(Some(":figure " + caption)) == Parsed(caption, map["figure" := Flag])
  {
    var t := ":figure " + caption;
    FigureScan(caption);
    FigureNoQuotes(caption);
    ConfigOfText(t);
    FigureTrim(caption);
  }

  lemma {:induction false} FigureTrim(caption: string)
    requires caption == [] || (!IsSpace(caption[0]) && !IsSpace(caption[|caption| - 1]))
    ensures Trim(" " + caption) == caption
  {
    assert " " + caption == " " + caption + [];
    TrimPadded(" ", caption, []);
  }

  lemma {:induction false} FigureNoQuotes(caption: string)
    requires PlainText(caption) && ':' !in caption
    ensures StripQuotes(":figure " + caption) == ":figure " + caption
  {
    var t := ":figure " + caption;
    assert t[|t| - 1] == if caption == [] then ' ' else caption[|caption| - 1];
    StripQuotesNoop(t);
  }

  /** `:figure ` is removed from the front of the image title, and the
      caption after it is kept when it holds no further `:figure `. */
  lemma {:induction false} FigureTitle(caption: string)
    requires NoOccurrence(caption, ":figure ")
    ensures RemoveAll(":figure " + caption, ":figure ") == caption
  {
    assert ":figure " + caption == [] + ":figure " + caption;
    RemoveAllSplice([], ":figure ", caption);
    RemoveAllAbsent(caption, ":figure ");
  }

  /** A caption such as `a:b` holds a colon but no `:figure `, and is
      kept. */
  lemma {:induction false} FigureTitleColon(a: char, b: char)
    ensures RemoveAll(":figure " + [a, ':', b], ":figure ") == [a, ':', b]
  {
    var c := [a, ':', b];
    forall i | 0 <= i < |c|
      ensures !StartsWith(c[i..], ":figure ")
    {
    }
    FigureTitle(c);
  }

  /** A title `:figure caption` makes a figure captioned `caption` whose
      image title is the caption too. */
  lemma {:induction false} FigureCaption(href: string, caption: string, text: string)
    requires PlainText(caption) && ':' !in caption
    ensures Image(href, Some(":figure " + caption), text) ==
      Figure(href, caption, if text == [] then "Figure " + FileName(href) else text,
             FileName(href), caption)
  {
    FigureConfig(caption);
    FirstCharAbsent(caption, ":figure ");
    FigureTitle(caption);
  }

  /** A title with no `:figure` option leaves the image plain. */
  lemma {:induction false} NotFigure(href: string, title: Option<string>, text: string)
    requires title.None? || ':' !in title.value
    ensures Image(href, title, text) == PlainImage(href, title, text)
  {
    if title.Some? {
      ConfigNoColon(title.value);
    }
  }
}

=== FILE: sidebar.dfy ===
/** The sidebar controller of sidebar.js: the expand/collapse toggle of a
    nested list, marking the current page's items, folding every branch
    that does not hold a current item, and the scroll offset that brings
    the current item into view. */
module Sidebar {
  import opened Wrappers
  import opened Strings

  /** The `max-block-size` of a sub-list: never constrained, or a length in
      pixels. Only `Px(0)` reads back as `'0px'`. */
  datatype Extent = Unset | Px(n: int)

  /** A sidebar `li`: the `href` of its direct anchor if it has one, its
      `current` and `close` classes, and its nested list if it has one. */
  datatype Li = Li(href: Option<string>, current: bool, close: bool, sub: Option<Ul>)

  /** A nested `ul`: its items, its `max-block-size`, and its natural
      content height (`scrollHeight`, a measurement). */
  datatype Ul = Ul(items: seq<Li>, extent: Extent, height: nat)

  /** `li:has(> ul)`: the items that collapse. */
  predicate Collapsible(li: Li) {
    li.sub.Some?
  }

  /** The sub-list is not constrained to zero. */
  predicate IsOpen(li: Li)
    requires Collapsible(li)
  {
    li.sub.value.extent != Px(0)
  }

  /** The sub-list is constrained to its natural height. */
  predicate Expanded(li: Li)
    requires Collapsible(li)
  {
    li.sub.value.extent == Px(li.sub.value.height)
  }

  /** The sub-list is constrained to zero and the item carries `close`. */
  predicate Folded(li: Li)
    requires Collapsible(li)
  {
    li.sub.value.extent == Px(0) && li.close
  }

  // ---------------------------------------------------------------------
  // Addressing items by path

  /** The item reached by following child positions from the top list. */
  function At(items: seq<Li>, path: seq<nat>): Option<Li>
    decreases path
  {
    if path == [] || path[0] >= |items| then None
    else
      var li := items[path[0]];
      if |path| == 1 then Some(li)
      else if li.sub.None? then None
      else At(li.sub.value.items, path[1..])
  }

  /** Some item at any depth of the list is current. */
  predicate ContainsCurrent(items: seq<Li>)
    decreases items
  {
    exists i :: 0 <= i < |items| && LiHoldsCurrent(items[i])
  }

  predicate LiHoldsCurrent(li: Li)
    decreases li
  {
    li.current || (li.sub.Some? && ContainsCurrent(li.sub.value.items))
  }

  /** An item below a list item makes that item's sub-list hold a current
      item. */
  lemma {:induction false} CurrentBelow(items: seq<Li>, path: seq<nat>)
    requires At(items, path).Some? && At(items, path).value.current
    ensures ContainsCurrent(items)
    decreases path
  {
    var li := items[path[0]];
    if |path| > 1 {
      CurrentBelow(li.sub.value.items, path[1..]);
    }
    assert LiHoldsCurrent(items[path[0]]);
  }

  /** A current item reached through a strict ancestor lies in that
      ancestor's sub-list. */
  lemma {:induction false} CurrentUnder(items: seq<Li>, q: seq<nat>, rest: seq<nat>)
    requires q != [] && rest != []
    requires At(items, q + rest).Some? && At(items, q + rest).value.current
    ensures At(items, q).Some? && Collapsible(At(items, q).value)
    ensures ContainsCurrent(At(items, q).value.sub.value.items)
    decreases q
  {
    var p := q + rest;
    assert p[0] == q[0];
    var li := items[q[0]];
    assert p[1..] == q[1..] + rest;
    if |q| == 1 {
      assert p[1..] == rest;
      CurrentBelow(li.sub.value.items, rest);
    } else {
      CurrentUnder(li.sub.value.items, q[1..], rest);
    }
  }

  // ---------------------------------------------------------------------
  // Click toggle, foldSubList, expandSubList

  /** The click handler of a collapsible item: an open sub-list is
      constrained to zero and the item gets `close`; a closed one gets its
      natural height and loses `close`. */
  function Toggle(li: Li): (r: Li)
    requires Collapsible(li)
    ensures Collapsible(r) && r.href == li.href && r.current == li.current
    ensures r.sub.value.items == li.sub.value.items && r.sub.value.height == li.sub.value.height
    ensures IsOpen(li) ==> Folded(r)
    ensures !IsOpen(li) ==> Expanded(r) && !r.close
  {
    var ul := li.sub.value;
    if ul.extent != Px(0) then li.(close := true, sub := Some(ul.(extent := Px(0))))
    else li.(close := false, sub := Some(ul.(extent := Px(ul.height))))
  }

  /** Two clicks on a list with content restore whether it is open, and the
      `close` class matches the open state afterwards. */
  lemma {:induction false} ToggleTwice(li: Li)
    requires Collapsible(li) && li.sub.value.height > 0
    ensures IsOpen(Toggle(Toggle(li))) == IsOpen(li)
    ensures Toggle(Toggle(li)).close == !IsOpen(li)
  {
  }

  /** A list with no content height can never be opened by clicking: every
      click leaves it at zero, only `close` flips. */
  lemma {:induction false} ToggleEmpty(li: Li)
    requires Collapsible(li) && li.sub.value.height == 0
    ensures !IsOpen(Toggle(li))
    ensures Toggle(li).close == IsOpen(li)
  {
  }

  /** foldSubList: `close` is added and the sub-list constrained to zero. */
  function Fold(li: Li): (r: Li)
    requires Collapsible(li)
    ensures Collapsible(r) && Folded(r)
    ensures r.href == li.href && r.current == li.current
    ensures r.sub.value.items == li.sub.value.items && r.sub.value.height == li.sub.value.height
  {
    li.(close := true, sub := Some(li.sub.value.(extent := Px(0))))
  }

  /** expandSubList: the sub-list gets its natural height; `close` is left
      as it was. */
  function Expand(li: Li): (r: Li)
    requires Collapsible(li)
    ensures Collapsible(r) && Expanded(r)
    ensures r.href == li.href && r.current == li.current && r.close == li.close
    ensures r.sub.value.items == li.sub.value.items && r.sub.value.height == li.sub.value.height
  {
    li.(sub := Some(li.sub.value.(extent := Px(li.sub.value.height))))
  }

  // ---------------------------------------------------------------------
  // setCurrent

  /** `decodeURI(vm.route.path.split('/').pop())`; the URI decoding is
      supplied by the caller. */
  function PageName(routePath: string, decodeUri: string -> string): string {
    decodeUri(LastSegment(routePath, '/'))
  }

  /** The item's anchor points at the page: the last `/` segment of its
      href equals the page name. */
  predicate Matches(li: Li, page: string) {
    li.href.Some? && LastSegment(li.href.value, '/') == page
  }

  /** setCurrent over a list: every item whose anchor matches the page gets
      `current`; nothing else changes. */
  function SetCurrent(items: seq<Li>, page: string): (r: seq<Li>)
    ensures |r| == |items|
    ensures forall i :: 0 <= i < |r| ==>
      && r[i].current == (items[i].current || Matches(items[i], page))
      && r[i].href == items[i].href && r[i].close == items[i].close
      && r[i].sub.Some? == items[i].sub.Some?
    decreases items
  {
    if items == [] then []
    else [SetCurrentLi(items[0], page)] + SetCurrent(items[1..], page)
  }

  function SetCurrentLi(li: Li, page: string): (r: Li)
    ensures r.href == li.href && r.close == li.close && r.sub.Some? == li.sub.Some?
    ensures r.current == (li.current || Matches(li, page))
    decreases li
  {
    var sub := if li.sub.None? then None
               else Some(li.sub.value.(items := SetCurrent(li.sub.value.items, page)));
    Li(li.href, li.current || Matches(li, page), li.close, sub)
  }

  lemma {:induction false} SetCurrentIndex(items: seq<Li>, page: string, i: nat)
    requires i < |items|
    ensures SetCurrent(items, page)[i] == SetCurrentLi(items[i], page)
    decreases items
  {
    if i > 0 {
      SetCurrentIndex(items[1..], page, i - 1);
    }
  }

  /** After setCurrent an item is current exactly when it was already or
      its anchor matches the page; paths, links and `close` are kept. */
  lemma {:induction false} SetCurrentAt(items: seq<Li>, page: string, path: seq<nat>)
    ensures At(SetCurrent(items, page), path).Some? == At(items, path).Some?
    ensures At(items, path).Some? ==>
      var old_ := At(items, path).value;
      var new_ := At(SetCurrent(items, page), path).value;
      && new_.current == (old_.current || Matches(old_, page))
      && new_.href == old_.href && new_.close == old_.close
    decreases path
  {
    if path != [] && path[0] < |items| {
      SetCurrentIndex(items, page, path[0]);
      var li := items[path[0]];
      if |path| > 1 && li.sub.Some? {
        SetCurrentAt(li.sub.value.items, page, path[1..]);
      }
    }
  }

  // ---------------------------------------------------------------------
  // closeOthers

  /** closeOthers over a list: every collapsible item is expanded when its
      sub-list holds a current item and folded otherwise. */
  function CloseOthers(items: seq<Li>): (r: seq<Li>)
    ensures |r| == |items|
    ensures forall i :: 0 <= i < |r| ==>
      && r[i].current == items[i].current && r[i].href == items[i].href
      && Collapsible(r[i]) == Collapsible(items[i])
      && (Collapsible(items[i]) ==>
            if ContainsCurrent(items[i].sub.value.items) then Expanded(r[i]) else Folded(r[i]))
    decreases items
  {
    if items == [] then []
    else [CloseOthersLi(items[0])] + CloseOthers(items[1..])
  }

  function CloseOthersLi(li: Li): (r: Li)
    ensures r.href == li.href && r.current == li.current && r.sub.Some? == li.sub.Some?
    ensures Collapsible(li) ==>
      if ContainsCurrent(li.sub.value.items) then Expanded(r) else Folded(r)
    decreases li
  {
    match li.sub
    case None => li
    case Some(ul) =>
      var inner := li.(sub := Some(ul.(items := CloseOthers(ul.items))));
      if ContainsCurrent(ul.items) then Expand(inner) else Fold(inner)
  }

  lemma {:induction false} CloseOthersIndex(items: seq<Li>, i: nat)
    requires i < |items|
    ensures CloseOthers(items)[i] == CloseOthersLi(items[i])
    decreases items
  {
    if i > 0 {
      CloseOthersIndex(items[1..], i - 1);
    }
  }

  /** After closeOthers every collapsible item is expanded if its sub-list
      holds a current item and folded otherwise; the current marks and
      links stay as they were. */
  lemma {:induction false} CloseOthersAt(items: seq<Li>, path: seq<nat>)
    ensures At(CloseOthers(items), path).Some? == At(items, path).Some?
    ensures At(items, path).Some? ==>
      var old_ := At(items, path).value;
      var new_ := At(CloseOthers(items), path).value;
      && new_.current == old_.current && new_.href == old_.href
      && Collapsible(new_) == Collapsible(old_)
      && (Collapsible(old_) ==>
            if ContainsCurrent(old_.sub.value.items) then Expanded(new_) else Folded(new_))
    decreases path
  {
    if path != [] && path[0] < |items| {
      CloseOthersIndex(items, path[0]);
      var li := items[path[0]];
      if |path| > 1 && li.sub.Some? {
        CloseOthersAt(li.sub.value.items, path[1..]);
      }
    }
  }

  /** Every collapsible ancestor of a current item ends up expanded. */
  lemma {:induction false} AncestorsExpanded(items: seq<Li>, q: seq<nat>, rest: seq<nat>)
    requires q != [] && rest != []
    requires At(CloseOthers(items), q + rest).Some? && At(CloseOthers(items), q + rest).value.current
    ensures At(CloseOthers(items), q).Some?
    ensures Collapsible(At(CloseOthers(items), q).value) && Expanded(At(CloseOthers(items), q).value)
  {
    CloseOthersAt(items, q + rest);
    CurrentUnder(items, q, rest);
    CloseOthersAt(items, q);
  }

  // ---------------------------------------------------------------------
  // scrollToCurrent

  /** The path of the first current item in document order. */
  function FirstCurrent(items: seq<Li>): (r: Option<seq<nat>>)
    ensures r.Some? ==> At(items, r.value).Some? && At(items, r.value).value.current
    ensures r.None? ==> !ContainsCurrent(items)
    decreases items
  {
    if items == [] then None
    else
      match FirstCurrentLi(items[0])
      case Some(p) => Some([0] + p)
      case None =>
        match FirstCurrent(items[1..])
        case Some(p) =>
          assert At(items, [p[0] + 1] + p[1..]) == At(items[1..], p) by {
            assert ([p[0] + 1] + p[1..])[1..] == p[1..];
          }
          Some([p[0] + 1] + p[1..])
        case None =>
          assert forall i :: 0 <= i < |items| ==> !LiHoldsCurrent(items[i]) by {
            forall i | 0 <= i < |items|
              ensures !LiHoldsCurrent(items[i])
            {
              if i > 0 {
                assert items[i] == items[1..][i - 1];
              }
            }
          }
          None
  }

  /** The rest of the path to the first current item, starting at li. */
  function FirstCurrentLi(li: Li): (r: Option<seq<nat>>)
    ensures r.Some? ==> r.value == [] || (li.sub.Some? && At(li.sub.value.items, r.value).Some?
                                        && At(li.sub.value.items, r.value).value.current)
    ensures r.Some? && r.value == [] ==> li.current
    ensures r.None? ==> !LiHoldsCurrent(li)
    decreases li
  {
    if li.current then Some([])
    else if li.sub.None? then None
    else FirstCurrent(li.sub.value.items)
  }

  /** Path q comes before path p in document order: q is a proper prefix
      of p (an ancestor), or q has the smaller index where they first
      differ. */
  predicate Before(q: seq<nat>, p: seq<nat>)
    decreases |q|
  {
    p != [] && (q == [] || q[0] < p[0] || (q[0] == p[0] && Before(q[1..], p[1..])))
  }

  /** No current item comes before the one FirstCurrent finds, so it is
      the one `querySelector` returns. */
  lemma {:induction false} FirstCurrentFirst(items: seq<Li>, q: seq<nat>)
    requires FirstCurrent(items).Some? && Before(q, FirstCurrent(items).value)
    requires At(items, q).Some?
    ensures !At(items, q).value.current
    decreases |q|, |items|
  {
    var p := FirstCurrent(items).value;
    var li := items[0];
    match FirstCurrentLi(li)
    case Some(p0) =>
      assert p == [0] + p0 && p[1..] == p0;
      if |q| > 1 {
        assert !li.current;
        FirstCurrentFirst(li.sub.value.items, q[1..]);
      }
    case None =>
      var p' := FirstCurrent(items[1..]).value;
      assert p == [p'[0] + 1] + p'[1..];
      if q[0] == 0 {
        NoCurrentIn(li, q[1..]);
      } else {
        var q' := [q[0] - 1] + q[1..];
        assert q'[1..] == q[1..] && p[1..] == p'[1..];
        assert At(items, q) == At(items[1..], q') by {
          assert items[q[0]] == items[1..][q'[0]];
        }
        FirstCurrentFirst(items[1..], q');
      }
  }

  /** An item that holds no current item has none at or below it. */
  lemma {:induction false} NoCurrentIn(li: Li, rest: seq<nat>)
    requires !LiHoldsCurrent(li)
    requires rest != [] ==> li.sub.Some? && At(li.sub.value.items, rest).Some?
    ensures rest == [] ==> !li.current
    ensures rest != [] ==> !At(li.sub.value.items, rest).value.current
  {
    if rest != [] && At(li.sub.value.items, rest).value.current {
      CurrentBelow(li.sub.value.items, rest);
    }
  }

  /** The measurements scrollToCurrent reads: `offsetTop` and the computed
      `padding-block` of an item (by path), the nav's `offsetHeight`, the
      profile header's `block-size` and `margin-block`, and the sidebar's
      `gap`. */
  datatype Layout = Layout(
    offsetTop: seq<nat> -> int,
    paddingBlock: seq<nat> -> int,
    navHeight: int,
    profileBlockSize: int,
    profileMarginBlock: int,
    gap: int)

  /** Height of the gradient band at the bottom of the nav. */
  const FadeHeight: int := 64

  /** The profile header's height including both block margins. */
  function ProfileHeight(l: Layout): int {
    l.profileBlockSize + 2 * l.profileMarginBlock
  }

  /** scrollToCurrent: no scroll without a current item or without the
      profile header; a top-level current item goes right below the profile
      header and gap; a nested one brings its parent item's list there,
      shifted down by the item's own offset when the item would sit in the
      fade band. */
  function ScrollToCurrent(items: seq<Li>, hasProfile: bool, l: Layout): (r: Option<int>)
    ensures r.None? <==> !ContainsCurrent(items) || !hasProfile
    ensures r.Some? ==> var p := FirstCurrent(items).value;
      if |p| == 1 then r.value + ProfileHeight(l) + l.gap == l.offsetTop(p)
      else
        var parent := p[..|p| - 1];
        var listTop := l.offsetTop(parent) + l.paddingBlock(parent);
        if l.offsetTop(p) >= l.navHeight - FadeHeight
        then r.value + ProfileHeight(l) + l.gap == listTop + l.offsetTop(p)
        else r.value + ProfileHeight(l) + l.gap == listTop
  {
    match FirstCurrent(items)
    case None => None
    case Some(p) =>
      CurrentBelow(items, p);
      if !hasProfile then None
      else if |p| == 1 then Some(l.offsetTop(p) - ProfileHeight(l) - l.gap)
      else
        var parent := p[..|p| - 1];
        var base := l.offsetTop(parent) - ProfileHeight(l) + l.paddingBlock(parent) - l.gap;
        if l.offsetTop(p) >= l.navHeight - FadeHeight then Some(base + l.offsetTop(p))
        else Some(base)
  }

  // ---------------------------------------------------------------------
  // initial

  /** initial: mark the route's items current, fold the other branches,
      and compute the nav's scroll offset. */
  function Initial(items: seq<Li>, routePath: string, decodeUri: string -> string,
                   hasProfile: bool, l: Layout): (r: (seq<Li>, Option<int>))
    ensures |r.0| == |items|
    ensures forall i :: 0 <= i < |items| ==>
      && r.0[i].current == (items[i].current || Matches(items[i], PageName(routePath, decodeUri)))
      && r.0[i].href == items[i].href && Collapsible(r.0[i]) == Collapsible(items[i])
    ensures r.1.None? <==> !ContainsCurrent(r.0) || !hasProfile
  {
    var marked := SetCurrent(items, PageName(routePath, decodeUri));
    var folded := CloseOthers(marked);
    (folded, ScrollToCurrent(folded, hasProfile, l))
  }

  /** After initial every item whose link names the route's page is
      current, and every collapsible ancestor of it is expanded. */
  lemma {:induction false} InitialExpandsRoute(items: seq<Li>, routePath: string, decodeUri: string -> string,
                            hasProfile: bool, l: Layout, q: seq<nat>, rest: seq<nat>)
    requires q != [] && rest != []
    requires At(items, q + rest).Some?
    requires Matches(At(items, q + rest).value, PageName(routePath, decodeUri))
    ensures var after := Initial(items, routePath, decodeUri, hasProfile, l).0;
      && At(after, q + rest).Some? && At(after, q + rest).value.current
      && At(after, q).Some? && Collapsible(At(after, q).value) && Expanded(At(after, q).value)
  {
    var page := PageName(routePath, decodeUri);
    var marked := SetCurrent(items, page);
    SetCurrentAt(items, page, q + rest);
    CloseOthersAt(marked, q + rest);
    AncestorsExpanded(marked, q, rest);
  }
}

=== FILE: strings.dfy ===
/** The JavaScript string primitives the scripts rely on: whitespace and word
    character classes of regular expressions, `trim`, `startsWith`,
    `split(c)`, `join(c)` and `split(c).pop()`.  Strings are sequences of
    Unicode scalar values. */
module Strings {

  /** White space as JavaScript's `\s` and `String.prototype.trim` see it:
      the ASCII blanks, the line terminators and the Unicode space
      separators, plus the byte order mark. */
  predicate IsSpace(c: char) {
    || c == ' ' || c == '\t' || c == '\n' || c == '\r'
    || c == '\U{000B}' || c == '\U{000C}'
    || c == '\U{00A0}' || c == '\U{1680}'
    || ('\U{2000}' <= c <= '\U{200A}')
    || c == '\U{2028}' || c == '\U{2029}' || c == '\U{202F}'
    || c == '\U{205F}' || c == '\U{3000}' || c == '\U{FEFF}'
  }

  /** JavaScript's `\w`: ASCII letters, digits and underscore. */
  predicate IsWordChar(c: char) {
    ('a' <= c <= 'z') || ('A' <= c <= 'Z') || ('0' <= c <= '9') || c == '_'
  }

  predicate NoSpace(s: string) {
    forall i :: 0 <= i < |s| ==> !IsSpace(s[i])
  }

  predicate AllWordChars(s: string) {
    forall i :: 0 <= i < |s| ==> IsWordChar(s[i])
  }

  predicate StartsWith(s: string, prefix: string) {
    |prefix| <= |s| && s[..|prefix|] == prefix
  }

  /** `s.slice(n)`: everything after the first n characters, or nothing. */
  function Drop(s: string, n: nat): (r: string)
    ensures n <= |s| ==> s == s[..n] + r
    ensures n > |s| ==> r == []
  {
    if n <= |s| then s[n..] else []
  }

  /** Leading white space removed. */
  function TrimStart(s: string): (r: string)
    ensures |r| <= |s| && r == s[|s| - |r|..]
    ensures r == [] || !IsSpace(r[0])
    ensures forall i :: 0 <= i < |s| - |r| ==> IsSpace(s[i])
  {
    if s != [] && IsSpace(s[0]) then TrimStart(s[1..]) else s
  }

  /** Trailing white space removed. */
  function TrimEnd(s: string): (r: string)
    ensures |r| <= |s| && r == s[..|r|]
    ensures r == [] || !IsSpace(r[|r| - 1])
    ensures forall i :: |r| <= i < |s| ==> IsSpace(s[i])
  {
    if s != [] && IsSpace(s[|s| - 1]) then TrimEnd(s[..|s| - 1]) else s
  }

  /** `s.trim()`. */
  function Trim(s: string): string {
    TrimEnd(TrimStart(s))
  }

  /** `trim` leaves a string with no white space at either end unchanged. */
  lemma {:induction false} TrimNoop(s: string)
    requires s == [] || (!IsSpace(s[0]) && !IsSpace(s[|s| - 1]))
    ensures Trim(s) == s
  {
  }

  predicate AllSpace(s: string) {
    forall i :: 0 <= i < |s| ==> IsSpace(s[i])
  }

  lemma {:induction false} TrimStartPadded(w: string, t: string)
    requires AllSpace(w) && (t == [] || !IsSpace(t[0]))
    ensures TrimStart(w + t) == t
    decreases |w|
  {
    if w == [] {
      assert w + t == t;
    } else {
      assert (w + t)[0] == w[0];
      assert (w + t)[1..] == w[1..] + t;
      TrimStartPadded(w[1..], t);
    }
  }

  lemma {:induction false} TrimEndPadded(t: string, w: string)
    requires AllSpace(w) && (t == [] || !IsSpace(t[|t| - 1]))
    ensures TrimEnd(t + w) == t
    decreases |w|
  {
    if w == [] {
      assert t + w == t;
    } else {
      var n := |w| - 1;
      assert (t + w)[|t + w| - 1] == w[n];
      assert (t + w)[..|t + w| - 1] == t + w[..n];
      TrimEndPadded(t, w[..n]);
    }
  }

  /** `trim` removes exactly the white space padding around a string that
      neither starts nor ends with white space. */
  lemma {:induction false} TrimPadded(w1: string, b: string, w2: string)
    requires AllSpace(w1) && AllSpace(w2)
    requires b == [] || (!IsSpace(b[0]) && !IsSpace(b[|b| - 1]))
    ensures Trim(w1 + b + w2) == b
  {
    if b == [] {
      assert w1 + b + w2 == w1 + w2 + [];
      assert AllSpace(w1 + w2);
      TrimStartPadded(w1 + w2, []);
    } else {
      assert w1 + b + w2 == w1 + (b + w2);
      TrimStartPadded(w1, b + w2);
      TrimEndPadded(b, w2);
    }
  }

  /** `s.split(c)` for a one-character separator: the maximal runs between
      separators, always at least one (possibly empty) piece. */
  function Split(s: string, c: char): (parts: seq<string>)
    ensures |parts| >= 1
    ensures forall i :: 0 <= i < |parts| ==> c !in parts[i]
  {
    if s == [] then [[]]
    else if s[0] == c then [[]] + Split(s[1..], c)
    else
      var rest := Split(s[1..], c);
      [[s[0]] + rest[0]] + rest[1..]
  }

  /** `parts.join(c)`; the empty array joins to the empty string. */
  function Join(parts: seq<string>, c: char): string
  {
    if |parts| == 0 then []
    else if |parts| == 1 then parts[0]
    else parts[0] + [c] + Join(parts[1..], c)
  }

  /** Joining the pieces of a split gives back the string. */
  lemma {:induction false} JoinSplit(s: string, c: char)
    ensures Join(Split(s, c), c) == s
  {
    if s == [] {
    } else if s[0] == c {
      JoinSplit(s[1..], c);
      assert Split(s, c) == [[]] + Split(s[1..], c);
    } else {
      JoinSplit(s[1..], c);
      var rest := Split(s[1..], c);
      assert Split(s, c) == [[s[0]] + rest[0]] + rest[1..];
      if |rest| == 1 {
      } else {
        assert ([[s[0]] + rest[0]] + rest[1..])[1..] == rest[1..];
        assert Join(rest, c) == rest[0] + [c] + Join(rest[1..], c);
      }
    }
  }

  /** Splitting a join of separator-free pieces gives back the pieces. */
  lemma {:induction false} SplitJoin(parts: seq<string>, c: char)
    requires |parts| >= 1
    requires forall i :: 0 <= i < |parts| ==> c !in parts[i]
    ensures Split(Join(parts, c), c) == parts
  {
    if |parts| == 1 {
      SplitPiece(parts[0], c);
    } else {
      SplitJoin(parts[1..], c);
      SplitPieceThen(parts[0], Join(parts[1..], c), c);
      assert [parts[0]] + parts[1..] == parts;
    }
  }

  lemma {:induction false} SplitPiece(p: string, c: char)
    requires c !in p
    ensures Split(p, c) == [p]
  {
    if p != [] {
      SplitPiece(p[1..], c);
      assert [p[0]] + p[1..] == p;
    }
  }

  lemma {:induction false} SplitPieceThen(p: string, t: string, c: char)
    requires c !in p
    ensures Split(p + [c] + t, c) == [p] + Split(t, c)
  {
    if p == [] {
      assert p + [c] + t == [c] + t;
      assert ([c] + t)[1..] == t;
    } else {
      assert (p + [c] + t)[1..] == p[1..] + [c] + t;
      SplitPieceThen(p[1..], t, c);
      assert [p[0]] + p[1..] == p;
    }
  }

  /** Joining with one more piece appends the separator and that piece. */
  lemma {:induction false} JoinSnoc(parts: seq<string>, q: string, c: char)
    requires |parts| >= 1
    ensures Join(parts + [q], c) == Join(parts, c) + [c] + q
  {
    if |parts| == 1 {
    } else {
      assert (parts + [q])[1..] == parts[1..] + [q];
      JoinSnoc(parts[1..], q, c);
    }
  }

  /** `s.split(c).pop()`: the text after the last separator, or all of s. */
  function LastSegment(s: string, c: char): string {
    var parts := Split(s, c);
    parts[|parts| - 1]
  }

  /** The last segment is a separator-free suffix of s that is either all of
      s or starts right after a separator. */
  lemma {:induction false} LastSegmentSpec(s: string, c: char)
    ensures var r := LastSegment(s, c);
      && c !in r && |r| <= |s| && s[|s| - |r|..] == r
      && (|r| == |s| || s[|s| - |r| - 1] == c)
  {
    var parts := Split(s, c);
    JoinSplit(s, c);
    var n := |parts|;
    if n > 1 {
      assert parts == parts[..n - 1] + [parts[n - 1]];
      JoinSnoc(parts[..n - 1], parts[n - 1], c);
    }
  }

  /** After a separator (or at the very start), a separator-free tail is the
      last segment. */
  lemma {:induction false} LastSegmentAfter(prefix: string, t: string, c: char)
    requires prefix == [] || prefix[|prefix| - 1] == c
    requires c !in t
    ensures LastSegment(prefix + t, c) == t
  {
    var s := prefix + t;
    var r := LastSegment(s, c);
    LastSegmentSpec(s, c);
    assert s[|s| - |t|..] == t;
  }

  /** A string with no separator is its own last segment. */
  lemma {:induction false} LastSegmentOfPiece(s: string, c: char)
    requires c !in s
    ensures LastSegment(s, c) == s
  {
    SplitPiece(s, c);
  }

  /** The length of the longest prefix of t whose characters satisfy P. */
  function RunLen(t: string, P: char -> bool): (n: nat)
    ensures n <= |t|
  {
    if t == [] || !P(t[0]) then 0 else 1 + RunLen(t[1..], P)
  }

  /** The run is in the class and is maximal. */
  lemma {:induction false} RunLenSpec(t: string, P: char -> bool)
    ensures forall i :: 0 <= i < RunLen(t, P) ==> P(t[i])
    ensures RunLen(t, P) < |t| ==> !P(t[RunLen(t, P)])
  {
    if t != [] && P(t[0]) {
      RunLenSpec(t[1..], P);
      assert forall i :: 1 <= i < RunLen(t, P) ==> t[i] == t[1..][i - 1];
    }
  }

  /** A run followed by a character outside the class is exactly that run. */
  lemma {:induction false} RunLenOf(u: string, rest: string, P: char -> bool)
    requires forall i :: 0 <= i < |u| ==> P(u[i])
    requires rest == [] || !P(rest[0])
    ensures RunLen(u + rest, P) == |u|
  {
    if u != [] {
      assert (u + rest)[1..] == u[1..] + rest;
      RunLenOf(u[1..], rest, P);
    } else {
      assert u + rest == rest;
    }
  }
}

=== FILE: toc.dfy ===
/** The table-of-contents builder of toc.js: the flat, document-ordered list
    of `h1`..`h6` headings becomes a nested list in one left-to-right pass
    over an explicit stack of open headings. */
module Toc {

  /** A heading of the rendered page: its level (the digit of its tag name)
      and the `data-id` of the anchor inside it. */
  datatype Heading = Heading(level: int, id: string)

  /** A TOC list item: the heading it copies and its own sub-list. */
  datatype Item = Item(heading: Heading, children: seq<Item>)

  // ---------------------------------------------------------------------
  // Levels

  /** The tag names `querySelectorAll('h1, h2, h3, h4, h5, h6')` returns. */
  predicate IsHeadingTag(tag: string) {
    |tag| == 2 && tag[0] == 'H' && '1' <= tag[1] <= '6'
  }

  /** The tag name of a heading of the given level. */
  function TagName(level: int): (tag: string)
    requires 1 <= level <= 6
    ensures IsHeadingTag(tag)
  {
    ['H', ('0' as int + level) as char]
  }

  /** `parseInt(header.tagName[1])`: the level is the digit of the tag. */
  function GetLevel(tag: string): (level: int)
    requires IsHeadingTag(tag)
    ensures 1 <= level <= 6
    ensures TagName(level) == tag
  {
    tag[1] as int - '0' as int
  }

  /** The level read back from a tag name is the level it was made from. */
  lemma {:induction false} LevelOfTagName(level: int)
    requires 1 <= level <= 6
    ensures GetLevel(TagName(level)) == level
  {
  }

  // ---------------------------------------------------------------------
  // Pre-order traversal

  /** The headings of an item and its descendants, in pre-order. */
  function FlattenItem(t: Item): seq<Heading>
    decreases t
  {
    [t.heading] + Flatten(t.children)
  }

  /** The headings of a list of items, in pre-order. */
  function Flatten(f: seq<Item>): seq<Heading>
    decreases f
  {
    if f == [] then [] else FlattenItem(f[0]) + Flatten(f[1..])
  }

  lemma {:induction false} FlattenConcat(a: seq<Item>, b: seq<Item>)
    ensures Flatten(a + b) == Flatten(a) + Flatten(b)
  {
    if a == [] {
      assert a + b == b;
    } else {
      assert (a + b)[1..] == a[1..] + b;
      FlattenConcat(a[1..], b);
    }
  }

  // ---------------------------------------------------------------------
  // Level nesting

  /** Every child is strictly deeper than its parent, all the way down. */
  predicate NestedItem(t: Item)
    decreases t
  {
    && (forall i :: 0 <= i < |t.children| ==> t.children[i].heading.level > t.heading.level)
    && Nested(t.children)
  }

  predicate Nested(f: seq<Item>)
    decreases f
  {
    forall i :: 0 <= i < |f| ==> NestedItem(f[i])
  }

  /** Every heading in the list is strictly deeper than `level`. */
  predicate Deeper(f: seq<Item>, level: int) {
    forall i :: 0 <= i < |f| ==> f[i].heading.level > level
  }

  // ---------------------------------------------------------------------
  // Reference definition 1: insertion on the right spine

  /** Adds a heading to an outline the way the stack does: it goes under the
      last item while that item is strictly shallower, and otherwise becomes
      a new last item of the list. */
  function Append(f: seq<Item>, h: Heading): seq<Item>
    decreases f
  {
    if f == [] || f[|f| - 1].heading.level >= h.level then f + [Item(h, [])]
    else
      var last := f[|f| - 1];
      f[..|f| - 1] + [Item(last.heading, Append(last.children, h))]
  }

  /** The outline of a heading sequence: each heading in turn added to the
      outline of the ones before it. */
  function Outline(hs: seq<Heading>): seq<Item>
    decreases |hs|
  {
    if hs == [] then [] else Append(Outline(hs[..|hs| - 1]), hs[|hs| - 1])
  }

  /** Appending keeps the top-level headings and adds at most h. */
  lemma {:induction false} AppendRoots(f: seq<Item>, h: Heading)
    ensures var g := Append(f, h);
      && (|g| == |f| || |g| == |f| + 1)
      && (forall i :: 0 <= i < |g| ==> g[i].heading == if i < |f| then f[i].heading else h)
  {
  }

  /** Appending a heading adds it to the end of the pre-order. */
  lemma {:induction false} FlattenAppend(f: seq<Item>, h: Heading)
    ensures Flatten(Append(f, h)) == Flatten(f) + [h]
    decreases f
  {
    if f == [] || f[|f| - 1].heading.level >= h.level {
      FlattenConcat(f, [Item(h, [])]);
      assert Flatten([Item(h, [])]) == [h] + Flatten([]) + Flatten([]);
    } else {
      var n := |f|;
      var last := f[n - 1];
      assert f == f[..n - 1] + [last];
      FlattenAppend(last.children, h);
      FlattenConcat(f[..n - 1], [last]);
      FlattenConcat(f[..n - 1], [Item(last.heading, Append(last.children, h))]);
      assert Flatten([last]) == FlattenItem(last) + Flatten([]);
    }
  }

  /** Appending keeps every child strictly deeper than its parent. */
  lemma {:induction false} NestedAppend(f: seq<Item>, h: Heading)
    requires Nested(f)
    ensures Nested(Append(f, h))
    decreases f
  {
    if f == [] || f[|f| - 1].heading.level >= h.level {
    } else {
      var last := f[|f| - 1];
      NestedAppend(last.children, h);
      AppendRoots(last.children, h);
      var t := Item(last.heading, Append(last.children, h));
      assert NestedItem(t);
      var g := Append(f, h);
      assert forall i :: 0 <= i < |g| ==> g[i] == if i < |f| - 1 then f[i] else t;
    }
  }

  /** Every heading becomes exactly one item and the pre-order of the outline
      is the heading sequence in document order. */
  lemma {:induction false} OutlineFlatten(hs: seq<Heading>)
    ensures Flatten(Outline(hs)) == hs
    decreases |hs|
  {
    if hs != [] {
      var n := |hs|;
      OutlineFlatten(hs[..n - 1]);
      FlattenAppend(Outline(hs[..n - 1]), hs[n - 1]);
      assert hs[..n - 1] + [hs[n - 1]] == hs;
    }
  }

  /** In the outline every child is strictly deeper than its parent. */
  lemma {:induction false} OutlineNested(hs: seq<Heading>)
    ensures Nested(Outline(hs))
    decreases |hs|
  {
    if hs != [] {
      OutlineNested(hs[..|hs| - 1]);
      NestedAppend(Outline(hs[..|hs| - 1]), hs[|hs| - 1]);
    }
  }

  // ---------------------------------------------------------------------
  // Reference definition 2: blocks of deeper headings

  /** The length of the run at the front of s whose headings are all
      strictly deeper than `level`. */
  function Span(s: seq<Heading>, level: int): (k: nat)
    ensures k <= |s|
    ensures forall i :: 0 <= i < k ==> s[i].level > level
    ensures k < |s| ==> s[k].level <= level
  {
    if s == [] || s[0].level <= level then 0 else 1 + Span(s[1..], level)
  }

  /** An item's children are built from the maximal run of strictly deeper
      headings that follows it; the next heading that is not deeper starts
      its next sibling. */
  function Blocks(hs: seq<Heading>): seq<Item>
    decreases |hs|
  {
    if hs == [] then []
    else
      var k := Span(hs[1..], hs[0].level);
      [Item(hs[0], Blocks(hs[1..1 + k]))] + Blocks(hs[1 + k..])
  }

  lemma {:induction false} SpanSnoc(s: seq<Heading>, level: int, h: Heading)
    ensures Span(s + [h], level) ==
      if Span(s, level) < |s| then Span(s, level)
      else if h.level > level then |s| + 1
      else |s|
  {
    if s == [] {
    } else if s[0].level <= level {
    } else {
      assert (s + [h])[1..] == s[1..] + [h];
      SpanSnoc(s[1..], level, h);
    }
  }

  /** Adding to a list whose second part is non-empty only touches that part. */
  lemma {:induction false} AppendConcat(a: seq<Item>, b: seq<Item>, h: Heading)
    requires b != []
    ensures Append(a + b, h) == a + Append(b, h)
  {
    var ab := a + b;
    assert ab[|ab| - 1] == b[|b| - 1];
    assert ab[..|ab| - 1] == a + b[..|b| - 1];
  }

  /** The first block of a non-empty sequence, and what follows it. */
  lemma {:induction false} BlocksUnfold(xs: seq<Heading>)
    requires xs != []
    ensures var k := Span(xs[1..], xs[0].level);
      Blocks(xs) == [Item(xs[0], Blocks(xs[1..1 + k]))] + Blocks(xs[1 + k..])
  {
  }

  lemma {:induction false} BlocksSnoc(xs: seq<Heading>, h: Heading)
    ensures Blocks(xs + [h]) == Append(Blocks(xs), h)
    decreases |xs|
  {
    if xs == [] {
      assert [h][1..] == [];
      BlocksUnfold([h]);
    } else {
      var t := xs[1..];
      var k := Span(t, xs[0].level);
      SpanSnoc(t, xs[0].level, h);
      if k < |t| {
        BlocksSnocSibling(xs, h);
      } else if h.level > xs[0].level {
        BlocksSnocChild(xs, h);
      } else {
        BlocksSnocLast(xs, h);
      }
    }
  }

  lemma {:induction false} BlocksSnocSibling(xs: seq<Heading>, h: Heading)
    requires xs != [] && Span(xs[1..], xs[0].level) < |xs| - 1
    ensures Blocks(xs + [h]) == Append(Blocks(xs), h)
    decreases |xs|, 0
  {
    var x0 := xs[0];
    var t := xs[1..];
    var s := xs + [h];
    assert s[0] == x0 && s[1..] == t + [h];
    var k := Span(t, x0.level);
    SpanSnoc(t, x0.level, h);
    assert s[1..1 + k] == xs[1..1 + k];
    assert s[1 + k..] == xs[1 + k..] + [h];
    BlocksUnfold(s);
    BlocksUnfold(xs);
    BlocksSnoc(xs[1 + k..], h);
    BlocksUnfold(xs[1 + k..]);
    AppendConcat([Item(x0, Blocks(xs[1..1 + k]))], Blocks(xs[1 + k..]), h);
  }

  lemma {:induction false} BlocksSnocChild(xs: seq<Heading>, h: Heading)
    requires xs != [] && Span(xs[1..], xs[0].level) == |xs| - 1 && h.level > xs[0].level
    ensures Blocks(xs + [h]) == Append(Blocks(xs), h)
    decreases |xs|, 0
  {
    var x0 := xs[0];
    var t := xs[1..];
    var s := xs + [h];
    assert s[0] == x0 && s[1..] == t + [h];
    SpanSnoc(t, x0.level, h);
    BlocksWhole(s);
    BlocksWhole(xs);
    BlocksSnoc(t, h);
    AppendUnder(Item(x0, Blocks(t)), h);
  }

  lemma {:induction false} BlocksSnocLast(xs: seq<Heading>, h: Heading)
    requires xs != [] && Span(xs[1..], xs[0].level) == |xs| - 1 && h.level <= xs[0].level
    ensures Blocks(xs + [h]) == Append(Blocks(xs), h)
  {
    var item := Item(xs[0], Blocks(xs[1..]));
    BlocksWhole(xs);
    BlocksWholeThen(xs, h);
    assert Blocks(xs + [h]) == [item] + Blocks([h]);
    BlocksUnfold([h]);
    assert [h][1..] == [] && [h][1..1] == [];
    assert Blocks([h]) == [Item(h, [])];
    assert Append([item], h) == [item] + [Item(h, [])];
  }

  /** A sequence that is one block is one item. */
  lemma {:induction false} BlocksWhole(xs: seq<Heading>)
    requires xs != [] && Span(xs[1..], xs[0].level) == |xs| - 1
    ensures Blocks(xs) == [Item(xs[0], Blocks(xs[1..]))]
  {
    assert Blocks(xs) == [Item(xs[0], Blocks(xs[1..]))] by {
      var k := Span(xs[1..], xs[0].level);
      assert xs[1..1 + k] == xs[1..];
      assert xs[1 + k..] == [];
    }
  }

  /** One block followed by a heading that is not deeper than its head. */
  lemma {:induction false} BlocksWholeThen(xs: seq<Heading>, h: Heading)
    requires xs != [] && Span(xs[1..], xs[0].level) == |xs| - 1 && h.level <= xs[0].level
    ensures Blocks(xs + [h]) == [Item(xs[0], Blocks(xs[1..]))] + Blocks([h])
  {
    var s := xs + [h];
    var t := xs[1..];
    assert s[0] == xs[0] && s[1..] == t + [h];
    SpanSnoc(t, xs[0].level, h);
    assert Span(s[1..], s[0].level) == |t|;
    BlocksUnfold(s);
    assert s[1..1 + |t|] == t;
    assert s[1 + |t|..] == [h];
  }

  /** The stack's outline and the block decomposition are the same forest. */
  lemma {:induction false} OutlineIsBlocks(hs: seq<Heading>)
    ensures Outline(hs) == Blocks(hs)
    decreases |hs|
  {
    if hs != [] {
      var p, h := hs[..|hs| - 1], hs[|hs| - 1];
      assert hs == p + [h];
      OutlineIsBlocks(p);
      OutlineSnoc(p, h);
      BlocksSnoc(p, h);
    }
  }

  // ---------------------------------------------------------------------
  // The stack loop

  /** An open heading on the stack with the items already closed under it.
      (toc.js keeps the level and the heading's sub-list; the item itself is
      attached to its parent here when its frame is popped.) */
  datatype Frame = Frame(heading: Heading, kids: seq<Item>)

  /** The items the open frames stand for, each holding the next one as its
      last child. */
  function Chain(stack: seq<Frame>): seq<Item>
    decreases |stack|
  {
    if stack == [] then []
    else [Item(stack[0].heading, stack[0].kids + Chain(stack[1..]))]
  }

  /** The list the next closed item would be appended to. */
  function OpenList(root: seq<Item>, stack: seq<Frame>): seq<Item> {
    if stack == [] then root else stack[|stack| - 1].kids
  }

  /** Stack levels strictly increase from bottom to top. */
  predicate Increasing(stack: seq<Frame>) {
    forall i, j :: 0 <= i < j < |stack| ==> stack[i].heading.level < stack[j].heading.level
  }

  lemma {:induction false} ChainSingle(f: Frame)
    ensures Chain([f]) == [Item(f.heading, f.kids)]
  {
    assert [f][1..] == [];
    assert [f][0] == f;
    assert Chain([f]) == [Item(f.heading, f.kids + Chain([f][1..]))];
    assert f.kids + [] == f.kids;
  }

  /** The state after the top frame is popped: its item is closed and
      appended to the frame below it, or to the root list. */
  function Pop(root: seq<Item>, stack: seq<Frame>): (seq<Item>, seq<Frame>)
    requires stack != []
  {
    var n := |stack|;
    var top := stack[n - 1];
    var closed := Item(top.heading, top.kids);
    if n == 1 then (root + [closed], [])
    else
      var below := stack[n - 2];
      (root, stack[..n - 2] + [Frame(below.heading, below.kids + [closed])])
  }

  lemma {:induction false} ChainPop(stack: seq<Frame>)
    requires |stack| >= 2
    ensures Chain(Pop([], stack).1) == Chain(stack)
    decreases |stack|
  {
    var n := |stack|;
    var p := Pop([], stack).1;
    if n == 2 {
      ChainSingle(p[0]);
      assert p == [p[0]];
      ChainSingle(stack[1]);
      assert stack[1..] == [stack[1]];
    } else {
      assert p[0] == stack[0];
      assert p[1..] == Pop([], stack[1..]).1;
      ChainPop(stack[1..]);
    }
  }

  /** Popping keeps the outline the state stands for and the increasing
      levels, and leaves the popped item last in the open list. */
  lemma {:induction false} PopChain(root: seq<Item>, stack: seq<Frame>)
    requires stack != []
    ensures Pop(root, stack).0 + Chain(Pop(root, stack).1) == root + Chain(stack)
  {
    var n := |stack|;
    if n == 1 {
      ChainSingle(stack[0]);
    } else {
      ChainPop(stack);
      assert Pop(root, stack).1 == Pop([], stack).1;
    }
  }

  lemma {:induction false} PopIncreasing(root: seq<Item>, stack: seq<Frame>)
    requires stack != [] && Increasing(stack)
    ensures Increasing(Pop(root, stack).1)
  {
  }

  lemma {:induction false} PopOpen(root: seq<Item>, stack: seq<Frame>)
    requires stack != []
    ensures var l := OpenList(Pop(root, stack).0, Pop(root, stack).1);
         l != [] && l[|l| - 1].heading == stack[|stack| - 1].heading
  {
  }

  /** Pushing a fresh frame onto a stack of strictly shallower headings adds
      the heading to the outline the open frames and closed items stand for. */
  lemma {:induction false} PushIsAppend(root: seq<Item>, stack: seq<Frame>, h: Heading)
    requires forall j :: 0 <= j < |stack| ==> stack[j].heading.level < h.level
    requires var l := OpenList(root, stack); l == [] || l[|l| - 1].heading.level >= h.level
    ensures root + Chain(stack + [Frame(h, [])]) == Append(root + Chain(stack), h)
    decreases |stack|
  {
    if stack == [] {
      assert stack + [Frame(h, [])] == [Frame(h, [])];
      ChainSingle(Frame(h, []));
    } else {
      var s0 := stack[0];
      var rest := stack[1..];
      assert (stack + [Frame(h, [])])[1..] == rest + [Frame(h, [])];
      assert OpenList(s0.kids, rest) == OpenList(root, stack);
      PushIsAppend(s0.kids, rest, h);
      var item := Item(s0.heading, s0.kids + Chain(rest));
      assert root + Chain(stack) == root + [item];
      assert (root + [item])[..|root + [item]| - 1] == root;
    }
  }

  lemma {:induction false} PushIncreasing(stack: seq<Frame>, h: Heading)
    requires Increasing(stack)
    requires stack == [] || stack[|stack| - 1].heading.level < h.level
    ensures Increasing(stack + [Frame(h, [])])
    ensures forall j :: 0 <= j < |stack| ==> stack[j].heading.level < h.level
  {
  }

  lemma {:induction false} OutlinePrefix(hs: seq<Heading>, i: nat)
    requires i < |hs|
    ensures Outline(hs[..i + 1]) == Append(Outline(hs[..i]), hs[i])
  {
    assert hs[..i + 1][..i] == hs[..i];
  }

  /** Pushing heading i after the jump back keeps the loop invariant. */
  lemma {:induction false} PushStep(hs: seq<Heading>, i: nat, toc: seq<Item>, stack: seq<Frame>)
    requires i < |hs| && Increasing(stack)
    requires stack == [] || stack[|stack| - 1].heading.level < hs[i].level
    requires var l := OpenList(toc, stack); l == [] || l[|l| - 1].heading.level >= hs[i].level
    requires toc + Chain(stack) == Outline(hs[..i])
    ensures Increasing(stack + [Frame(hs[i], [])])
    ensures OpenList(toc, stack + [Frame(hs[i], [])]) == []
    ensures toc + Chain(stack + [Frame(hs[i], [])]) == Outline(hs[..i + 1])
  {
    PushIncreasing(stack, hs[i]);
    PushIsAppend(toc, stack, hs[i]);
    OutlinePrefix(hs, i);
  }

  /** The jump back of generateTOC: every open heading that is not
      shallower than h is closed, without changing the outline. */
  method CloseDeeper(toc0: seq<Item>, stack0: seq<Frame>, h: Heading) returns (toc: seq<Item>, stack: seq<Frame>)
    requires Increasing(stack0) && OpenList(toc0, stack0) == []
    ensures Increasing(stack)
    ensures stack == [] || stack[|stack| - 1].heading.level < h.level
    ensures var l := OpenList(toc, stack); l == [] || l[|l| - 1].heading.level >= h.level
    ensures toc + Chain(stack) == toc0 + Chain(stack0)
  {
    toc, stack := toc0, stack0;
    while stack != [] && h.level <= stack[|stack| - 1].heading.level
      invariant Increasing(stack)
      invariant var l := OpenList(toc, stack); l == [] || l[|l| - 1].heading.level >= h.level
      invariant toc + Chain(stack) == toc0 + Chain(stack0)
      decreases |stack|
    {
      PopChain(toc, stack);
      PopIncreasing(toc, stack);
      PopOpen(toc, stack);
      toc, stack := Pop(toc, stack).0, Pop(toc, stack).1;
    }
  }

  /** generateTOC: one pass over the headings with a stack of open headings;
      the result is the outline of the headings. */
  method GenerateToc(hs: seq<Heading>) returns (toc: seq<Item>)
    ensures toc == Outline(hs)
  {
    var stack: seq<Frame> := [];
    toc := [];
    var i := 0;
    while i < |hs|
      invariant 0 <= i <= |hs|
      invariant Increasing(stack)
      invariant OpenList(toc, stack) == []
      invariant toc + Chain(stack) == Outline(hs[..i])
    {
      toc, stack := Visit(hs, i, toc, stack);
      i := i + 1;
    }
    assert hs[..i] == hs;
    toc := CloseAll(toc, stack);
  }

  /** One turn of the loop of generateTOC: the jump back to the nearest
      shallower open heading, then heading i pushed as a new open heading. */
  method Visit(hs: seq<Heading>, i: nat, toc0: seq<Item>, stack0: seq<Frame>) returns (toc: seq<Item>, stack: seq<Frame>)
    requires i < |hs| && Increasing(stack0) && OpenList(toc0, stack0) == []
    requires toc0 + Chain(stack0) == Outline(hs[..i])
    ensures Increasing(stack) && OpenList(toc, stack) == []
    ensures toc + Chain(stack) == Outline(hs[..i + 1])
  {
    var h := hs[i];
    toc, stack := CloseDeeper(toc0, stack0, h);
    // the new item goes under the top of the stack, or into the root list
    PushStep(hs, i, toc, stack);
    stack := stack + [Frame(h, [])];
  }

  /** The end of generateTOC: the open headings all closed. */
  method CloseAll(toc0: seq<Item>, stack0: seq<Frame>) returns (toc: seq<Item>)
    requires Increasing(stack0)
    ensures toc == toc0 + Chain(stack0)
  {
    toc := toc0;
    var stack := stack0;
    while stack != []
      invariant Increasing(stack)
      invariant toc + Chain(stack) == toc0 + Chain(stack0)
      decreases |stack|
    {
      PopChain(toc, stack);
      PopIncreasing(toc, stack);
      toc, stack := Pop(toc, stack).0, Pop(toc, stack).1;
    }
  }

  // ---------------------------------------------------------------------
  // Worked examples

  /** The outline of a sequence with one more heading, spelled out. */
  lemma {:induction false} OutlineSnoc(hs: seq<Heading>, h: Heading)
    ensures Outline(hs + [h]) == Append(Outline(hs), h)
  {
    assert (hs + [h])[..|hs|] == hs;
  }

  /** A heading deeper than the only item goes under it. */
  lemma {:induction false} AppendUnder(t: Item, h: Heading)
    requires t.heading.level < h.level
    ensures Append([t], h) == [Item(t.heading, Append(t.children, h))]
  {
    assert [t][..0] == [];
  }

  /** The first heading is the first item. */
  lemma {:induction false} AppendEmpty(h: Heading)
    ensures Append([], h) == [Item(h, [])]
  {
    assert [] + [Item(h, [])] == [Item(h, [])];
  }

  /** A heading no deeper than the only item starts a new item. */
  lemma {:induction false} AppendLeaf2(t: Item, h: Heading)
    requires t.heading.level >= h.level
    ensures Append([t], h) == [t, Item(h, [])]
  {
    assert [t] + [Item(h, [])] == [t, Item(h, [])];
  }

  lemma {:induction false} OutlineOne(h: Heading)
    ensures Outline([h]) == [Item(h, [])]
  {
    OutlineSnoc([], h);
    assert [] + [h] == [h];
  }

  /** A heading followed by a deeper one: the second nests under the first. */
  lemma {:induction false} OutlineTwo(a: Heading, x: Heading)
    requires a.level < x.level
    ensures Outline([a, x]) == [Item(a, [Item(x, [])])]
  {
    OutlineOne(a);
    OutlineSnoc([a], x);
    assert [a] + [x] == [a, x];
    AppendUnder(Item(a, []), x);
    AppendEmpty(x);
  }

  /** A third heading deeper than the first but not than the second becomes
      the second's sibling. */
  lemma {:induction false} OutlineThree(a: Heading, x: Heading, y: Heading)
    requires a.level < x.level && a.level < y.level <= x.level
    ensures Outline([a, x, y]) == [Item(a, [Item(x, []), Item(y, [])])]
  {
    OutlineTwo(a, x);
    OutlineSnoc([a, x], y);
    assert [a, x] + [y] == [a, x, y];
    AppendUnder(Item(a, [Item(x, [])]), y);
    AppendLeaf2(Item(x, []), y);
  }

  /** h1 A, h2 A.1, h2 A.2, h1 B nests the two h2 under A. */
  lemma {:induction false} ExampleSiblings()
    ensures var a := Heading(1, "A"); var a1 := Heading(2, "A.1");
      var a2 := Heading(2, "A.2"); var b := Heading(1, "B");
      Outline([a, a1, a2, b]) == [Item(a, [Item(a1, []), Item(a2, [])]), Item(b, [])]
  {
    var a := Heading(1, "A");
    var a1 := Heading(2, "A.1");
    var a2 := Heading(2, "A.2");
    var b := Heading(1, "B");
    OutlineThree(a, a1, a2);
    OutlineSnoc([a, a1, a2], b);
    assert [a, a1, a2] + [b] == [a, a1, a2, b];
    AppendLeaf2(Item(a, [Item(a1, []), Item(a2, [])]), b);
  }

  /** A level skip nests directly: h1, h3, h2 puts both under the h1. */
  lemma {:induction false} ExampleLevelSkip()
    ensures var a := Heading(1, "A"); var x := Heading(3, "A.x"); var y := Heading(2, "A.y");
      Outline([a, x, y]) == [Item(a, [Item(x, []), Item(y, [])])]
  {
    OutlineThree(Heading(1, "A"), Heading(3, "A.x"), Heading(2, "A.y"));
  }

  /** No headings, no items. */
  lemma {:induction false} ExampleEmpty()
    ensures Outline([]) == []
  {
  }
}

=== FILE: wrappers.dfy ===
/** Small failure-compatible wrapper used where the source returns `null`,
    `undefined` or "no match". */
module Wrappers {

  datatype Option<+T> = None | Some(value: T) {

    predicate IsFailure() {
      None?
    }

    function PropagateFailure<U>(): Option<U>
      requires None?
    {
      None
    }

    function Extract(): T
      requires Some?
    {
      value
    }

    /** The value in Some, or `default` for None. */
    function GetOr(default: T): T {
      match this
      case Some(v) => v
      case None => default
    }
  }
}
